=== FILE: README.md ===
# TraktKit request, response and cache logic in Dafny

This project models the logic of TraktKit, a Swift client for the Trakt REST API. It covers the following parts:

- **Request descriptors.** Each endpoint case of `Movies`, `Sync`, `Users`, `Authentication` and the check-in endpoint maps to an HTTP method, a URL, an optional body and request headers. The URL is a path relative to `https://api.trakt.tv` plus an ordered list of query items. It is built with the `URL+QueryItem` helpers and `String(Int?)`.
- **Response headers.** `HTTPResponseHeaders` reads three things:
  - `Etag`, looked up with case-sensitive names;
  - the first `max-age`-prefixed directive of `Cache-Control`. A negative value is accepted, as the code accepts it;
  - the four `x-pagination-*` headers.
- **The network client.** It builds a request, classifies the transport outcome and keeps a response store. The store is read before any network call, filled on a 2xx answer and emptied by `clearCaches`.
- **The `Trakt` layer.** This covers:
  - the `Authorization` header merge;
  - wrapping failures as `networkError`;
  - `204` becoming `emptyContent`;
  - the decoding-error mapping;
  - the pagination precondition;
  - the login precondition;
  - the guards of `getToken`.
- **The cache configurations.** `name`, `key`, `diskMaxSize`, `memoryMaxItemCount` and `allCases` of the `Movies`, `Sync` and `Users` caches. The lemmas prove which parameters are part of a key and which are not.
- **Payload builders and small codecs.** These are:
  - the sync, collectable, rateable and check-in payloads;
  - `hideSpoilers`;
  - `DecodableInteger`;
  - the two-key `CollectedItem` codec;
  - `CacheEntry` and its expiry arithmetic.

Everything is a pure function over immutable datatypes. The response store is a map threaded through the calls. Decoders of model types are uninterpreted functions passed as parameters. Time is an explicit `now` in whole seconds. The network is a `Transport` value: the error, data and response that the session would deliver.

The modules follow the source files:

| module | file | source |
|---|---|---|
| `Wrappers`, `Errors` | wrappers.dfy, errors.dfy | result and error types (`TraktError`, the four decoding failures) |
| `Strings` | strings.dfy | Extensions/String+TraktKit.swift |
| `Text` | text.dfy | the Foundation string operations the code uses: `lowercased`, `split`, `trimmingCharacters` |
| `Types` | types.dfy | the raw-valued enumerations and `Pagination`/`PaginationData` |
| `Urls` | urls.dfy | Extensions/URL+QueryItem.swift |
| `Json` | json.dfy | a JSON value: the encoder's output and the decoder's input |
| `Endpoints` | endpoints.dfy | the `Endpoint` protocol and `HTTPMethod` |
| `ResponseHeaders` | responseheaders.dfy | Networking/HTTPResponseHeaders.swift |
| `NetworkClient` | networkclient.dfy | Networking/NetworkClient.swift |
| `TraktApi` | trakt.dfy | the legacy Networking/API/Trakt.swift |
| `MoviesEndpoint`, `SyncEndpoint`, `UsersEndpoint`, `AuthenticationEndpoint` | movies.dfy, sync.dfy, users.dfy, authentication.dfy | the endpoint enumerations |
| `Checkin`, `SyncCalls` | checkin.dfy, syncapi.dfy | Trakt+Checkin.swift, Trakt+Sync.swift |
| `CacheKeys`, `MoviesCache`, `SyncCache`, `UsersCache` | cachekeys.dfy, moviescache.dfy, synccache.dfy, userscache.dfy | the `CacheConfig+*` files |
| `CacheEntries` | cacheentry.dfy | Networking/Caching/CacheEntry.swift |
| `Comments`, `DecodableIntegers`, `CollectedItems` | comments.dfy, decodableinteger.dfy, collecteditem.dfy | the model files |

## Model

| member | source | states |
|---|---|---|
| Strings.IntString | Sources/TraktKit/Extensions/String+TraktKit.swift:11-16 | the decimal rendering of an integer: a sign exactly when negative, then digits only |
| Strings.OptionalIntString | Sources/TraktKit/Extensions/String+TraktKit.swift:11-16 | `String(nil)` is the empty string and nothing else is; `String(v)` is the decimal rendering of v |
| Strings.AsInt | Sources/TraktKit/Extensions/String+TraktKit.swift:22-24 | `asInt` succeeds exactly on an optionally signed run of digits whose value fits a 64-bit `Int`, and returns that value |
| Strings.IntStringRoundTrip | Sources/TraktKit/Extensions/String+TraktKit.swift:15-24 | `String(Some(v)).asInt == v` for every 64-bit v |
| Strings.IntStringInjective | Sources/TraktKit/Extensions/String+TraktKit.swift:11-16 | different integers render differently |
| Strings.DigitsValueOfNatString | Sources/TraktKit/Extensions/String+TraktKit.swift:15 | the digits of a natural number read back as that number |
| Strings.AsIntOfEmpty | Sources/TraktKit/Extensions/String+TraktKit.swift:22-24 | the empty string is not a number |
| Strings.AsIntRejectsNonDigits | Sources/TraktKit/Extensions/String+TraktKit.swift:22-24 | any non-digit, other than a sign in front, makes `asInt` nil |
| Strings.WithoutLinebreaks | Sources/TraktKit/Extensions/String+TraktKit.swift:18-20 | the result holds no line feed |
| Strings.WithoutLinebreaksCounts | Sources/TraktKit/Extensions/String+TraktKit.swift:18-20 | the result holds every other character as often as the input does |
| Strings.WithoutLinebreaksConcat | Sources/TraktKit/Extensions/String+TraktKit.swift:18-20 | removal works piecewise, so the kept characters stay in order |
| Strings.WithoutLinebreaksIdentity | Sources/TraktKit/Extensions/String+TraktKit.swift:18-20 | a string without line feeds is returned unchanged |
| Strings.WithoutLinebreaksIdempotent | Sources/TraktKit/Extensions/String+TraktKit.swift:18-20 | applying it twice is applying it once |
| Text.Lowercased | Sources/TraktKit/Networking/HTTPResponseHeaders.swift:46 | `lowercased()` keeps the length, maps each letter to its lower case and leaves no upper-case letter |
| Text.LowercasedIdentity | Sources/TraktKit/Networking/HTTPResponseHeaders.swift:46 | a string without upper-case letters is unchanged |
| Text.Pieces | Sources/TraktKit/Networking/HTTPResponseHeaders.swift:46-48 | cutting at every separator gives at least one piece, none holding the separator |
| Text.JoinPieces | Sources/TraktKit/Networking/HTTPResponseHeaders.swift:46-48 | joining the pieces with the separator gives back the string |
| Text.PiecesOfJoin | Sources/TraktKit/Networking/HTTPResponseHeaders.swift:46-48 | cutting a join of separator-free pieces gives back the pieces |
| Text.Split | Sources/TraktKit/Networking/HTTPResponseHeaders.swift:46-48 | `split(separator:)` yields only non-empty pieces without the separator |
| Text.NonEmptyIdentity | Sources/TraktKit/Networking/HTTPResponseHeaders.swift:46-48 | dropping empty pieces keeps a list that has none |
| Text.NonEmptyIsSublist | Sources/TraktKit/Networking/HTTPResponseHeaders.swift:46-48 | dropping empty pieces invents nothing |
| Text.SplitJoin | Sources/TraktKit/Networking/HTTPResponseHeaders.swift:46-48 | splitting a join of non-empty, separator-free pieces gives back the pieces |
| Text.TrimStart | Sources/TraktKit/Networking/HTTPResponseHeaders.swift:46 | the result is a suffix; every removed character is in the set and the first kept one is not |
| Text.TrimEnd | Sources/TraktKit/Networking/HTTPResponseHeaders.swift:46 | the result is a prefix; every removed character is in the set and the last kept one is not |
| Text.Trim | Sources/TraktKit/Model/Comments/Comment.swift:38 | a non-empty result neither starts nor ends with a character of the set |
| Text.TrimIdentity | Sources/TraktKit/Model/Comments/Comment.swift:38 | a string with no such character at either end is unchanged |
| Text.TrimIdempotent | Sources/TraktKit/Model/Comments/Comment.swift:38 | trimming twice is trimming once |
| Text.TrimStartSkips | Sources/TraktKit/Networking/HTTPResponseHeaders.swift:46 | a leading run of set characters is ignored |
| Text.TrimEndSkips | Sources/TraktKit/Networking/HTTPResponseHeaders.swift:46 | a trailing run of set characters is ignored |
| Text.TrimPadded | Sources/TraktKit/Networking/HTTPResponseHeaders.swift:46 | padding on both sides of a trimmed word is removed exactly |
| Types.RawValuesInjective | Sources/TraktKit/Networking/API/Sync/Sync.swift:9-17 | no two cases of `InfoLevel`, `WatchedType`, `CollectableType` or `ContentType` share a raw value |
| Types.InfoLevel.Raw | Sources/TraktKit/Networking/API/Movies/Trakt+Movies.swift:15-17 | every raw value is a non-empty lower-case word |
| Types.TimePeriod.Raw | Sources/TraktKit/Networking/API/Movies/Trakt+Movies.swift:19-25 | every raw value is a non-empty lower-case word |
| Types.WatchedType.Raw | Sources/TraktKit/Networking/API/Sync/Sync.swift:9-13 | a lower-case word, empty exactly for `all` |
| Types.CollectableType.Raw | Sources/TraktKit/Networking/API/Sync/Sync.swift:15-17 | every raw value is a non-empty lower-case word |
| Types.ContentType.Raw | Sources/TraktKit/Networking/API/Sync/Trakt+Sync.swift:10-16 | a lower-case word, empty exactly for `all` |
| Endpoints.HttpMethod.Raw | Sources/TraktKit/Networking/NetworkClient.swift:64 | the method sent is a non-empty upper-case word |
| Urls.AppendingPathComponent | Sources/TraktKit/Extensions/URL+QueryItem.swift:12-15 | appending a path component keeps the query |
| Urls.AppendingPathComponentShape | Sources/TraktKit/Extensions/URL+QueryItem.swift:12-15 | the new path is the old one, one `/` unless it already ends in one, then the component |
| Urls.AppendingOptionalPathComponent | Sources/TraktKit/Extensions/URL+QueryItem.swift:12-15 | `nil` leaves the URL unchanged; a value appends it as a component |
| Urls.AppendingQueryItem | Sources/TraktKit/Extensions/URL+QueryItem.swift:17-26 | the path and the existing items, in order, are kept; the new item is last; the list grows by exactly one |
| Urls.AppendingQueryItems | Sources/TraktKit/Extensions/URL+QueryItem.swift:28-32 | the items are appended in order after the existing ones; the path is kept |
| Urls.AppendingQueryItemsSplit | Sources/TraktKit/Extensions/URL+QueryItem.swift:28-32 | appending two lists one after the other is appending their concatenation, so the call is a left fold of single appends |
| Urls.AppendingLimitQuery | Sources/TraktKit/Extensions/URL+QueryItem.swift:34-36 | adds one `limit` item: empty for `nil`, the decimal value otherwise |
| Urls.LimitQueryReadsBack | Sources/TraktKit/Extensions/URL+QueryItem.swift:34-36 | the `limit` value read back with `asInt` is the limit given, or nothing for `nil` |
| Urls.AppendingPagination | Sources/TraktKit/Extensions/URL+QueryItem.swift:38-41 | adds exactly `page` then `limit` |
| Urls.AppendingInfo | Sources/TraktKit/Extensions/URL+QueryItem.swift:43-46 | `nil` is the identity; a level adds `extended=<raw>` |
| Urls.AppendingTimePeriod | Sources/TraktKit/Extensions/URL+QueryItem.swift:48-51 | `nil` is the identity; a period is appended as a path component |
| Urls.Lookup | Sources/TraktKit/Extensions/URL+QueryItem.swift:17-26 | absent exactly when no item has the name; otherwise the value of an item with the name that no earlier item shares |
| Urls.LookupConcat | Sources/TraktKit/Extensions/URL+QueryItem.swift:28-32 | looking up in an extended query finds the earlier item first |
| Urls.EntryValueAt | Sources/TraktKit/Networking/API/Sync/Sync.swift:197-214 | in a table of distinct names, a name reads back its own entry |
| Urls.EntryValueAbsent | Sources/TraktKit/Networking/API/Sync/Sync.swift:197-214 | a name not in the table reads back nothing |
| Urls.PresentItemsOfFive | Sources/TraktKit/Networking/API/Sync/Sync.swift:197-214 | the query of five optional entries holds exactly the present ones, in order |
| Urls.PresentItemsLookup | Sources/TraktKit/Networking/API/Sync/Sync.swift:197-214 | an entry is in the query exactly when its value is present, and then with that value |
| Urls.RenderSingle | Sources/TraktKit/Extensions/URL+QueryItem.swift:17-26 | a URL with one item renders as base, path, `?` and `name=value` |
| Urls.AppendingQueryItemRendering | Sources/TraktKit/Extensions/URL+QueryItem.swift:17-26 | an appended item renders after `&`, or after `?` when it is the first |
| Urls.AppendingPathComponentRendering | Sources/TraktKit/Extensions/URL+QueryItem.swift:12-15 | a query-free URL renders with the component after the path |
| Urls.RenderQuery | Sources/TraktKit/Extensions/URL+QueryItem.swift:17-26 | an empty query renders as nothing; otherwise the rendering ends with the last item |
| Urls.AbsoluteString | Sources/TraktKit/Extensions/URL+QueryItem.swift:17-26 | the text starts with the base address and the path; it is exactly that when there is no query, and otherwise continues with `?` and the rendered query |
| Json.Member | TraktKit/Model/Sync/CollectedItem.swift:27-39 | only an object has members; an object's member under a key is the value its fields hold for that key |
| Json.FieldValue | TraktKit/Model/Sync/CollectedItem.swift:27-52 | a key has a value exactly when some field carries it |
| Json.FieldValueIsFirst | TraktKit/Model/Sync/CollectedItem.swift:27-39 | the value read under a key is that of the first field carrying the key |
| Json.FieldValueAt | TraktKit/Model/Sync/CollectedItem.swift:27-52 | with distinct keys, a key reads back its own field |
| Json.FieldValueAppend | TraktKit/Model/Sync/CollectedItem.swift:41-52 | the first of two field lists that holds a key decides its value |
| Json.StringMember | Sources/TraktKit/Networking/Endpoints/Authentication.swift:34-37 | a string comes back exactly when the member exists and is a string, and it is that member's string |
| Json.IntMember | Sources/TraktKit/Networking/API/Trakt+Checkin.swift:58-73 | an integer comes back exactly when the member exists and is an integer, and it is that member's integer |
| ResponseHeaders.Header | Sources/TraktKit/Networking/HTTPResponseHeaders.swift:56-58 | a header is read only when every key and value is a string, under its exact, case-sensitive name |
| ResponseHeaders.ParseSeconds | Sources/TraktKit/Networking/HTTPResponseHeaders.swift:50 | a `max-age` value parses exactly when it is an optionally signed integer literal, and then to that integer |
| ResponseHeaders.TrimAll | Sources/TraktKit/Networking/HTTPResponseHeaders.swift:46 | every directive is trimmed of whitespace and newlines, one for one |
| ResponseHeaders.FirstWithPrefix | Sources/TraktKit/Networking/HTTPResponseHeaders.swift:47 | the first directive with the prefix, or none when no directive has it |
| ResponseHeaders.MaxAgeOf | Sources/TraktKit/Networking/HTTPResponseHeaders.swift:48-50 | a value only when splitting at `=` gives exactly two pieces and the second parses |
| ResponseHeaders.FirstMaxAge | Sources/TraktKit/Networking/HTTPResponseHeaders.swift:47-52 | the value of the first directive starting with `max-age`, whatever follows it; no value when no directive starts with `max-age` |
| ResponseHeaders.ParseMaxAge | Sources/TraktKit/Networking/HTTPResponseHeaders.swift:42-53 | no header gives no value; otherwise, among the lowercased, comma-split, trimmed directives, the first starting with `max-age` decides, and none such gives no value |
| ResponseHeaders.IntHeader | Sources/TraktKit/Networking/HTTPResponseHeaders.swift:61-64 | an integer header is present exactly when the header exists and `asInt` accepts it |
| ResponseHeaders.ParsePagination | Sources/TraktKit/Networking/HTTPResponseHeaders.swift:61-68 | pagination exists exactly when all four headers parse, each going to its own field |
| ResponseHeaders.ParseHeaders | Sources/TraktKit/Networking/HTTPResponseHeaders.swift:55-69 | a map that is not all strings gives nothing; `Etag` verbatim; no `Cache-Control` means no max-age, a present one gives the max-age of its directives; pagination as above |
| ResponseHeaders.DirectivesOfJoin | Sources/TraktKit/Networking/HTTPResponseHeaders.swift:46 | the directives of a comma-joined list of lower-case pieces are the trimmed pieces |
| ResponseHeaders.DirectivesAreTrimmedPieces | Sources/TraktKit/Networking/HTTPResponseHeaders.swift:46 | one directive per comma-separated piece of the lower-cased header, each trimmed of whitespace and newlines and free of commas |
| ResponseHeaders.JoinNoUpper | Sources/TraktKit/Networking/HTTPResponseHeaders.swift:46 | joining lower-case pieces leaves nothing to lowercase |
| ResponseHeaders.OnlyMaxAgeDirective | Sources/TraktKit/Networking/HTTPResponseHeaders.swift:47-52 | the single `max-age` directive decides, wherever it stands |
| ResponseHeaders.MaxAgePositionIrrelevant | Sources/TraktKit/Networking/HTTPResponseHeaders.swift:47-52 | moving the only `max-age` directive does not change the result |
| ResponseHeaders.FirstMaxAgeDecides | Sources/TraktKit/Networking/HTTPResponseHeaders.swift:47 | only the first `max-age`-prefixed directive counts, whatever follows |
| ResponseHeaders.MaxAgeValue | Sources/TraktKit/Networking/HTTPResponseHeaders.swift:48-50 | `key=value` with an integer value yields that value |
| ResponseHeaders.HeaderOfPieces | Sources/TraktKit/Networking/HTTPResponseHeaders.swift:42-53 | a header written as a comma-joined list is read as its trimmed directives |
| ResponseHeaders.SinglePiece | Sources/TraktKit/Networking/HTTPResponseHeaders.swift:42-53 | a header of one unpadded directive is read as that directive |
| ResponseHeaders.NotMaxAge | Sources/TraktKit/Networking/HTTPResponseHeaders.swift:47 | a directive not starting `ma` is never taken for `max-age` |
| ResponseHeaders.OneDigitValue | Sources/TraktKit/Networking/HTTPResponseHeaders.swift:50 | one digit parses as its value |
| ResponseHeaders.TwoDigitValue | Sources/TraktKit/Networking/HTTPResponseHeaders.swift:50 | two digits parse as their decimal value |
| ResponseHeaders.NegatedValue | Sources/TraktKit/Networking/HTTPResponseHeaders.swift:50 | a minus sign before digits negates their value, so negative ages are accepted |
| ResponseHeaders.MaxAgeSplit | Sources/TraktKit/Networking/HTTPResponseHeaders.swift:48 | `max-age=v` splits into the key and v |
| ResponseHeaders.NoMaxAgeInThree | Sources/TraktKit/Networking/HTTPResponseHeaders.swift:47-50 | three non-`max-age` directives give no value |
| ResponseHeaders.MaxAgeAt | Sources/TraktKit/Networking/HTTPResponseHeaders.swift:47-50 | the first `max-age=v` directive yields the parse of v |
| ResponseHeaders.SixtyIsSixty | Tests/TraktKitTests/TraktKitTests.swift:81 | `60` parses as 60 |
| ResponseHeaders.NoCacheHasNoMaxAge | Tests/TraktKitTests/TraktKitTests.swift:78 | `no-cache` gives no max-age |
| ResponseHeaders.NoCachingNotMaxAge | Tests/TraktKitTests/TraktKitTests.swift:79 | `no-cache, no-store, must-revalidate` gives no max-age |
| ResponseHeaders.MaxAgeZero | Tests/TraktKitTests/TraktKitTests.swift:80 | `max-age=0` gives 0 |
| ResponseHeaders.MaxAgeSixty | Tests/TraktKitTests/TraktKitTests.swift:81 | `max-age=60` gives 60 |
| ResponseHeaders.MaxAgeNegative | Tests/TraktKitTests/TraktKitTests.swift:82 | `max-age=-1` gives -1 |
| ResponseHeaders.MinusOneIsMinusOne | Tests/TraktKitTests/TraktKitTests.swift:82 | `-1` parses as -1 |
| ResponseHeaders.MaxAgeListedFirst | Tests/TraktKitTests/TraktKitTests.swift:83 | `max-age=60` before three other directives gives 60 |
| ResponseHeaders.MaxAgeListedSecond | Tests/TraktKitTests/TraktKitTests.swift:84 | `max-age=60` as the second directive gives 60 |
| ResponseHeaders.MaxAgeListedLast | Tests/TraktKitTests/TraktKitTests.swift:85 | `max-age=60` as the last directive gives 60 |
| ResponseHeaders.MaxAgeAmongPadding | Tests/TraktKitTests/TraktKitTests.swift:86 | `max-age=60` among padded directives and a trailing empty one gives 60 |
| ResponseHeaders.PaginationReadsBack | Sources/TraktKit/Networking/HTTPResponseHeaders.swift:61-68 | headers that carry the decimal pagination fields read back as those fields |
| ResponseHeaders.PaginationNeedsEveryHeader | Sources/TraktKit/Networking/HTTPResponseHeaders.swift:61-66 | a missing `x-pagination-*` header gives no pagination |
| ResponseHeaders.PaginationHeaders | Tests/TraktKitTests/TraktKitTests.swift:20-37 | the four pagination headers form an all-string map |
| ResponseHeaders.OnlyPagination | Sources/TraktKit/Networking/HTTPResponseHeaders.swift:55-69 | pagination headers alone give no etag, no max-age and the pagination written |
| ResponseHeaders.SmallIntStrings | Tests/TraktKitTests/TraktKitTests.swift:20-37 | 1 to 4 render as single digits |
| ResponseHeaders.PaginationOfTestHeaders | Tests/TraktKitTests/TraktKitTests.swift:20-37 | the headers `1, 2, 3, 4` give item count 1, limit 2, page 3 and page count 4 |
| ResponseHeaders.EtagIsCaseSensitive | Sources/TraktKit/Networking/HTTPResponseHeaders.swift:58 | `ETag` is not found, `Etag` is |
| NetworkClient.AddValues | Sources/TraktKit/Networking/NetworkClient.swift:67 | `addValue` keeps unrelated headers, adds new ones and joins a repeated one with a comma |
| NetworkClient.AddNoValues | Sources/TraktKit/Networking/NetworkClient.swift:67 | adding no headers changes nothing |
| NetworkClient.AddValuesToNone | Sources/TraktKit/Networking/NetworkClient.swift:66-67 | added to no headers, the additional headers are the headers |
| NetworkClient.BuildRequest | Sources/TraktKit/Networking/NetworkClient.swift:62-74 | the request has the endpoint's URL, method and body; its headers are the endpoint's with each additional header added on top |
| NetworkClient.BuildRequestInjective | Sources/TraktKit/Networking/NetworkClient.swift:62-74 | nothing of the endpoint is lost in its request |
| NetworkClient.Answer | Sources/TraktKit/Networking/NetworkClient.swift:80-82 | a success carries the data, the status and the parsed headers |
| NetworkClient.Classify | Sources/TraktKit/Networking/NetworkClient.swift:89-108 | in order: transport error, then missing data, then a non-HTTP response, then a status outside 200..<300 is `httpError(status)`; only what passes all four succeeds |
| NetworkClient.StartRequest | Sources/TraktKit/Networking/NetworkClient.swift:76-113 | a stored request is answered from the store without the network; otherwise the outcome is classified and only a success is stored |
| NetworkClient.StoredRequestIgnoresNetwork | Sources/TraktKit/Networking/NetworkClient.swift:79-83 | whatever the network would do, a stored request gets the same answer |
| NetworkClient.RepeatIsServedFromStore | Tests/TraktKitTests/TraktKitTests.swift:39-75 | after a success, the same request again gets the same answer whatever the network does |
| NetworkClient.OtherRequestsUntouched | Sources/TraktKit/Networking/NetworkClient.swift:105 | a request only ever stores its own answer |
| NetworkClient.ClearCaches | Sources/TraktKit/Networking/NetworkClient.swift:49-51 | the store is left empty |
| NetworkClient.ClearedStoreMisses | Sources/TraktKit/Networking/NetworkClient.swift:49-51 | after clearing, every request goes to the network |
| TraktApi.JsonEndpoint | Sources/TraktKit/Networking/Endpoints/Authentication.swift:30-39 | an endpoint with a JSON body keeps its method, URL and headers and carries the same body |
| TraktApi.SyncDataEndpoint | Sources/TraktKit/Networking/API/Sync/Sync.swift:91-113 | a sync endpoint keeps its method, URL and headers and carries the same payload |
| TraktApi.PlainEndpoint | Sources/TraktKit/Networking/API/Movies/Movies.swift:33-43 | a body-less endpoint keeps its method, URL and headers |
| TraktApi.Authenticate | TraktKit/Networking/API/Trakt.swift:30-32 | the client keeps its provider and store and now holds the user |
| TraktApi.AddAuthHeaderTo | TraktKit/Networking/API/Trakt.swift:128-134 | without a user, the headers are unchanged; with one, `Authorization` is `Bearer <token>`, overriding the caller, and every other header is kept |
| TraktApi.RequestFor | Sources/TraktKit/Networking/NetworkClient.swift:53-57 | the request of an endpoint without headers carries exactly the authorised additional headers |
| TraktApi.RequestCarriesToken | TraktKit/Networking/API/Trakt.swift:128-134 | a logged-in user's request carries the bearer token |
| TraktApi.Execute | Sources/TraktKit/Networking/NetworkClient.swift:53-57 | sending keeps the provider and user and threads the store through `startRequest` |
| TraktApi.WrapFailure | TraktKit/Networking/API/Trakt.swift:98-105 | a success passes unchanged; a failure e becomes `networkError(e)` |
| TraktApi.AuthenticatedRequest | TraktKit/Networking/API/Trakt.swift:97-106 | a success of the network client is passed on unchanged; a failure e becomes `networkError(e)`; the store is the one the client leaves |
| TraktApi.FailuresAreWrapped | TraktKit/Networking/API/Trakt.swift:97-106 | a transport error or HTTP status reaches the caller inside `networkError` |
| TraktApi.ParseObject | TraktKit/Networking/API/Trakt.swift:142-161 | the decoded value, or `decodingError` of the same one of the four kinds |
| TraktApi.ParseObjectInjective | TraktKit/Networking/API/Trakt.swift:142-161 | equal parse results come from equal decoder outcomes |
| TraktApi.ParseResponse | TraktKit/Networking/API/Trakt.swift:109-125 | failures wrapped; `emptyContent` exactly for a 204 success; otherwise the parse of the data |
| TraktApi.NoContentSkipsDecoder | TraktKit/Networking/API/Trakt.swift:114 | on 204 the decoder is never consulted |
| TraktApi.AuthenticatedRequestAndParse | TraktKit/Networking/API/Trakt.swift:108-126 | the parse of what the network client answers, with the store it leaves |
| TraktApi.FetchObject | TraktKit/Networking/API/Trakt.swift:163-186 | failures passed on; any success decoded, 204 included |
| TraktApi.FetchIgnoresCacheConfig | TraktKit/Networking/API/Trakt.swift:87-89 | the cache configuration has no effect on a fetch |
| TraktApi.ParsePaginated | TraktKit/Networking/API/Trakt.swift:202-213 | requires pagination headers and returns them with the decoded value, or the decoding error |
| TraktApi.FetchPaginatedObject | TraktKit/Networking/API/Trakt.swift:193-224 | under the pagination precondition, a network success is decoded and paired with the response's pagination, or gives the decoding error; a network failure is wrapped |
| TraktApi.OAuthUrl | TraktKit/Networking/API/Trakt.swift:38-40 | the authorize URL carries the client's id, the redirect URI and `response_type=code` |
| TraktApi.CallbackCode | TraktKit/Networking/API/Trakt.swift:51-54 | the value of the first `code` item, none when that item is missing or has no value |
| TraktApi.FirstCodeItemDecides | TraktKit/Networking/API/Trakt.swift:52 | only the first `code` item counts |
| TraktApi.TokenRequestData | TraktKit/Networking/API/Trakt.swift:48-60 | no secret gives `clientSecretMissing`, checked first; then no code gives `oAuthCallbackCodeMissing`; otherwise the data holds the code, id, secret, redirect URI and `authorization_code` |
| TraktApi.GetTokenFrom | TraktKit/Networking/API/Trakt.swift:48-62 | a failed guard answers without touching the network; otherwise the token request is sent and parsed |
| TraktApi.TokenRequestSent | TraktKit/Networking/API/Trakt.swift:56-61 | the token request is a POST to `oauth/token` whose body decodes back to that data |
| TraktApi.ClearClientCaches | TraktKit/Networking/API/Trakt.swift:70-72 | the client keeps its provider and user and its store is emptied |
| MoviesEndpoint.MovieSuffix | Sources/TraktKit/Networking/API/Movies/Movies.swift:48-93 | after the id, only `details` appends nothing; every other per-movie case appends a `/`-led resource |
| MoviesEndpoint.ChartComponent | Sources/TraktKit/Networking/API/Movies/Movies.swift:50-97 | a chart appends a word, never an id |
| MoviesEndpoint.Component | Sources/TraktKit/Networking/API/Movies/Movies.swift:45-97 | a per-movie case starts with the id, ending there or followed by `/`; a chart starts with a letter |
| MoviesEndpoint.WithQuery | Sources/TraktKit/Networking/API/Movies/Movies.swift:52-97 | pagination for the listed cases, `extended` for `details`, page, limit then `extended` for `trending`, nothing otherwise |
| MoviesEndpoint.MoviesUrl | Sources/TraktKit/Networking/API/Movies/Movies.swift:45-99 | the path lies under `/movies/`; the query is exactly `[page, limit]`, `[extended]`, `[page, limit, extended]` or empty, by case |
| MoviesEndpoint.MoviesEndpoint | Sources/TraktKit/Networking/API/Movies/Movies.swift:32-44 | every case is a GET without body or headers |
| MoviesEndpoint.PrefixBeforeSlash | Sources/TraktKit/Networking/API/Movies/Movies.swift:49-93 | an id before a `/`-led suffix is determined by the path |
| MoviesEndpoint.IntStringHasNoSlash | Sources/TraktKit/Networking/API/Movies/Movies.swift:49 | a rendered id holds no `/` |
| MoviesEndpoint.PathNamesTheMovie | Sources/TraktKit/Networking/API/Movies/Movies.swift:48-93 | equal paths of a per-movie case name the same movie and resource, and never a chart |
| MoviesEndpoint.DetailsUrlInjective | Sources/TraktKit/Networking/API/Movies/Movies.swift:57-59 | the details URL determines the movie and the info level |
| MoviesEndpoint.PageIsInUrl | Sources/TraktKit/Networking/API/Movies/Movies.swift:52-97 | different pages never share a URL |
| SyncEndpoint.SyncMethod | Sources/TraktKit/Networking/API/Sync/Sync.swift:73-89 | GET exactly for the reads, DELETE exactly for `removePlayback`, POST exactly for the rest |
| SyncEndpoint.SyncBodyOf | Sources/TraktKit/Networking/API/Sync/Sync.swift:91-113 | no body exactly for the reads and `removePlayback`; otherwise the case's payload |
| SyncEndpoint.HistoryQueryItems | Sources/TraktKit/Networking/API/Sync/Sync.swift:197-214 | `page` first, then at most four more items |
| SyncEndpoint.HistoryEntries | Sources/TraktKit/Networking/API/Sync/Sync.swift:197-214 | the five candidate items have distinct names |
| SyncEndpoint.HistoryQueryIsPresentFilters | Sources/TraktKit/Networking/API/Sync/Sync.swift:197-214 | the query is page, limit, extended, start_at, end_at, keeping those present |
| SyncEndpoint.HistoryQueryReadsBack | Sources/TraktKit/Networking/API/Sync/Sync.swift:197-214 | each filter reads back: `limit` when set, `extended` only for `full`, the dates when set |
| SyncEndpoint.NewHistoryPayload | Sources/TraktKit/Networking/API/Sync/Sync.swift:217-233 | the initialiser stores its arguments |
| SyncEndpoint.DefaultHistoryQuery | Sources/TraktKit/Networking/API/Sync/Sync.swift:217-233 | with the defaults (10 per page, `min`, no filters) the query is `page` and `limit=10` |
| SyncEndpoint.CollectableFrom | Sources/TraktKit/Networking/API/Sync/Sync.swift:235-242 | movies, shows and episodes copied unchanged, seasons added |
| SyncEndpoint.Component | Sources/TraktKit/Networking/API/Sync/Sync.swift:137-184 | every component starts with a letter, so it never doubles the `/` after `sync` |
| SyncEndpoint.RemoveComponents | Sources/TraktKit/Networking/API/Sync/Sync.swift:137-184 | the three removals end with `/remove` |
| SyncEndpoint.WithQuery | Sources/TraktKit/Networking/API/Sync/Sync.swift:137-184 | the query of each read case; writes add none |
| SyncEndpoint.SyncUrl | Sources/TraktKit/Networking/API/Sync/Sync.swift:137-184 | the path lies under `/sync/`; playback has `limit`, collection, watched and ratings `extended`, watchlist `extended, page, limit`, history its filters |
| SyncEndpoint.SyncEndpoint | Sources/TraktKit/Networking/API/Sync/Sync.swift:73-184 | method, body and URL as above, no headers |
| SyncEndpoint.BodyIffPost | Sources/TraktKit/Networking/API/Sync/Sync.swift:73-113 | a body is sent exactly with POST |
| SyncEndpoint.PlaybackWithoutLimitPath | Tests/TraktKitTests/SyncEndpointTests.swift:56 | `sync/playback/movies` |
| SyncEndpoint.PlaybackWithoutLimitQuery | Tests/TraktKitTests/SyncEndpointTests.swift:56 | `?limit=` |
| SyncEndpoint.PlaybackWithLimitPath | Tests/TraktKitTests/SyncEndpointTests.swift:59 | `sync/playback/episodes` |
| SyncEndpoint.PlaybackWithLimitQuery | Tests/TraktKitTests/SyncEndpointTests.swift:59 | `?limit=1` |
| SyncEndpoint.PlaybackForAllTypesPath | Tests/TraktKitTests/SyncEndpointTests.swift:62 | `sync/playback/`, as the empty raw value of `all` gives |
| SyncEndpoint.PlaybackForAllTypesQuery | Tests/TraktKitTests/SyncEndpointTests.swift:62 | `?limit=` |
| SyncEndpoint.WatchlistForMoviesPath | Tests/TraktKitTests/SyncEndpointTests.swift:355 | `sync/watchlist/movies` |
| SyncEndpoint.WatchlistForMoviesQuery | Tests/TraktKitTests/SyncEndpointTests.swift:355 | `?extended=min&page=1&limit=1` |
| SyncEndpoint.WatchlistForAllTypesPath | Tests/TraktKitTests/SyncEndpointTests.swift:357 | `sync/watchlist/` |
| SyncEndpoint.WatchlistForAllTypesQuery | Tests/TraktKitTests/SyncEndpointTests.swift:357 | `?extended=metadata&page=1&limit=1` |
| SyncEndpoint.RatingsForAllTypesPath | Tests/TraktKitTests/SyncEndpointTests.swift:438 | `sync/ratings/` |
| SyncEndpoint.RatingsForAllTypesQuery | Tests/TraktKitTests/SyncEndpointTests.swift:438 | `?extended=min` |
| SyncEndpoint.RatingsForMoviesPath | Tests/TraktKitTests/SyncEndpointTests.swift:440 | `sync/ratings/movies` |
| SyncEndpoint.RatingsForMoviesQuery | Tests/TraktKitTests/SyncEndpointTests.swift:440 | `?extended=full` |
| SyncEndpoint.HistoryPathWithItemId | Tests/TraktKitTests/SyncEndpointTests.swift:297 | `sync/history/movies/3` |
| SyncEndpoint.HistoryQueryWithAllFilters | Tests/TraktKitTests/SyncEndpointTests.swift:297 | `?page=1&limit=2&extended=full&start_at=123&end_at=456` |
| SyncCalls.Containers | Sources/TraktKit/Networking/API/Sync/Trakt+Sync.swift:297-299 | one container per id, in order, each holding its id |
| SyncCalls.TraktIds | Sources/TraktKit/Networking/API/Sync/Trakt+Sync.swift:297-299 | one id per container |
| SyncCalls.ContainersRoundTrip | Sources/TraktKit/Networking/API/Sync/Trakt+Sync.swift:297-299 | the containers give back exactly the ids they were built from |
| SyncCalls.MakeSyncPayload | Sources/TraktKit/Networking/API/Sync/Trakt+Sync.swift:292-295 | the items become `ids` unchanged; each list has one entry per id |
| SyncCalls.SyncPayloadReadsBack | Sources/TraktKit/Networking/API/Sync/Trakt+Sync.swift:292-299 | each list of the payload holds exactly its ids, in order |
| SyncCalls.MakeCollectablePayload | Sources/TraktKit/Networking/API/Sync/Trakt+Sync.swift:285-290 | movies, shows and episodes kept; the seasons carry the ids given |
| SyncCalls.HistoryAddition | Sources/TraktKit/Networking/API/Sync/Trakt+Sync.swift:148-153 | `addToHistory` sends an empty `ids` list and the given ids |
| SyncCalls.HistoryRemoval | Sources/TraktKit/Networking/API/Sync/Trakt+Sync.swift:155-160 | `removeFromHistory` forwards the items and the given ids |
| SyncCalls.CollectableOf | Sources/TraktKit/Networking/API/Sync/Trakt+Sync.swift:221-290 | the collectable payload of the watchlist and rating removals carries each list's ids |
| SyncCalls.RatingPayload | Sources/TraktKit/Networking/API/Sync/Trakt+Sync.swift:193-205 | exactly one rated item, with the given rating, date and id, in the list for its content |
| SyncCalls.RatingOnlyInItsList | Sources/TraktKit/Networking/API/Sync/Trakt+Sync.swift:196-205 | the other three lists are empty |
| SyncCalls.AddRating | Sources/TraktKit/Networking/API/Sync/Trakt+Sync.swift:189-209 | for a logged-in user and a rating from 1 to 10, the payload is posted to `sync/ratings` and the answer parsed |
| SyncCalls.PlaybackRemoved | Sources/TraktKit/Networking/API/Sync/Trakt+Sync.swift:58-65 | any success becomes `()`; a failure passes unchanged |
| SyncCalls.RemovePlaybackItem | Sources/TraktKit/Networking/API/Sync/Trakt+Sync.swift:55-66 | a DELETE of `sync/playback/<id>` that succeeds exactly when the request does; a failure passes the request's error on unchanged |
| UsersEndpoint.Resource | Sources/TraktKit/Networking/API/Users/Users.swift:35-38 | the resource after the user id starts with `/` |
| UsersEndpoint.UsersUrl | Sources/TraktKit/Networking/API/Users/Users.swift:32-40 | `users/<id>` then the resource, with no query |
| UsersEndpoint.UsersEndpoint | Sources/TraktKit/Networking/API/Users/Users.swift:11-30 | both cases are GET without body or headers |
| UsersEndpoint.UrlNamesUserAndResource | Sources/TraktKit/Networking/API/Users/Users.swift:32-40 | two URLs agree exactly when the user and the case agree; the info level plays no part |
| UsersEndpoint.WatchingAndStatsDiffer | Sources/TraktKit/Networking/API/Users/Users.swift:33-39 | for one user the two cases have different URLs |
| UsersEndpoint.WatchingForTestUser | Sources/TraktKit/Networking/API/Users/Users.swift:35-36 | `users/test/watching` |
| UsersEndpoint.StatsForTestUser | Sources/TraktKit/Networking/API/Users/Users.swift:37-38 | `users/test/stats` |
| AuthenticationEndpoint.EncodeToken | Sources/TraktKit/Networking/Endpoints/Authentication.swift:11-39 | the body has the five snake-case keys, each holding the string of its own field: code, client id, client secret, redirect URI, grant type |
| AuthenticationEndpoint.DecodeToken | Sources/TraktKit/Networking/Endpoints/Authentication.swift:11-17 | a token decodes exactly when all five keys hold strings, and each field is the string under its key |
| AuthenticationEndpoint.TokenKeysDistinct | Sources/TraktKit/Networking/Endpoints/Authentication.swift:11-17 | the five keys are distinct |
| AuthenticationEndpoint.TokenRoundTrip | Sources/TraktKit/Networking/Endpoints/Authentication.swift:34-37 | the body decodes back to the token data |
| AuthenticationEndpoint.UnderBase | Sources/TraktKit/Networking/Endpoints/Authentication.swift:51-52 | a component under the base URL is its path |
| AuthenticationEndpoint.AuthenticationUrl | Sources/TraktKit/Networking/Endpoints/Authentication.swift:48-59 | `oauth/authorize` with `response_type=code`, `client_id`, `redirect_uri` in that order; `oauth/token` with no query |
| AuthenticationEndpoint.AuthenticationEndpoint | Sources/TraktKit/Networking/Endpoints/Authentication.swift:21-46 | authorize is a GET without body, getToken a POST with the token body; no headers |
| AuthenticationEndpoint.AuthorizeQueryReadsBack | Sources/TraktKit/Networking/Endpoints/Authentication.swift:53-55 | each authorize parameter reads back its value |
| AuthenticationEndpoint.AuthorizeUrlInjective | Sources/TraktKit/Networking/Endpoints/Authentication.swift:50-55 | the authorize URL determines the client id and redirect URI |
| Checkin.PayloadForType | Sources/TraktKit/Networking/API/Trakt+Checkin.swift:43-55 | a movie fills only `movie`, an episode only `episode`, with the id given |
| Checkin.CheckinTypeOf | Sources/TraktKit/Networking/API/Trakt+Checkin.swift:58-69 | a payload names an item exactly when one of its two objects is present |
| Checkin.PayloadRoundTrip | Sources/TraktKit/Networking/API/Trakt+Checkin.swift:47-53 | every payload holds exactly one object, naming the item checked into |
| Checkin.EncodePayload | Sources/TraktKit/Networking/API/Trakt+Checkin.swift:54-73 | one field per present object |
| Checkin.DecodeObject | Sources/TraktKit/Networking/API/Trakt+Checkin.swift:58-66 | an object decodes exactly when it has an integer `ids.trakt` |
| Checkin.DecodePayload | Sources/TraktKit/Networking/API/Trakt+Checkin.swift:58-73 | an object decodes exactly when each member that is present and not `null` decodes; a missing or `null` member leaves its slot empty, any other member fills it with its decoded object |
| Checkin.NullMovieIsAbsent | Sources/TraktKit/Networking/API/Trakt+Checkin.swift:58-73 | `{"movie": null, "episode": {...}}` decodes as an episode check-in with no movie |
| Checkin.EncodeObject | Sources/TraktKit/Networking/API/Trakt+Checkin.swift:58-73 | the encoded object holds `ids`, whose `trakt` member is the object's id |
| Checkin.ObjectRoundTrip | Sources/TraktKit/Networking/API/Trakt+Checkin.swift:58-71 | an object decodes back from its encoding |
| Checkin.EncodeRoundTrip | Sources/TraktKit/Networking/API/Trakt+Checkin.swift:54-73 | a payload decodes back from its encoding |
| Checkin.CheckinEndpoint | Sources/TraktKit/Networking/API/Trakt+Checkin.swift:28-39 | a POST to `checkin` without headers whose body decodes to the payload |
| Checkin.CheckinEndpointInjective | Sources/TraktKit/Networking/API/Trakt+Checkin.swift:28-53 | the endpoint determines what is checked into |
| Checkin.CheckinRequest | Sources/TraktKit/Networking/API/Trakt+Checkin.swift:25-40 | for a logged-in user, the request carries only the bearer header and the payload |
| Checkin.CheckinCall | Sources/TraktKit/Networking/API/Trakt+Checkin.swift:25-41 | the answer to that request, parsed |
| CacheKeys.FirstField | TraktKit/Caching/CacheConfig+Sync.swift:52-65 | the part of a key before its first `_` |
| CacheKeys.FirstFieldOf | TraktKit/Caching/CacheConfig+Sync.swift:52-65 | a name without `_` is the first field of its key |
| CacheKeys.SplitAtFirst | TraktKit/Caching/CacheConfig+Sync.swift:56-65 | a separator-free prefix is recovered from the joined text |
| CacheKeys.SplitAtLast | TraktKit/Caching/CacheConfig+Sync.swift:56-65 | a separator-free suffix is recovered from the joined text |
| CacheKeys.IntStringHasNo | TraktKit/Caching/CacheConfig+Sync.swift:60-61 | a rendered integer holds nothing but a sign and digits |
| MoviesCache.Name | TraktKit/Networking/API/Movies/CacheConfig+Movies.swift:57-79 | every name is non-empty and free of `_`; some carry a leading `.` |
| MoviesCache.NamesDistinct | TraktKit/Networking/API/Movies/CacheConfig+Movies.swift:57-79 | the 19 names are pairwise distinct |
| MoviesCache.InfoText | TraktKit/Networking/API/Movies/CacheConfig+Movies.swift:91-92 | a printed info level holds no comma and ends with the level's raw value |
| MoviesCache.Key | TraktKit/Networking/API/Movies/CacheConfig+Movies.swift:81-122 | every key starts with its name; only `boxOffice`'s key is the bare name; the others continue with `_` |
| MoviesCache.Fields | TraktKit/Networking/API/Movies/CacheConfig+Movies.swift:81-122 | never empty; the tuple-keyed cases start with `(`; the per-movie cases start with the id |
| MoviesCache.KeyNamesTheCase | TraktKit/Networking/API/Movies/CacheConfig+Movies.swift:81-122 | equal keys come from the same case |
| MoviesCache.KeyFirstField | TraktKit/Networking/API/Movies/CacheConfig+Movies.swift:81-122 | the first field of a key is its name |
| MoviesCache.WithPageSize | TraktKit/Networking/API/Movies/CacheConfig+Movies.swift:87-120 | changing the page size keeps the case |
| MoviesCache.PageSizeNotInKey | TraktKit/Networking/API/Movies/CacheConfig+Movies.swift:87-112 | comments, the three time-period charts, recently updated and related share a key across page sizes |
| MoviesCache.PageSizeInTupleKey | TraktKit/Networking/API/Movies/CacheConfig+Movies.swift:95-120 | anticipated, popular and trending differ in key for different page sizes |
| MoviesCache.Tuple2Injective | TraktKit/Networking/API/Movies/CacheConfig+Movies.swift:95-96 | a printed pair gives back both values when the first is comma-free |
| MoviesCache.Tuple3AsTuple2 | TraktKit/Networking/API/Movies/CacheConfig+Movies.swift:119-120 | a printed triple is a pair whose second value runs on |
| MoviesCache.Tuple3Injective | TraktKit/Networking/API/Movies/CacheConfig+Movies.swift:119-120 | a printed triple gives back all three values |
| MoviesCache.InfoTextInjective | TraktKit/Networking/API/Movies/CacheConfig+Movies.swift:91-92 | a printed info level determines the level |
| MoviesCache.SameKeySameFields | TraktKit/Networking/API/Movies/CacheConfig+Movies.swift:81-122 | equal keys of one case have equal values after the name |
| MoviesCache.WholeTupleInKey | TraktKit/Networking/API/Movies/CacheConfig+Movies.swift:91-120 | details, anticipated, popular and trending keys determine every associated value |
| MoviesCache.TwoIntTuple | TraktKit/Networking/API/Movies/CacheConfig+Movies.swift:95-96 | a printed page and page size give back both numbers |
| MoviesCache.PageInKey | TraktKit/Networking/API/Movies/CacheConfig+Movies.swift:87-120 | different pages of a paginated case never share a key |
| MoviesCache.ListsKeyForm | TraktKit/Networking/API/Movies/CacheConfig+Movies.swift:93-94 | the lists key reads `lists_<id>_<type>)_<sort>_<page>`, stray `)` included |
| MoviesCache.ListsKeyJoinsTypeAndSort | TraktKit/Networking/API/Movies/CacheConfig+Movies.swift:93-94 | list type and sort count only as their joined text |
| MoviesCache.ListsFields | TraktKit/Networking/API/Movies/CacheConfig+Movies.swift:93-94 | the lists fields are id, type with `)`, sort and page |
| MoviesCache.DiskMaxSize | TraktKit/Networking/API/Movies/CacheConfig+Movies.swift:124-144 | 1 MiB for the box office, 5 MiB for a chart, 50 MiB per movie |
| MoviesCache.MemoryMaxItemCount | TraktKit/Networking/API/Movies/CacheConfig+Movies.swift:146-165 | 1 item for the box office, 50 for a chart, 500 per movie |
| MoviesCache.AllCases | TraktKit/Networking/API/Movies/CacheConfig+Movies.swift:13-55 | 19 entries, the i-th of the i-th case |
| MoviesCache.AllCasesCoverEveryCase | TraktKit/Networking/API/Movies/CacheConfig+Movies.swift:13-55 | every case is represented and no two entries share a key |
| SyncCache.Name | TraktKit/Caching/CacheConfig+Sync.swift:25-50 | the six cached reads have non-empty names without `_` |
| SyncCache.NamesDistinct | TraktKit/Caching/CacheConfig+Sync.swift:25-50 | the six names are distinct |
| SyncCache.Key | TraktKit/Caching/CacheConfig+Sync.swift:52-77 | every key starts with its name; only `lastActivities`' key is the bare name |
| SyncCache.Fields | TraktKit/Caching/CacheConfig+Sync.swift:56-65 | the first field after the name is the raw value of the case's type: watched type, collectable type or content type |
| SyncCache.RawValuesHaveNoSeparator | TraktKit/Caching/CacheConfig+Sync.swift:56-65 | no raw value holds `_` |
| SyncCache.KeyFirstField | TraktKit/Caching/CacheConfig+Sync.swift:52-77 | the first field of a key is its name |
| SyncCache.RawPairInjective | TraktKit/Caching/CacheConfig+Sync.swift:58-63 | `raw_rest` gives back both parts |
| SyncCache.SameKeySameFields | TraktKit/Caching/CacheConfig+Sync.swift:52-77 | equal keys of one case have equal values after the name |
| SyncCache.RawAndInfoInjective | TraktKit/Caching/CacheConfig+Sync.swift:64-65 | type and info level are recovered from the key text |
| SyncCache.InfoPrefixDecides | TraktKit/Caching/CacheConfig+Sync.swift:64-65 | no info level's raw value is a prefix of another's |
| SyncCache.FieldsIdentify | TraktKit/Caching/CacheConfig+Sync.swift:56-65 | the fields of a case determine the values its key binds |
| SyncCache.CollectionFieldsIdentify | TraktKit/Caching/CacheConfig+Sync.swift:58-59 | collection type and info level are recovered |
| SyncCache.RatingsFieldsIdentify | TraktKit/Caching/CacheConfig+Sync.swift:62-63 | ratings type and info level are recovered |
| SyncCache.WatchlistFieldsForm | TraktKit/Caching/CacheConfig+Sync.swift:64-65 | the watchlist fields are type, info level and page |
| SyncCache.WatchlistPartsIdentify | TraktKit/Caching/CacheConfig+Sync.swift:64-65 | type, info level and page are recovered from that text |
| SyncCache.WatchlistFieldsIdentify | TraktKit/Caching/CacheConfig+Sync.swift:64-65 | watchlist type, info level and page are recovered |
| SyncCache.HistoryFieldsIdentify | TraktKit/Caching/CacheConfig+Sync.swift:60-61 | history type and page are recovered |
| SyncCache.KeyIdentifies | TraktKit/Caching/CacheConfig+Sync.swift:52-77 | two keys are equal exactly when the case and the values its key binds agree |
| SyncCache.PlaybackLimitNotInKey | TraktKit/Caching/CacheConfig+Sync.swift:56-57 | playback requests differing only in limit share a key |
| SyncCache.HistoryFiltersNotInKey | TraktKit/Caching/CacheConfig+Sync.swift:60-61 | history requests with the same type and page share a key whatever their id, page size, info level or dates |
| SyncCache.WatchlistLimitNotInKey | TraktKit/Caching/CacheConfig+Sync.swift:64-65 | watchlist requests differing only in page size share a key |
| SyncCache.DiskMaxSize | TraktKit/Caching/CacheConfig+Sync.swift:79-98 | 1 MiB for last activities and playback, 50 MiB for the rest |
| SyncCache.MemoryMaxItemCount | TraktKit/Caching/CacheConfig+Sync.swift:100-117 | 1 item exactly for last activities, 500 for the rest |
| SyncCache.AllCases | TraktKit/Caching/CacheConfig+Sync.swift:12-23 | six cacheable entries |
| SyncCache.AllCasesCoverEveryCase | TraktKit/Caching/CacheConfig+Sync.swift:12-23 | every cacheable case is represented once |
| UsersCache.Name | TraktKit/Networking/API/Users/CacheConfig+Users.swift:16-23 | non-empty, free of `_`, and `getWatching` exactly for the watching case, so the two names differ |
| UsersCache.Key | TraktKit/Networking/API/Users/CacheConfig+Users.swift:25-32 | every key starts with `<name>_<userId>` |
| UsersCache.Fields | TraktKit/Networking/API/Users/CacheConfig+Users.swift:25-32 | the fields start with the user id, and are exactly the id for `getStats` and only then |
| UsersCache.KeyIdentifies | TraktKit/Networking/API/Users/CacheConfig+Users.swift:25-32 | two keys are equal exactly when the requests are |
| UsersCache.WatchingFieldsIdentify | TraktKit/Networking/API/Users/CacheConfig+Users.swift:27-28 | user id and info level are recovered from `<userId>_<level>` |
| UsersCache.DiskMaxSize | TraktKit/Networking/API/Users/CacheConfig+Users.swift:34-39 | one unit for every case |
| UsersCache.MemoryMaxItemCount | TraktKit/Networking/API/Users/CacheConfig+Users.swift:41-46 | one item for every case |
| UsersCache.AllCases | TraktKit/Networking/API/Users/CacheConfig+Users.swift:9-14 | one watching entry, then one stats entry |
| CacheEntries.WithTimeIntervalSinceNow | TraktKit/Networking/Caching/CacheEntry.swift:35-38 | no interval gives no date; otherwise the date lies that interval after now |
| CacheEntries.NewCacheEntry | TraktKit/Networking/Caching/CacheEntry.swift:22-27 | the value, etag and pagination stored verbatim; an expiry exactly when a max-age is given, at now plus max-age |
| CacheEntries.ExpiryRelativeToNow | TraktKit/Networking/Caching/CacheEntry.swift:22-38 | a negative max-age gives an expiry before now, a positive one after it |
| CacheEntries.ExpiryMonotone | TraktKit/Networking/Caching/CacheEntry.swift:22-38 | a longer max-age never expires sooner |
| CacheEntries.SetValue | TraktKit/Networking/Caching/CacheEntry.swift:29-31 | only the value changes |
| CacheEntries.SetValueLaws | TraktKit/Networking/Caching/CacheEntry.swift:29-31 | setting the current value changes nothing; the last value set wins |
| CacheEntries.SetValueOnNewEntry | TraktKit/Networking/Caching/CacheEntry.swift:22-31 | setting a value on a new entry is creating it with that value |
| Comments.IndexFrom | Sources/TraktKit/Model/Comments/Comment.swift:32-33 | the first occurrence at or after a position, none when there is none |
| Comments.IndexOf | Sources/TraktKit/Model/Comments/Comment.swift:32-33 | `range(of:)`: the first occurrence; none exactly when the marker does not occur |
| Comments.IndexOfIs | Sources/TraktKit/Model/Comments/Comment.swift:32-33 | an occurrence with none before it is the one found |
| Comments.FirstAfter | Sources/TraktKit/Model/Comments/Comment.swift:32-33 | a marker after marker-free text is found right there |
| Comments.MarkersOpenOnce | Sources/TraktKit/Model/Comments/Comment.swift:32-33 | neither marker repeats its first character |
| Comments.CleanText | Sources/TraktKit/Model/Comments/Comment.swift:30-38 | text lacking either marker is untouched, trimming included; otherwise the text shrinks and is trimmed of spaces |
| Comments.SpanRemoved | Sources/TraktKit/Model/Comments/Comment.swift:32-38 | from the first `[spoiler]` to the end of the first `[/spoiler]` is cut out, and the rest trimmed |
| Comments.NoOpenUntouched | Sources/TraktKit/Model/Comments/Comment.swift:32-33 | without `[spoiler]` the text is unchanged |
| Comments.NoCloseUntouched | Sources/TraktKit/Model/Comments/Comment.swift:32-33 | without `[/spoiler]` the text is unchanged |
| Comments.CleanComment | Sources/TraktKit/Model/Comments/Comment.swift:29-40 | only the comment text changes; every other field is kept |
| Comments.CleanAll | Sources/TraktKit/Model/Comments/Comment.swift:27-41 | each comment cleaned in place, one for one |
| Comments.NonSpoilers | Sources/TraktKit/Model/Comments/Comment.swift:42 | only non-spoilers, each from the input, and every non-spoiler of the input kept |
| Comments.NonSpoilersAppend | Sources/TraktKit/Model/Comments/Comment.swift:42 | filtering works piecewise, so the input order is kept |
| Comments.Hide | Sources/TraktKit/Model/Comments/Comment.swift:26-43 | at most as many comments, none a spoiler |
| Comments.HideMembers | Sources/TraktKit/Model/Comments/Comment.swift:26-43 | the result holds exactly the cleaned non-spoilers |
| Comments.HideAppend | Sources/TraktKit/Model/Comments/Comment.swift:26-43 | hiding works piecewise, so the input order is kept |
| Comments.CleanInPlace | Sources/TraktKit/Model/Comments/Comment.swift:29-40 | the loop body cleans one comment |
| Comments.CleanCopy | Sources/TraktKit/Model/Comments/Comment.swift:27-41 | the loop cleans every comment of the copy |
| Comments.FilterSpoilers | Sources/TraktKit/Model/Comments/Comment.swift:42 | the filter keeps the non-spoilers in order |
| Comments.HideSpoilers | Sources/TraktKit/Model/Comments/Comment.swift:26-43 | `hideSpoilers()` cleans every comment and drops the spoilers |
| DecodableIntegers.New | Sources/TraktKit/Model/DecodableInteger.swift:21-24 | the wrapper holds the integer given |
| DecodableIntegers.FromIntegerLiteral | Sources/TraktKit/Model/DecodableInteger.swift:17-19 | the literal initialiser is `init(_:)` |
| DecodableIntegers.IntegerValue | Sources/TraktKit/Model/DecodableInteger.swift:30-32 | wrapping the value gives back the wrapper |
| DecodableIntegers.ValueRoundTrip | Sources/TraktKit/Model/DecodableInteger.swift:17-32 | `DecodableInteger(v).integerValue == v`, from either initialiser |
| DecodableIntegers.EqualIffSameValue | Sources/TraktKit/Model/DecodableInteger.swift:21-32 | two wrappers are equal exactly when their values are |
| DecodableIntegers.Description | Sources/TraktKit/Model/DecodableInteger.swift:26-28 | a sign exactly for negative values, then digits |
| DecodableIntegers.DescriptionReadsBack | Sources/TraktKit/Model/DecodableInteger.swift:26-28 | the description reads back as the value |
| DecodableIntegers.DescriptionInjective | Sources/TraktKit/Model/DecodableInteger.swift:26-28 | different wrappers have different descriptions |
| DecodableIntegers.Encode | Sources/TraktKit/Model/DecodableInteger.swift:43-46 | the single integer |
| DecodableIntegers.Decode | Sources/TraktKit/Model/DecodableInteger.swift:37-41 | succeeds exactly on an integer that fits `Int`; null is a missing value, too large is corrupted, other kinds mismatch |
| DecodableIntegers.RoundTrip | Sources/TraktKit/Model/DecodableInteger.swift:37-46 | decoding the encoding gives back the wrapper |
| DecodableIntegers.DecodedReencodes | Sources/TraktKit/Model/DecodableInteger.swift:37-46 | whatever decodes is re-encoded unchanged |
| CollectedItems.KeysDistinct | TraktKit/Model/Sync/CollectedItem.swift:19-25 | the five coding keys are distinct |
| CollectedItems.DecodeDate | TraktKit/Model/Sync/CollectedItem.swift:34-38 | a date decodes exactly from an integer member; a missing key is `keyNotFound` |
| CollectedItems.DecodeIfPresent | TraktKit/Model/Sync/CollectedItem.swift:30-32 | an absent or null member is nil; otherwise the member's decoding |
| CollectedItems.Decode | TraktKit/Model/Sync/CollectedItem.swift:27-39 | a `null` fails with `valueNotFound` and any other non-object with `typeMismatch`, as the keyed container does; optionals from their keys; the date from `last_collected_at`, falling back to `collected_at`; failure when neither is present |
| CollectedItems.IfPresent | TraktKit/Model/Sync/CollectedItem.swift:49-51 | nil writes nothing, a value writes one field |
| CollectedItems.Encode | TraktKit/Model/Sync/CollectedItem.swift:41-52 | the date under `collected_at` exactly when there is a movie, else under `last_collected_at`; each optional present exactly when set |
| CollectedItems.LayoutDistinct | TraktKit/Model/Sync/CollectedItem.swift:41-52 | the encoded fields have distinct keys |
| CollectedItems.FieldsOf | TraktKit/Model/Sync/CollectedItem.swift:41-52 | each key reads back its own field of the layout |
| CollectedItems.RoundTrip | TraktKit/Model/Sync/CollectedItem.swift:27-52 | with round-tripping codecs, decoding the encoding gives back the item |

## Left out

- Swift's `Int`, `TimeInterval` and `Date` are modelled as follows:
  - Integers parsed from text (`asInt`, the pagination headers, `DecodableInteger`) are 64-bit, as Swift's `Int` is.
  - Endpoint ids and pages are unbounded, because the code does no arithmetic on them.
  - Dates are whole seconds.
- ResponseHeaders.ParseSeconds: accepts only integer literals. `TimeInterval(_:)` also takes fractions and exponents such as `1.5` or `1e3`, hexadecimal floats such as `0x1p4`, and `inf`, `infinity` and `nan`; the model treats all of these as no value, because floating point is left out.
- Text.Lowercased: lowercases ASCII letters only. No other character lowercases to a letter of `max-age`, a digit, `=` or `,`, so the `max-age` decision is the same.
- Text.Trim, Text.Split, ResponseHeaders.FirstWithPrefix and Comments.IndexOf work on characters, not on Swift's grapheme clusters, so canonical equivalence is left out.
- Comments.IndexOf: requires a non-empty pattern. The code only searches for the two markers, which are non-empty.
- Comments.CleanText: requires that the first `[/spoiler]` does not end before the first `[spoiler]` starts. The code builds an invalid range then, and that traps at run time.
- Percent-encoding of URL components and query values is left out. Paths and values are stored and rendered verbatim.
- JSON text, snake-case key conversion and `DateFormatter.iso8601Full` are left out:
  - request bodies are the payload values;
  - the check-in and token bodies are JSON values;
  - the decoders of movies, shows and seasons are parameters.
- `URLSession`, `DispatchQueue`, the HTTP logger and completion closures are left out. Each call is a function returning its result once, and the network is the `Transport` parameter.
- The session's extra headers (`trakt-api-key`, `trakt-api-version`, `Content-type`) at Sources/TraktKit/Networking/NetworkClient.swift:39-41 are left out, because they are session configuration, not request building.
- `URLCache` is left out: how it derives keys from requests, its capacities, `cacheDiskStorageSize` and `currentDiskUsage`. The response store is keyed by the whole request.
- `createCache`, `diskStorageSize` and `cacheDirectoryURL` in the `CacheConfig+*` files are left out, because they do file-system work and use a third-party cache library.
- HTTP header names are compared case-sensitively, as the code's `[String: String]` lookup does. Case-insensitive HTTP field names are not modelled.
- `errorDescription` texts of `TraktError` are left out. `emptyContent` is part of the error type.
- SyncCache.Cacheable: `getWatched` and the write cases are excluded, because the legacy switch has no key for `getWatched` and traps for the writes.
- MoviesCache.Fields: takes the printed form of bound tuples such as `(pageNumber: 1, resultsPerPage: 10)` to be what Swift's string interpolation produces. The `MovieInfo` type of the `details` and `trending` cases is not declared in the files modelled; it is taken to be another name for `InfoLevel`, so a level prints as `TraktKit.InfoLevel.<raw>`. The printed type name is thus an assumption; no proved property depends on it beyond its having no comma.
- The `hashValue` of `DecodableInteger` is left out. It only forwards to the integer.
- The thin wrappers in the `Trakt+Movies`, `Trakt+Users` and `Trakt+Sync` files are left out, except those with logic of their own: `addRating`, `removePlaybackItemWith`, the payload builders and `checkin`. They only forward to the fetch functions.
- TTL expiry checks, `If-None-Match` and 304 fallback are left out, because the code has none. `expirationDate` is computed but never read.
- ResponseHeaders.NoCachingNotMaxAge, MaxAgeListedFirst, MaxAgeListedSecond, MaxAgeListedLast and MaxAgeAmongPadding: these are stated on the list of trimmed directives. ResponseHeaders.DirectivesOfJoin and ResponseHeaders.HeaderOfPieces connect such a list to the header text it was joined from.

=== FILE: authentication.dfy ===
/** The OAuth endpoint enumeration (Networking/Endpoints/Authentication.swift):
    the authorization request of section 4.1.1 of RFC 6749 as a URL, and the
    access-token request of section 4.1.3 as a POST body. */
module AuthenticationEndpoint {
  import opened Wrappers
  import opened Urls
  import opened Endpoints
  import opened Json

  datatype TokenData = TokenData(code: string, clientId: string, clientSecret: string,
                                 redirectUri: string, grantType: string)

  datatype Authentication =
    | Authorize(clientId: string, redirectURI: string)
    | GetToken(data: TokenData)

  /** The body keys, as the snake-case key strategy writes the field names. */
  const TokenKeys: seq<string> := ["code", "client_id", "client_secret", "redirect_uri", "grant_type"]

  /** The token request body: one string field per `TokenData` field,
      under its snake-case key. The order of the fields is the model's own
      choice; an object's members are looked up by key. */
  function EncodeToken(t: TokenData): (j: Json)
    ensures j.JObject? && |j.fields| == |TokenKeys|
    ensures forall i :: 0 <= i < |TokenKeys| ==> j.fields[i].0 == TokenKeys[i] && j.fields[i].1.JString?
    ensures && j.fields[0].1 == JString(t.code) && j.fields[1].1 == JString(t.clientId)
            && j.fields[2].1 == JString(t.clientSecret) && j.fields[3].1 == JString(t.redirectUri)
            && j.fields[4].1 == JString(t.grantType)
  {
    JObject([("code", JString(t.code)), ("client_id", JString(t.clientId)),
             ("client_secret", JString(t.clientSecret)), ("redirect_uri", JString(t.redirectUri)),
             ("grant_type", JString(t.grantType))])
  }

  /** Reading a token request body back: every key must hold a string. */
  function DecodeToken(j: Json): (r: Option<TokenData>)
    ensures r.Some? ==> forall i :: 0 <= i < |TokenKeys| ==> StringMember(j, TokenKeys[i]).Some?
    ensures r.Some? <==> && StringMember(j, "code").Some? && StringMember(j, "client_id").Some?
                         && StringMember(j, "client_secret").Some? && StringMember(j, "redirect_uri").Some?
                         && StringMember(j, "grant_type").Some?
    ensures r.Some? ==> && Some(r.value.code) == StringMember(j, "code")
                        && Some(r.value.clientId) == StringMember(j, "client_id")
                        && Some(r.value.clientSecret) == StringMember(j, "client_secret")
                        && Some(r.value.redirectUri) == StringMember(j, "redirect_uri")
                        && Some(r.value.grantType) == StringMember(j, "grant_type")
  {
    var code := StringMember(j, "code");
    var clientId := StringMember(j, "client_id");
    var secret := StringMember(j, "client_secret");
    var redirect := StringMember(j, "redirect_uri");
    var grant := StringMember(j, "grant_type");
    if code.Some? && clientId.Some? && secret.Some? && redirect.Some? && grant.Some? then
      assert forall i :: 0 <= i < |TokenKeys| ==> StringMember(j, TokenKeys[i]).Some? by {
        assert TokenKeys == ["code", "client_id", "client_secret", "redirect_uri", "grant_type"];
      }
      Some(TokenData(code.value, clientId.value, secret.value, redirect.value, grant.value))
    else
      None
  }

  /** No two fields of the body share a key (their lengths already differ). */
  lemma TokenKeysDistinct(t: TokenData)
    ensures DistinctKeys(EncodeToken(t).fields)
  {
    var f := EncodeToken(t).fields;
    assert forall i, j :: 0 <= i < j < |f| ==> |f[i].0| != |f[j].0|;
  }

  /** The body carries every field of the token request under its own key. */
  lemma TokenRoundTrip(t: TokenData)
    ensures DecodeToken(EncodeToken(t)) == Some(t)
  {
    var f := EncodeToken(t).fields;
    TokenKeysDistinct(t);
    FieldValueAt(f, 0, "code");
    FieldValueAt(f, 1, "client_id");
    FieldValueAt(f, 2, "client_secret");
    FieldValueAt(f, 3, "redirect_uri");
    FieldValueAt(f, 4, "grant_type");
  }

  /** A path under the base URL is the component after a `/`. */
  lemma UnderBase(component: string)
    ensures AppendingPathComponent(BaseUrl, component) == Url("/" + component, [])
  {
    assert !EndsWithSlash(BaseUrl.path);
    assert BaseUrl.path + "/" == "/";
  }

  /** `url`. */
  function AuthenticationUrl(a: Authentication): (r: Url)
    ensures a.Authorize? ==> r.path == "/oauth/authorize"
    ensures a.Authorize? ==> r.query == [Item("response_type", "code"), Item("client_id", a.clientId),
                                         Item("redirect_uri", a.redirectURI)]
    ensures a.GetToken? ==> r == Url("/oauth/token", [])
  {
    match a
    case Authorize(clientId, redirect) =>
      var u := AppendingPathComponent(BaseUrl, "oauth/authorize");
      UnderBase("oauth/authorize");
      assert "/" + "oauth/authorize" == "/oauth/authorize";
      var r := AppendingQueryItem(AppendingQueryItem(AppendingQueryItem(u,
                 Item("response_type", "code")), Item("client_id", clientId)),
                 Item("redirect_uri", redirect));
      assert r.query == [] + [Item("response_type", "code")] + [Item("client_id", clientId)]
                        + [Item("redirect_uri", redirect)];
      r
    case GetToken(_) =>
      var u := AppendingPathComponent(BaseUrl, "oauth/token");
      UnderBase("oauth/token");
      assert "/" + "oauth/token" == "/oauth/token";
      u
  }

  /** The descriptor: `httpMethod`, `url`, `httpBody`, `requestHeaders`. */
  function AuthenticationEndpoint(a: Authentication): (e: Endpoint<Json>)
    ensures e.httpMethod == (if a.Authorize? then GET else POST)
    ensures a.Authorize? <==> e.body.None?
    ensures a.GetToken? ==> e.body == Some(EncodeToken(a.data))
    ensures e.headers == map[] && e.url == AuthenticationUrl(a)
  {
    match a
    case Authorize(_, _) => Endpoint(GET, AuthenticationUrl(a), None, map[])
    case GetToken(data) => Endpoint(POST, AuthenticationUrl(a), Some(EncodeToken(data)), map[])
  }

  /** The authorization server reads the parameters back from the query:
      the code response type, the client id and the redirect URI. */
  lemma AuthorizeQueryReadsBack(clientId: string, redirectURI: string)
    ensures var q := AuthenticationUrl(Authorize(clientId, redirectURI)).query;
      && Lookup(q, "response_type") == Some(Some("code"))
      && Lookup(q, "client_id") == Some(Some(clientId))
      && Lookup(q, "redirect_uri") == Some(Some(redirectURI))
  {
    var q := AuthenticationUrl(Authorize(clientId, redirectURI)).query;
    assert q[0].name == "response_type";
    assert q[1].name == "client_id" != "response_type";
    assert q[2].name == "redirect_uri";
    assert q[1..][0].name == "client_id";
    assert q[1..][1..][0].name == "redirect_uri";
  }

  /** Different clients or redirect URIs never share an authorize URL. */
  lemma AuthorizeUrlInjective(a: Authentication, b: Authentication)
    requires a.Authorize? && b.Authorize?
    requires AuthenticationUrl(a) == AuthenticationUrl(b)
    ensures a == b
  {
    AuthorizeQueryReadsBack(a.clientId, a.redirectURI);
    AuthorizeQueryReadsBack(b.clientId, b.redirectURI);
  }
}

=== FILE: cacheentry.dfy ===
/** `CacheEntry` (TraktKit/Networking/Caching/CacheEntry.swift): a cached
    value with the metadata of the response it came from. Dates are whole
    seconds on one clock, and the clock reading `Date()` is the parameter
    `now`. */
module CacheEntries {
  import opened Wrappers
  import opened Types

  datatype CacheEntry<V> = CacheEntry(
    value: V,
    etag: Option<string>,
    expirationDate: Option<int>,
    pagination: Option<PaginationData>)

  /** `Date.withTimeIntervalSinceNow`: no interval, no date; otherwise the
      date that lies the interval after `now`. */
  function WithTimeIntervalSinceNow(now: int, interval: Option<int>): (r: Option<int>)
    ensures r.None? <==> interval.None?
    ensures interval.Some? ==> r.value - now == interval.value
  {
    match interval
    case None => None
    case Some(seconds) => Some(now + seconds)
  }

  /** `init(value:maxAge:etag:pagination:)`: the value, the ETag and the
      pagination are kept as given; the entry expires `maxAge` seconds after
      `now`, or never when there is no `maxAge`. */
  function NewCacheEntry<V>(value: V, maxAge: Option<int>, etag: Option<string>,
                            pagination: Option<PaginationData>, now: int): (e: CacheEntry<V>)
    ensures e.value == value && e.etag == etag && e.pagination == pagination
    ensures e.expirationDate.None? <==> maxAge.None?
    ensures maxAge.Some? ==> e.expirationDate == Some(now + maxAge.value)
  {
    CacheEntry(value, etag, WithTimeIntervalSinceNow(now, maxAge), pagination)
  }

  /** A negative `max-age` is not rejected: it gives an entry that expired
      before it was made; zero gives one that expires as it is made. */
  lemma ExpiryRelativeToNow<V>(value: V, maxAge: int, etag: Option<string>,
                               pagination: Option<PaginationData>, now: int)
    ensures var e := NewCacheEntry(value, Some(maxAge), etag, pagination, now);
      && (e.expirationDate.value < now <==> maxAge < 0)
      && (e.expirationDate.value == now <==> maxAge == 0)
  {
  }

  /** A longer `max-age` gives a later expiry. */
  lemma ExpiryMonotone<V>(value: V, a: int, b: int, etag: Option<string>,
                          pagination: Option<PaginationData>, now: int)
    requires a <= b
    ensures NewCacheEntry(value, Some(a), etag, pagination, now).expirationDate.value
         <= NewCacheEntry(value, Some(b), etag, pagination, now).expirationDate.value
  {
  }

  /** `setValue`: a new value under the same metadata. */
  function SetValue<V>(e: CacheEntry<V>, value: V): (r: CacheEntry<V>)
    ensures r.value == value
    ensures r.etag == e.etag && r.expirationDate == e.expirationDate && r.pagination == e.pagination
  {
    e.(value := value)
  }

  /** Setting the value an entry already has changes nothing, and of two
      settings the last one wins. */
  lemma SetValueLaws<V>(e: CacheEntry<V>, a: V, b: V)
    ensures SetValue(e, e.value) == e
    ensures SetValue(SetValue(e, a), b) == SetValue(e, b)
  {
  }

  /** Setting a value on a new entry is making the entry with that value. */
  lemma SetValueOnNewEntry<V>(v: V, w: V, maxAge: Option<int>, etag: Option<string>,
                              pagination: Option<PaginationData>, now: int)
    ensures SetValue(NewCacheEntry(v, maxAge, etag, pagination, now), w) == NewCacheEntry(w, maxAge, etag, pagination, now)
  {
  }
}

=== FILE: cachekeys.dfy ===
/** What the `CacheConfigurable` tables share: the size unit, and the facts
    that let a cache key built by string interpolation be split back into
    the values it was built from. */
module CacheKeys {
  import opened Strings

  /** `let MB = UInt(1024 * 1024)`. */
  const MB: nat := 1024 * 1024

  /** The part of a key before its first `_`: the cache name, when the name
      itself has no `_`. */
  function FirstField(s: string): (r: string)
    ensures '_' !in r
    ensures |r| <= |s| && r == s[..|r|]
    decreases |s|
  {
    if |s| == 0 || s[0] == '_' then "" else [s[0]] + FirstField(s[1..])
  }

  /** A name without `_`, alone or followed by `_` and anything, is the
      first field. */
  lemma {:induction false} FirstFieldOf(name: string, rest: string)
    requires '_' !in name
    ensures FirstField(name) == name
    ensures FirstField(name + "_" + rest) == name
    decreases |name|
  {
    if |name| > 0 {
      FirstFieldOf(name[1..], rest);
      assert (name + "_" + rest)[1..] == name[1..] + "_" + rest;
    }
  }

  /** Two strings joined by a separator the left parts do not contain: the
      parts are recovered. */
  lemma SplitAtFirst(c: char, x: string, y: string, x': string, y': string)
    requires c !in x && c !in x'
    requires x + [c] + y == x' + [c] + y'
    ensures x == x' && y == y'
  {
    var s := x + [c] + y;
    assert s[|x|] == c && s[|x'|] == c;
    assert forall i :: 0 <= i < |x| ==> s[i] == x[i];
    assert forall i :: 0 <= i < |x'| ==> s[i] == x'[i];
    assert |x| == |x'|;
    assert x == s[..|x|];
    assert x' == s[..|x'|];
    assert y == s[|x| + 1..];
  }

  /** Two strings joined by a separator the right parts do not contain: the
      parts are recovered. */
  lemma SplitAtLast(c: char, x: string, y: string, x': string, y': string)
    requires c !in y && c !in y'
    requires x + [c] + y == x' + [c] + y'
    ensures x == x' && y == y'
  {
    var s := x + [c] + y;
    assert s[|x|] == c && s[|x'|] == c;
    assert forall i :: |x| < i < |s| ==> s[i] == y[i - |x| - 1];
    assert forall i :: |x'| < i < |s| ==> s[i] == y'[i - |x'| - 1];
    assert |x| == |x'|;
    assert x == s[..|x|];
    assert x' == s[..|x'|];
    assert y == s[|x| + 1..];
  }

  /** Equal strings with a common prefix have equal remainders. */
  lemma DropPrefix(p: string, s: string, t: string)
    requires p + s == p + t
    ensures s == t
  {
    assert s == (p + s)[|p|..];
    assert t == (p + t)[|p|..];
  }

  /** A decimal rendering holds digits and at most a leading `-`, so no
      separator a key uses. */
  lemma IntStringHasNo(v: int, c: char)
    requires c != '-' && !IsDigit(c)
    ensures c !in IntString(v)
  {
    var r := IntString(v);
    forall i | 0 <= i < |r|
      ensures r[i] != c
    {
      if i > 0 { assert r[i] == r[1..][i - 1]; }
    }
  }
}

=== FILE: checkin.dfy ===
/** Checking in (Networking/API/Trakt+Checkin.swift): the payload names
    exactly one movie or episode by its Trakt id and is POSTed to `checkin`
    on behalf of the logged-in user. */
module Checkin {
  import opened Wrappers
  import opened Urls
  import opened Endpoints
  import opened Json
  import opened NetworkClient
  import opened TraktApi
  import opened Errors

  datatype CheckinType = Movie(id: int) | Episode(id: int)

  datatype ObjectId = ObjectId(trakt: int)
  datatype CheckinObject = CheckinObject(ids: ObjectId)
  datatype CheckinPayload = CheckinPayload(movie: Option<CheckinObject>, episode: Option<CheckinObject>)

  /** `payloadForType`, before encoding: the object goes in the slot its
      type names and the other slot stays empty. */
  function PayloadForType(t: CheckinType): (p: CheckinPayload)
    ensures p.movie.Some? <==> t.Movie?
    ensures p.episode.Some? <==> t.Episode?
    ensures p.movie.Some? ==> p.movie.value.ids.trakt == t.id
    ensures p.episode.Some? ==> p.episode.value.ids.trakt == t.id
  {
    match t
    case Movie(id) => CheckinPayload(Some(CheckinObject(ObjectId(id))), None)
    case Episode(id) => CheckinPayload(None, Some(CheckinObject(ObjectId(id))))
  }

  /** What a payload checks into: defined when exactly one slot is filled. */
  function CheckinTypeOf(p: CheckinPayload): (r: Option<CheckinType>)
    ensures r.Some? <==> p.movie.Some? != p.episode.Some?
  {
    match (p.movie, p.episode)
    case (Some(m), None) => Some(Movie(m.ids.trakt))
    case (None, Some(e)) => Some(Episode(e.ids.trakt))
    case _ => None
  }

  /** Every payload the client builds fills exactly one slot, and it says
      what was checked into. */
  lemma PayloadRoundTrip(t: CheckinType)
    ensures CheckinTypeOf(PayloadForType(t)) == Some(t)
  {
  }

  /** The payload as the encoder writes it: an absent slot is left out. */
  function EncodeObject(o: CheckinObject): (j: Json)
    ensures Member(j, "ids").Some? && IntMember(Member(j, "ids").value, "trakt") == Some(o.ids.trakt)
  {
    JObject([("ids", JObject([("trakt", JInt(o.ids.trakt))]))])
  }

  function EncodePayload(p: CheckinPayload): (j: Json)
    ensures j.JObject?
    ensures |j.fields| == (if p.movie.Some? then 1 else 0) + (if p.episode.Some? then 1 else 0)
  {
    var movie := if p.movie.Some? then [("movie", EncodeObject(p.movie.value))] else [];
    var episode := if p.episode.Some? then [("episode", EncodeObject(p.episode.value))] else [];
    JObject(movie + episode)
  }

  function DecodeObject(j: Json): (r: Option<CheckinObject>)
    ensures r.Some? <==> Member(j, "ids").Some? && IntMember(Member(j, "ids").value, "trakt").Some?
    ensures r.Some? ==> IntMember(Member(j, "ids").value, "trakt") == Some(r.value.ids.trakt)
  {
    match Member(j, "ids")
    case None => None
    case Some(ids) =>
      match IntMember(ids, "trakt")
      case None => None
      case Some(id) => Some(CheckinObject(ObjectId(id)))
  }

  /** A member that `decodeIfPresent` decodes: present and not `null`. */
  predicate Given(m: Option<Json>) {
    m.Some? && !m.value.JNull?
  }

  /** Reading a payload back, as the synthesized `Decodable` does with
      `decodeIfPresent`: a missing or `null` key is an empty slot, any other
      value must decode or the whole payload fails. */
  function DecodePayload(j: Json): (r: Option<CheckinPayload>)
    ensures r.Some? <==> && j.JObject?
                         && (Given(Member(j, "movie")) ==> DecodeObject(Member(j, "movie").value).Some?)
                         && (Given(Member(j, "episode")) ==> DecodeObject(Member(j, "episode").value).Some?)
    ensures r.Some? ==> (r.value.movie.Some? <==> Given(Member(j, "movie")))
    ensures r.Some? ==> (r.value.episode.Some? <==> Given(Member(j, "episode")))
    ensures r.Some? && r.value.movie.Some? ==> DecodeObject(Member(j, "movie").value) == r.value.movie
    ensures r.Some? && r.value.episode.Some? ==> DecodeObject(Member(j, "episode").value) == r.value.episode
  {
    if !j.JObject? then None
    else
      var movie := Member(j, "movie");
      var episode := Member(j, "episode");
      var m := if Given(movie) then DecodeObject(movie.value) else None;
      var e := if Given(episode) then DecodeObject(episode.value) else None;
      if (Given(movie) && m.None?) || (Given(episode) && e.None?) then None
      else Some(CheckinPayload(m, e))
  }

  /** A `null` slot next to an episode decodes as an episode check-in. */
  lemma NullMovieIsAbsent(id: int)
    ensures DecodePayload(JObject([("movie", JNull), ("episode", EncodeObject(CheckinObject(ObjectId(id))))]))
            == Some(CheckinPayload(None, Some(CheckinObject(ObjectId(id)))))
  {
    var f := [("movie", JNull), ("episode", EncodeObject(CheckinObject(ObjectId(id))))];
    assert FieldValue(f, "movie") == Some(JNull);
    assert f[1..] == [("episode", EncodeObject(CheckinObject(ObjectId(id))))];
    assert FieldValue(f, "episode") == Some(EncodeObject(CheckinObject(ObjectId(id))));
    ObjectRoundTrip(CheckinObject(ObjectId(id)));
  }

  lemma ObjectRoundTrip(o: CheckinObject)
    ensures DecodeObject(EncodeObject(o)) == Some(o)
  {
  }

  /** Decoding the encoded payload gives the payload back. */
  lemma EncodeRoundTrip(p: CheckinPayload)
    ensures DecodePayload(EncodePayload(p)) == Some(p)
  {
    var f := EncodePayload(p).fields;
    if p.movie.Some? {
      assert f[0] == ("movie", EncodeObject(p.movie.value));
      ObjectRoundTrip(p.movie.value);
    }
    if p.episode.Some? {
      var k := |f| - 1;
      assert f[k] == ("episode", EncodeObject(p.episode.value));
      assert DistinctKeys(f);
      FieldValueAt(f, k, "episode");
      ObjectRoundTrip(p.episode.value);
    }
  }

  const CheckinUrl: Url := AppendingPathComponent(BaseUrl, "checkin")

  /** `CheckinEndpoint(body: payloadForType(type))`. */
  function CheckinEndpoint(t: CheckinType): (e: Endpoint<Json>)
    ensures e.httpMethod == POST && e.headers == map[]
    ensures e.url == Url("/checkin", [])
    ensures e.body.Some? && DecodePayload(e.body.value) == Some(PayloadForType(t))
  {
    EncodeRoundTrip(PayloadForType(t));
    Endpoint(POST, CheckinUrl, Some(EncodePayload(PayloadForType(t))), map[])
  }

  /** The body names what was checked into, so different check-ins never
      send the same request. */
  lemma CheckinEndpointInjective(a: CheckinType, b: CheckinType)
    requires CheckinEndpoint(a) == CheckinEndpoint(b)
    ensures a == b
  {
    PayloadRoundTrip(a);
    PayloadRoundTrip(b);
  }

  /** The request `checkin(type:completion:)` sends: a POST to `checkin`
      with the user's bearer token as its only header and the payload for
      the type as its body. */
  function CheckinRequest(t: Trakt, ct: CheckinType): (req: Request<Body>)
    requires LoggedIn(t)
    ensures req.httpMethod == POST && req.url == Url("/checkin", [])
    ensures req.headers == map[AuthorizationField := "Bearer " + t.auth.value.accessToken]
    ensures req.body.Some? && req.body.value.JsonBody?
    ensures DecodePayload(req.body.value.json) == Some(PayloadForType(ct))
  {
    RequestFor(t, JsonEndpoint(CheckinEndpoint(ct)), map[])
  }

  /** `checkin(type:completion:)`: only for a logged-in user; the answer is
      parsed like any other, a `204` being `emptyContent`. */
  function CheckinCall<T>(t: Trakt, ct: CheckinType, decode: Decoder<T>, transport: Transport)
    : (r: (Result<T, TraktError>, Trakt))
    requires LoggedIn(t)
    ensures r.1.client == t.client && r.1.auth == t.auth
    ensures (r.0, r.1.store) == (ParseResponse(decode, StartRequest(t.store, CheckinRequest(t, ct), transport).0),
                                 StartRequest(t.store, CheckinRequest(t, ct), transport).1)
  {
    AuthenticatedRequestAndParse(t, JsonEndpoint(CheckinEndpoint(ct)), map[], decode, transport)
  }
}

=== FILE: collecteditem.dfy ===
/** `CollectedItem` (legacy TraktKit/Model/Sync/CollectedItem.swift): a
    collection entry whose date is written under one of two keys. A movie
    entry carries it as `collected_at`, a show entry as
    `last_collected_at`; decoding accepts either.

    The movie, the show and the season list are coded by codecs given as
    parameters (their own `Codable` conformances are not part of this
    model); dates are integers, as in the JSON model. */
module CollectedItems {
  import opened Wrappers
  import opened Json
  import opened Errors

  const LastCollectedAtKey: string := "last_collected_at"
  const CollectedAtKey: string := "collected_at"
  const MovieKey: string := "movie"
  const ShowKey: string := "show"
  const SeasonsKey: string := "seasons"

  datatype CollectedItem<M, S, C> = CollectedItem(lastCollectedAt: int, movie: Option<M>, show: Option<S>, seasons: Option<C>)

  /** How one nested value is written and read. */
  datatype Codec<!T> = Codec(encode: T -> Json, decode: Json -> Result<T, DecodingErrorKind>)

  /** An optional part that the codec writes as something other than a
      null and reads back as itself. */
  ghost predicate CodesBack<T>(c: Codec<T>, v: Option<T>) {
    v.Some? ==> c.encode(v.value) != JNull && c.decode(c.encode(v.value)) == Success(v.value)
  }

  /** The keys are pairwise distinct. */
  lemma KeysDistinct()
    ensures LastCollectedAtKey != CollectedAtKey && LastCollectedAtKey != MovieKey
    ensures LastCollectedAtKey != ShowKey && LastCollectedAtKey != SeasonsKey
    ensures CollectedAtKey != MovieKey && CollectedAtKey != ShowKey && CollectedAtKey != SeasonsKey
    ensures MovieKey != ShowKey && MovieKey != SeasonsKey && ShowKey != SeasonsKey
  {
    assert LastCollectedAtKey[0] == 'l' && CollectedAtKey[0] == 'c';
    assert MovieKey[0] == 'm' && ShowKey[1] == 'h' && SeasonsKey[1] == 'e';
  }

  /** `decode(Date.self, forKey:)`: a missing key, a null and a value of
      another type are the three failures. */
  function DecodeDate(j: Json, key: string): (r: Result<int, DecodingErrorKind>)
    requires j.JObject?
    ensures r.Success? <==> Member(j, key).Some? && Member(j, key).value.JInt?
    ensures r.Success? ==> Member(j, key) == Some(JInt(r.value))
    ensures Member(j, key).None? ==> r == Failure(KeyNotFound)
  {
    match Member(j, key)
    case None => Failure(KeyNotFound)
    case Some(JInt(i)) => Success(i)
    case Some(JNull) => Failure(ValueNotFound)
    case Some(_) => Failure(TypeMismatch)
  }

  /** `decodeIfPresent(_:forKey:)`: a missing key and a null both give
      `nil`; a present value must decode. */
  function DecodeIfPresent<T>(j: Json, key: string, c: Codec<T>): (r: Result<Option<T>, DecodingErrorKind>)
    requires j.JObject?
    ensures Member(j, key).None? || Member(j, key) == Some(JNull) ==> r == Success(None)
    ensures Member(j, key).Some? && Member(j, key) != Some(JNull) ==>
              (r.Success? <==> c.decode(Member(j, key).value).Success?)
    ensures r.Success? && r.value.Some? ==> Member(j, key).Some? && c.decode(Member(j, key).value) == Success(r.value.value)
  {
    match Member(j, key)
    case None => Success(None)
    case Some(JNull) => Success(None)
    case Some(v) =>
      match c.decode(v)
      case Success(x) => Success(Some(x))
      case Failure(e) => Failure(e)
  }

  /** `init(from:)`: a keyed container first (a null has none, any other
      non-object has the wrong type), then the optional parts, then the
      date from `last_collected_at`, falling back to `collected_at` when
      that fails for any reason. */
  function Decode<M, S, C>(j: Json, movies: Codec<M>, shows: Codec<S>, seasons: Codec<C>)
    : (r: Result<CollectedItem<M, S, C>, DecodingErrorKind>)
    ensures j.JNull? ==> r == Failure(ValueNotFound)
    ensures !j.JObject? && !j.JNull? ==> r == Failure(TypeMismatch)
    ensures r.Success? ==> && Success(r.value.movie) == DecodeIfPresent(j, MovieKey, movies)
                           && Success(r.value.show) == DecodeIfPresent(j, ShowKey, shows)
                           && Success(r.value.seasons) == DecodeIfPresent(j, SeasonsKey, seasons)
    ensures r.Success? && DecodeDate(j, LastCollectedAtKey).Success? ==>
              r.value.lastCollectedAt == DecodeDate(j, LastCollectedAtKey).value
    ensures r.Success? && DecodeDate(j, LastCollectedAtKey).Failure? ==>
              DecodeDate(j, CollectedAtKey) == Success(r.value.lastCollectedAt)
    ensures j.JObject? && Member(j, LastCollectedAtKey).None? && Member(j, CollectedAtKey).None? ==> r.Failure?
  {
    if j.JNull? then Failure(ValueNotFound)
    else if !j.JObject? then Failure(TypeMismatch)
    else
      match DecodeIfPresent(j, MovieKey, movies)
      case Failure(e) => Failure(e)
      case Success(movie) =>
        match DecodeIfPresent(j, ShowKey, shows)
        case Failure(e) => Failure(e)
        case Success(show) =>
          match DecodeIfPresent(j, SeasonsKey, seasons)
          case Failure(e) => Failure(e)
          case Success(seasonList) =>
            var date :=
              match DecodeDate(j, LastCollectedAtKey)
              case Success(d) => Success(d)
              case Failure(_) => DecodeDate(j, CollectedAtKey);
            match date
            case Failure(e) => Failure(e)
            case Success(d) => Success(CollectedItem(d, movie, show, seasonList))
  }

  /** The fields `encodeIfPresent` writes for an optional value. */
  function IfPresent<T>(key: string, v: Option<T>, c: Codec<T>): (r: seq<(string, Json)>)
    ensures v.None? <==> r == []
    ensures v.Some? ==> r == [(key, c.encode(v.value))]
  {
    match v
    case None => []
    case Some(x) => [(key, c.encode(x))]
  }

  /** `encode(to:)`: the date under `collected_at` for a movie entry and
      under `last_collected_at` otherwise, then the parts that are
      present. */
  function Encode<M, S, C>(item: CollectedItem<M, S, C>, movies: Codec<M>, shows: Codec<S>, seasons: Codec<C>): (j: Json)
    ensures j.JObject? && DistinctKeys(j.fields)
    ensures Member(j, CollectedAtKey).Some? <==> item.movie.Some?
    ensures Member(j, LastCollectedAtKey).Some? <==> item.movie.None?
    ensures Member(j, if item.movie.Some? then CollectedAtKey else LastCollectedAtKey) == Some(JInt(item.lastCollectedAt))
    ensures Member(j, MovieKey).None? <==> item.movie.None?
    ensures Member(j, ShowKey).None? <==> item.show.None?
    ensures Member(j, SeasonsKey).None? <==> item.seasons.None?
    ensures item.movie.Some? ==> Member(j, MovieKey) == Some(movies.encode(item.movie.value))
    ensures item.show.Some? ==> Member(j, ShowKey) == Some(shows.encode(item.show.value))
    ensures item.seasons.Some? ==> Member(j, SeasonsKey) == Some(seasons.encode(item.seasons.value))
  {
    KeysDistinct();
    var dateKey := if item.movie.Some? then CollectedAtKey else LastCollectedAtKey;
    var fields := [(dateKey, JInt(item.lastCollectedAt))]
      + IfPresent(MovieKey, item.movie, movies)
      + IfPresent(ShowKey, item.show, shows)
      + IfPresent(SeasonsKey, item.seasons, seasons);
    LayoutDistinct(dateKey, JInt(item.lastCollectedAt), IfPresent(MovieKey, item.movie, movies),
                   IfPresent(ShowKey, item.show, shows), IfPresent(SeasonsKey, item.seasons, seasons));
    FieldsOf(dateKey, JInt(item.lastCollectedAt), IfPresent(MovieKey, item.movie, movies),
             IfPresent(ShowKey, item.show, shows), IfPresent(SeasonsKey, item.seasons, seasons), CollectedAtKey);
    FieldsOf(dateKey, JInt(item.lastCollectedAt), IfPresent(MovieKey, item.movie, movies),
             IfPresent(ShowKey, item.show, shows), IfPresent(SeasonsKey, item.seasons, seasons), LastCollectedAtKey);
    FieldsOf(dateKey, JInt(item.lastCollectedAt), IfPresent(MovieKey, item.movie, movies),
             IfPresent(ShowKey, item.show, shows), IfPresent(SeasonsKey, item.seasons, seasons), MovieKey);
    FieldsOf(dateKey, JInt(item.lastCollectedAt), IfPresent(MovieKey, item.movie, movies),
             IfPresent(ShowKey, item.show, shows), IfPresent(SeasonsKey, item.seasons, seasons), ShowKey);
    FieldsOf(dateKey, JInt(item.lastCollectedAt), IfPresent(MovieKey, item.movie, movies),
             IfPresent(ShowKey, item.show, shows), IfPresent(SeasonsKey, item.seasons, seasons), SeasonsKey);
    JObject(fields)
  }

  /** The date field and at most one field each under the movie, show
      and seasons keys have distinct keys. */
  lemma LayoutDistinct(dateKey: string, date: Json, m: seq<(string, Json)>, s: seq<(string, Json)>, z: seq<(string, Json)>)
    requires dateKey == CollectedAtKey || dateKey == LastCollectedAtKey
    requires |m| <= 1 && |s| <= 1 && |z| <= 1
    requires forall i :: 0 <= i < |m| ==> m[i].0 == MovieKey
    requires forall i :: 0 <= i < |s| ==> s[i].0 == ShowKey
    requires forall i :: 0 <= i < |z| ==> z[i].0 == SeasonsKey
    ensures DistinctKeys([(dateKey, date)] + m + s + z)
  {
    KeysDistinct();
    var f := [(dateKey, date)] + m + s + z;
    forall i | 0 <= i < |f|
      ensures f[i].0 == (if i == 0 then dateKey else if i < 1 + |m| then MovieKey
                         else if i < 1 + |m| + |s| then ShowKey else SeasonsKey)
    {
      if 0 < i < 1 + |m| {
        assert f[i] == m[i - 1];
      } else if 1 + |m| <= i < 1 + |m| + |s| {
        assert f[i] == s[i - 1 - |m|];
      } else if 1 + |m| + |s| <= i {
        assert f[i] == z[i - 1 - |m| - |s|];
      }
    }
  }

  /** How a key is looked up in the four concatenated parts. */
  lemma FieldsOf(dateKey: string, date: Json, m: seq<(string, Json)>, s: seq<(string, Json)>, z: seq<(string, Json)>,
                 key: string)
    ensures FieldValue([(dateKey, date)] + m + s + z, key) ==
      (if key == dateKey then Some(date)
       else if FieldValue(m, key).Some? then FieldValue(m, key)
       else if FieldValue(s, key).Some? then FieldValue(s, key)
       else FieldValue(z, key))
  {
    FieldValueAppend([(dateKey, date)] + m + s, z, key);
    FieldValueAppend([(dateKey, date)] + m, s, key);
    FieldValueAppend([(dateKey, date)], m, key);
  }

  /** Decoding what was encoded gives back the item, whichever key the
      date went under, provided the parts code back. */
  lemma RoundTrip<M, S, C>(item: CollectedItem<M, S, C>, movies: Codec<M>, shows: Codec<S>, seasons: Codec<C>)
    requires CodesBack(movies, item.movie) && CodesBack(shows, item.show) && CodesBack(seasons, item.seasons)
    ensures Decode(Encode(item, movies, shows, seasons), movies, shows, seasons) == Success(item)
  {
    var j := Encode(item, movies, shows, seasons);
    assert DecodeIfPresent(j, MovieKey, movies) == Success(item.movie);
    assert DecodeIfPresent(j, ShowKey, shows) == Success(item.show);
    assert DecodeIfPresent(j, SeasonsKey, seasons) == Success(item.seasons);
    if item.movie.Some? {
      assert DecodeDate(j, LastCollectedAtKey) == Failure(KeyNotFound);
      assert DecodeDate(j, CollectedAtKey) == Success(item.lastCollectedAt);
    } else {
      assert DecodeDate(j, LastCollectedAtKey) == Success(item.lastCollectedAt);
    }
  }
}

=== FILE: comments.dfy ===
/** `Comment` and `hideSpoilers()` (Model/Comments/Comment.swift): every
    comment has its first `[spoiler]` … `[/spoiler]` span cut out and the
    rest trimmed of spaces, and the comments flagged as spoilers are
    dropped. */
module Comments {
  import opened Wrappers
  import opened Text

  /** A comment; the date is an opaque integer and the user is left
      abstract. */
  datatype Comment<U> = Comment(
    id: int, parentId: int, createdAt: int, comment: string, spoiler: bool, review: bool,
    replies: int, likes: int, userRating: Option<int>, user: U)

  const SpoilerOpen: string := "[spoiler]"
  const SpoilerClose: string := "[/spoiler]"

  /** `pattern` is found in `text` starting at `k`. */
  predicate OccursAt(text: string, pattern: string, k: nat) {
    k + |pattern| <= |text| && text[k..k + |pattern|] == pattern
  }

  predicate Occurs(text: string, pattern: string) {
    exists k: nat | k <= |text| :: OccursAt(text, pattern, k)
  }

  /** The first occurrence of `pattern` at or after `from`. */
  function IndexFrom(text: string, pattern: string, from: nat): (r: Option<nat>)
    ensures r.Some? ==> from <= r.value && OccursAt(text, pattern, r.value)
    ensures r.Some? ==> forall k: nat :: from <= k < r.value ==> !OccursAt(text, pattern, k)
    ensures r.None? ==> forall k: nat :: from <= k ==> !OccursAt(text, pattern, k)
    decreases |text| - from
  {
    if |text| < from + |pattern| then None
    else if text[from..from + |pattern|] == pattern then Some(from)
    else IndexFrom(text, pattern, from + 1)
  }

  /** `range(of:)`, as the lower bound of the range found: the first
      occurrence of a non-empty pattern. */
  function IndexOf(text: string, pattern: string): (r: Option<nat>)
    requires pattern != ""
    ensures r.Some? ==> OccursAt(text, pattern, r.value)
    ensures r.Some? ==> forall k: nat :: k < r.value ==> !OccursAt(text, pattern, k)
    ensures r.None? <==> !Occurs(text, pattern)
  {
    IndexFrom(text, pattern, 0)
  }

  /** An occurrence with none before it is the one `IndexOf` finds. */
  lemma IndexOfIs(text: string, pattern: string, n: nat)
    requires pattern != "" && OccursAt(text, pattern, n)
    requires forall k: nat :: k < n ==> !OccursAt(text, pattern, k)
    ensures IndexOf(text, pattern) == Some(n)
  {
  }

  /** A pattern whose first character appears nowhere else in it, placed
      after a string that does not contain it, is first found right there:
      no occurrence can start inside `a` and run into the pattern. */
  lemma FirstAfter(a: string, pattern: string, rest: string)
    requires pattern != "" && forall j :: 0 < j < |pattern| ==> pattern[j] != pattern[0]
    requires !Occurs(a, pattern)
    ensures IndexOf(a + pattern + rest, pattern) == Some(|a|)
  {
    var t := a + pattern + rest;
    assert t[|a|..|a| + |pattern|] == pattern;
    forall k: nat | k < |a|
      ensures !OccursAt(t, pattern, k)
    {
      if k + |pattern| <= |a| {
        assert t[k..k + |pattern|] == a[k..k + |pattern|];
        assert !OccursAt(a, pattern, k);
      } else if k + |pattern| <= |t| {
        assert t[|a|] == pattern[0];
        assert t[k..k + |pattern|][|a| - k] == pattern[0] != pattern[|a| - k];
      }
    }
    IndexOfIs(t, pattern, |a|);
  }

  /** The markers open with the one `[` they hold. */
  lemma MarkersOpenOnce()
    ensures forall j :: 0 < j < |SpoilerOpen| ==> SpoilerOpen[j] != SpoilerOpen[0]
    ensures forall j :: 0 < j < |SpoilerClose| ==> SpoilerClose[j] != SpoilerClose[0]
  {
  }

  /** The case `hideSpoilers` cannot handle: both markers are present but
      the first `[/spoiler]` ends before the first `[spoiler]` starts, so
      the range from one to the other is reversed and removing it traps. */
  predicate SpoilerRangeValid(text: string) {
    match (IndexOf(text, SpoilerOpen), IndexOf(text, SpoilerClose))
    case (Some(s), Some(e)) => s <= e + |SpoilerClose|
    case _ => true
  }

  /** The text of a comment after `hideSpoilers`. */
  function CleanText(text: string): (r: string)
    requires SpoilerRangeValid(text)
    ensures !Occurs(text, SpoilerOpen) || !Occurs(text, SpoilerClose) ==> r == text
    ensures |r| <= |text|
    ensures Occurs(text, SpoilerOpen) && Occurs(text, SpoilerClose) && |r| > 0 ==>
              !Whitespaces.Contains(r[0]) && !Whitespaces.Contains(r[|r| - 1])
  {
    match (IndexOf(text, SpoilerOpen), IndexOf(text, SpoilerClose))
    case (Some(s), Some(e)) => Trim(text[..s] + text[e + |SpoilerClose|..], Whitespaces)
    case _ => text
  }

  /** A text written as a prefix, the first `[spoiler]`, a middle, the
      first `[/spoiler]` and a suffix cleans to the trimmed prefix and
      suffix. */
  lemma SpanRemoved(pre: string, mid: string, post: string)
    requires !Occurs(pre, SpoilerOpen)
    requires !Occurs(pre + SpoilerOpen + mid, SpoilerClose)
    ensures SpoilerRangeValid(pre + SpoilerOpen + mid + SpoilerClose + post)
    ensures CleanText(pre + SpoilerOpen + mid + SpoilerClose + post) == Trim(pre + post, Whitespaces)
  {
    var text := pre + SpoilerOpen + mid + SpoilerClose + post;
    var a := pre + SpoilerOpen + mid;
    MarkersOpenOnce();
    assert text == pre + SpoilerOpen + (mid + SpoilerClose + post);
    FirstAfter(pre, SpoilerOpen, mid + SpoilerClose + post);
    FirstAfter(a, SpoilerClose, post);
    assert text[..|pre|] == pre;
    assert text[|a| + |SpoilerClose|..] == post;
  }

  /** A text without a `[spoiler]` is left exactly as it is, untrimmed. */
  lemma NoOpenUntouched(text: string)
    requires !Occurs(text, SpoilerOpen)
    ensures SpoilerRangeValid(text) && CleanText(text) == text
  {
  }

  /** A text without a `[/spoiler]` is left exactly as it is, untrimmed. */
  lemma NoCloseUntouched(text: string)
    requires !Occurs(text, SpoilerClose)
    ensures SpoilerRangeValid(text) && CleanText(text) == text
  {
  }

  /** One comment after the loop of `hideSpoilers`: only its text may
      change. */
  function CleanComment<U>(c: Comment<U>): (r: Comment<U>)
    requires SpoilerRangeValid(c.comment)
    ensures r.(comment := c.comment) == c
    ensures r.comment == CleanText(c.comment)
  {
    c.(comment := CleanText(c.comment))
  }

  predicate AllRangesValid<U>(cs: seq<Comment<U>>) {
    forall i :: 0 <= i < |cs| ==> SpoilerRangeValid(cs[i].comment)
  }

  /** The loop of `hideSpoilers`, applied to every comment. */
  function CleanAll<U>(cs: seq<Comment<U>>): (r: seq<Comment<U>>)
    requires AllRangesValid(cs)
    ensures |r| == |cs|
    ensures forall i :: 0 <= i < |cs| ==> r[i] == CleanComment(cs[i])
    decreases |cs|
  {
    if |cs| == 0 then [] else [CleanComment(cs[0])] + CleanAll(cs[1..])
  }

  /** `filter { $0.spoiler == false }`. */
  function NonSpoilers<U>(cs: seq<Comment<U>>): (r: seq<Comment<U>>)
    ensures |r| <= |cs|
    ensures forall i :: 0 <= i < |r| ==> !r[i].spoiler
    ensures forall i :: 0 <= i < |r| ==> r[i] in cs
    ensures forall i :: 0 <= i < |cs| && !cs[i].spoiler ==> cs[i] in r
    decreases |cs|
  {
    if |cs| == 0 then []
    else
      var rest := NonSpoilers(cs[1..]);
      assert forall i :: 1 <= i < |cs| ==> cs[i] == cs[1..][i - 1];
      if cs[0].spoiler then rest else [cs[0]] + rest
  }

  /** The filter keeps the order: filtering a concatenation concatenates
      the filtered parts. */
  lemma {:induction false} NonSpoilersAppend<U>(a: seq<Comment<U>>, b: seq<Comment<U>>)
    ensures NonSpoilers(a + b) == NonSpoilers(a) + NonSpoilers(b)
    decreases |a|
  {
    if |a| == 0 {
      assert a + b == b;
    } else {
      assert (a + b)[0] == a[0];
      assert (a + b)[1..] == a[1..] + b;
      NonSpoilersAppend(a[1..], b);
    }
  }

  /** `hideSpoilers()`. */
  function Hide<U>(cs: seq<Comment<U>>): (r: seq<Comment<U>>)
    requires AllRangesValid(cs)
    ensures |r| <= |cs|
    ensures forall i :: 0 <= i < |r| ==> !r[i].spoiler
  {
    NonSpoilers(CleanAll(cs))
  }

  /** A comment is in the result exactly when it is the cleaned form of a
      comment of the input that is not a spoiler. */
  lemma HideMembers<U>(cs: seq<Comment<U>>, c: Comment<U>)
    requires AllRangesValid(cs)
    ensures c in Hide(cs) <==> exists i :: 0 <= i < |cs| && !cs[i].spoiler && c == CleanComment(cs[i])
  {
    var cleaned := CleanAll(cs);
    if c in Hide(cs) {
      var i :| 0 <= i < |cleaned| && cleaned[i] == c;
      assert !cs[i].spoiler && c == CleanComment(cs[i]);
    }
    if exists i :: 0 <= i < |cs| && !cs[i].spoiler && c == CleanComment(cs[i]) {
      var i :| 0 <= i < |cs| && !cs[i].spoiler && c == CleanComment(cs[i]);
      assert cleaned[i] == c;
    }
  }

  /** Hiding the spoilers of two lists one after the other is hiding
      them in the joined list. */
  lemma HideAppend<U>(a: seq<Comment<U>>, b: seq<Comment<U>>)
    requires AllRangesValid(a) && AllRangesValid(b)
    ensures AllRangesValid(a + b)
    ensures Hide(a + b) == Hide(a) + Hide(b)
  {
    assert CleanAll(a + b) == CleanAll(a) + CleanAll(b);
    NonSpoilersAppend(CleanAll(a), CleanAll(b));
  }

  /** The body of the loop of `hideSpoilers()` for one comment: the text
      changes only when both markers are found. */
  method CleanInPlace<U>(comment: Comment<U>) returns (r: Comment<U>)
    requires SpoilerRangeValid(comment.comment)
    ensures r == CleanComment(comment)
  {
    r := comment;
    var text := comment.comment;
    var start := IndexOf(text, SpoilerOpen);
    var end := IndexOf(text, SpoilerClose);
    if start.Some? && end.Some? {
      text := text[..start.value] + text[end.value + |SpoilerClose|..];
      r := r.(comment := Trim(text, Whitespaces));
    }
  }

  /** The cleaning loop: the copy is cleaned in place, comment by
      comment. */
  method CleanCopy<U>(comments: seq<Comment<U>>) returns (copy: seq<Comment<U>>)
    requires AllRangesValid(comments)
    ensures copy == CleanAll(comments)
  {
    copy := comments;
    var index := 0;
    while index < |copy|
      invariant 0 <= index <= |copy| == |comments|
      invariant forall k :: 0 <= k < index ==> copy[k] == CleanComment(comments[k])
      invariant forall k :: index <= k < |copy| ==> copy[k] == comments[k]
    {
      var comment := CleanInPlace(copy[index]);
      copy := copy[index := comment];
      index := index + 1;
    }
  }

  /** The final `filter`, as a loop. */
  method FilterSpoilers<U>(cs: seq<Comment<U>>) returns (r: seq<Comment<U>>)
    ensures r == NonSpoilers(cs)
  {
    r := [];
    var j := 0;
    while j < |cs|
      invariant 0 <= j <= |cs|
      invariant r == NonSpoilers(cs[..j])
    {
      assert cs[..j + 1] == cs[..j] + [cs[j]];
      NonSpoilersAppend(cs[..j], [cs[j]]);
      if !cs[j].spoiler {
        r := r + [cs[j]];
      }
      j := j + 1;
    }
    assert cs[..j] == cs;
  }

  /** `hideSpoilers()` as written: clean a copy, then filter it. */
  method HideSpoilers<U>(comments: seq<Comment<U>>) returns (r: seq<Comment<U>>)
    requires AllRangesValid(comments)
    ensures r == Hide(comments)
  {
    var copy := CleanCopy(comments);
    r := FilterSpoilers(copy);
  }
}

=== FILE: decodableinteger.dfy ===
/** `DecodableInteger<T>` (Model/DecodableInteger.swift): a Swift `Int`
    wrapped in its own type, coded as the bare integer. The phantom type
    parameter only keeps the wrappers apart at compile time and is
    dropped. */
module DecodableIntegers {
  import opened Wrappers
  import opened Strings
  import opened Json
  import opened Errors

  datatype DecodableInteger = DecodableInteger(value: Int64)

  /** `init(_:)`. */
  function New(v: Int64): (d: DecodableInteger)
    ensures d.value == v
  {
    DecodableInteger(v)
  }

  /** `init(integerLiteral:)`: the same wrapper as `init(_:)`. */
  function FromIntegerLiteral(v: Int64): (d: DecodableInteger)
    ensures d == New(v)
  {
    New(v)
  }

  /** `integerValue`. */
  function IntegerValue(d: DecodableInteger): (r: Int64)
    ensures New(r) == d
  {
    d.value
  }

  /** `DecodableInteger(v).integerValue == v`. */
  lemma ValueRoundTrip(v: Int64)
    ensures IntegerValue(New(v)) == v
    ensures IntegerValue(FromIntegerLiteral(v)) == v
  {
  }

  /** Two wrappers are equal exactly when they hold the same integer. */
  lemma EqualIffSameValue(a: DecodableInteger, b: DecodableInteger)
    ensures a == b <==> IntegerValue(a) == IntegerValue(b)
  {
  }

  /** `description`: `String(value)`, the decimal text of the value. */
  function Description(d: DecodableInteger): (r: string)
    ensures |r| > 0 && (r[0] == '-' <==> IntegerValue(d) < 0)
    ensures AllDigits(r[1..])
  {
    IntString(d.value)
  }

  /** The description reads back as the integer it describes. */
  lemma DescriptionReadsBack(d: DecodableInteger)
    ensures AsInt(Description(d)) == Some(IntegerValue(d))
  {
    IntStringRoundTrip(d.value);
  }

  /** Different wrappers have different descriptions. */
  lemma DescriptionInjective(a: DecodableInteger, b: DecodableInteger)
    requires Description(a) == Description(b)
    ensures a == b
  {
    IntStringInjective(a.value, b.value);
  }

  /** `encode(to:)`: a single-value container holding the integer. */
  function Encode(d: DecodableInteger): (j: Json)
    ensures j.JInt? && j.i == IntegerValue(d)
  {
    JInt(d.value)
  }

  /** `init(from:)`: `decode(Int.self)` from a single-value container. A
      null is a missing value, a number that does not fit in an `Int` is
      corrupted data, anything else has the wrong type. */
  function Decode(j: Json): (r: Result<DecodableInteger, DecodingErrorKind>)
    ensures r.Success? <==> j.JInt? && Int64Min <= j.i <= Int64Max
    ensures r.Success? ==> IntegerValue(r.value) == j.i
    ensures j.JNull? ==> r == Failure(ValueNotFound)
    ensures j.JInt? && r.Failure? ==> r.error == DataCorrupted
    ensures (j.JString? || j.JArray? || j.JObject?) ==> r == Failure(TypeMismatch)
  {
    match j
    case JInt(i) => if Int64Min <= i <= Int64Max then Success(DecodableInteger(i)) else Failure(DataCorrupted)
    case JNull => Failure(ValueNotFound)
    case _ => Failure(TypeMismatch)
  }

  /** Decoding what was encoded gives back the same wrapper. */
  lemma RoundTrip(d: DecodableInteger)
    ensures Decode(Encode(d)) == Success(d)
  {
  }

  /** Whatever decodes is written back unchanged. */
  lemma DecodedReencodes(j: Json)
    requires Decode(j).Success?
    ensures Encode(Decode(j).value) == j
  {
  }
}

=== FILE: endpoints.dfy ===
/** The `Endpoint` protocol: the four things every endpoint descriptor hands
    to the network client. */
module Endpoints {
  import opened Wrappers
  import opened Urls

  /** `HTTPMethod`, with its raw value as sent on the wire. */
  datatype HttpMethod = GET | POST | DELETE {
    function Raw(): (r: string)
      ensures r != ""
      ensures forall i :: 0 <= i < |r| ==> 'A' <= r[i] <= 'Z'
    {
      match this
      case GET => "GET"
      case POST => "POST"
      case DELETE => "DELETE"
    }
  }

  /** An endpoint descriptor. `B` is the payload the body carries; the body
      is that payload itself, standing for its JSON encoding. */
  datatype Endpoint<B> = Endpoint(httpMethod: HttpMethod, url: Url, body: Option<B>, headers: map<string, string>)

  /** The descriptor of an endpoint that never sends a body. */
  type NoBody = ()
}

=== FILE: errors.dfy ===
/** `TraktError` (Networking/TraktError.swift), with the `emptyContent` case
    the request layer raises for a `204 No Content` answer. */
module Errors {

  /** The four `DecodingError` cases `parseObject` distinguishes; their
      coding paths and contexts are left out. */
  datatype DecodingErrorKind = DataCorrupted | KeyNotFound | TypeMismatch | ValueNotFound

  /** The `Error` a case wraps: a transport failure reported by the URL
      loading system (its error code), or an error of this library. */
  datatype Cause = UrlError(code: int) | Wrapped(error: TraktError)

  datatype TraktError =
    | NetworkError(cause: Cause)
    | EmptyDataReceivedError
    | HttpError(status: int)
    | NonHttpResponseError
    | DecodingError(kind: DecodingErrorKind)
    | CacheSavingError(cause: Cause)
    | ClientSecretMissing
    | OAuthCallbackCodeMissing
    | EmptyContent
}

=== FILE: json.dfy ===
/** JSON values, as far as the encoders and decoders of the models need
    them: the shape of what `JSONEncoder` writes, not its text. Dates are
    opaque integers. */
module Json {
  import opened Wrappers

  datatype Json =
    | JNull
    | JInt(i: int)
    | JString(s: string)
    | JArray(items: seq<Json>)
    | JObject(fields: seq<(string, Json)>)

  /** The value under a key of an object: the first field with that key,
      `None` when there is none or the value is not an object. */
  function Member(j: Json, key: string): (r: Option<Json>)
    ensures r.Some? ==> j.JObject?
    ensures j.JObject? ==> r == FieldValue(j.fields, key)
  {
    if j.JObject? then FieldValue(j.fields, key) else None
  }

  function FieldValue(fields: seq<(string, Json)>, key: string): (r: Option<Json>)
    ensures r.None? <==> forall i :: 0 <= i < |fields| ==> fields[i].0 != key
    decreases |fields|
  {
    if |fields| == 0 then None
    else if fields[0].0 == key then Some(fields[0].1)
    else
      var r := FieldValue(fields[1..], key);
      assert forall i :: 1 <= i < |fields| ==> fields[i] == fields[1..][i - 1];
      r
  }

  /** The value under a key is that of the first field with the key, as
      the decoder's keyed container reads it. */
  lemma {:induction false} FieldValueIsFirst(fields: seq<(string, Json)>, k: nat, key: string)
    requires k < |fields| && fields[k].0 == key
    requires forall i :: 0 <= i < k ==> fields[i].0 != key
    ensures FieldValue(fields, key) == Some(fields[k].1)
    decreases k
  {
    if k > 0 {
      FieldValueIsFirst(fields[1..], k - 1, key);
    }
  }

  predicate DistinctKeys(fields: seq<(string, Json)>) {
    forall i, j :: 0 <= i < j < |fields| ==> fields[i].0 != fields[j].0
  }

  /** With distinct keys, the value under a key is the one at its position. */
  lemma {:induction false} FieldValueAt(fields: seq<(string, Json)>, k: nat, key: string)
    requires DistinctKeys(fields)
    requires k < |fields| && fields[k].0 == key
    ensures FieldValue(fields, key) == Some(fields[k].1)
    decreases k
  {
    if k > 0 {
      assert fields[0].0 != key;
      FieldValueAt(fields[1..], k - 1, key);
    }
  }

  /** A key is looked up in the first part of a concatenation before
      the second. */
  lemma {:induction false} FieldValueAppend(a: seq<(string, Json)>, b: seq<(string, Json)>, key: string)
    ensures FieldValue(a + b, key) == if FieldValue(a, key).Some? then FieldValue(a, key) else FieldValue(b, key)
    decreases |a|
  {
    if |a| == 0 {
      assert a + b == b;
    } else {
      assert (a + b)[0] == a[0];
      assert (a + b)[1..] == a[1..] + b;
      FieldValueAppend(a[1..], b, key);
    }
  }

  /** The string under a key, when the field is present and is a string. */
  function StringMember(j: Json, key: string): (r: Option<string>)
    ensures r.Some? <==> Member(j, key).Some? && Member(j, key).value.JString?
    ensures r.Some? ==> Member(j, key) == Some(JString(r.value))
  {
    match Member(j, key)
    case Some(JString(s)) => Some(s)
    case _ => None
  }

  /** The integer under a key, when the field is present and is an integer. */
  function IntMember(j: Json, key: string): (r: Option<int>)
    ensures r.Some? <==> Member(j, key).Some? && Member(j, key).value.JInt?
    ensures r.Some? ==> Member(j, key) == Some(JInt(r.value))
  {
    match Member(j, key)
    case Some(JInt(i)) => Some(i)
    case _ => None
  }
}

=== FILE: movies.dfy ===
/** The `Movies` endpoint enumeration (Networking/API/Movies/Movies.swift):
    every case is a GET without body or headers, and the case and its
    parameters decide the URL. */
module MoviesEndpoint {
  import opened Wrappers
  import opened Strings
  import opened Types
  import opened Urls
  import opened Endpoints

  datatype Movies =
    | Aliases(movieId: int)
    | BoxOffice
    | Comments(movieId: int, sort: string, pageNumber: int, resultsPerPage: int)
    | CurrentlyWatching(movieId: int)
    | Details(movieId: int, infoLevel: InfoLevel)
    | Lists(movieId: int, listType: string, sort: string, pageNumber: int, resultsPerPage: int)
    | MostAnticipated(pageNumber: int, resultsPerPage: int)
    | MostCollected(pageNumber: int, timePeriod: string, resultsPerPage: int)
    | MostPlayed(pageNumber: int, timePeriod: string, resultsPerPage: int)
    | MostWatched(pageNumber: int, timePeriod: string, resultsPerPage: int)
    | People(movieId: int)
    | Popular(pageNumber: int, resultsPerPage: int)
    | Ratings(movieId: int)
    | RecentlyUpdated(pageNumber: int, startDate: string, resultsPerPage: int)
    | Related(movieId: int, pageNumber: int, resultsPerPage: int)
    | Releases(movieId: int, country: string)
    | Stats(movieId: int)
    | Translations(movieId: int, language: string)
    | Trending(pageNumber: int, resultsPerPage: int, infoLevel: InfoLevel)

  /** The cases whose URL carries exactly `page` and `limit` as its query. */
  predicate IsPagedList(m: Movies) {
    m.Comments? || m.Lists? || m.MostAnticipated? || m.MostCollected? || m.MostPlayed?
    || m.MostWatched? || m.Popular? || m.RecentlyUpdated? || m.Related?
  }

  /** The cases whose URL has no query at all. */
  predicate HasNoQuery(m: Movies) {
    m.Aliases? || m.BoxOffice? || m.CurrentlyWatching? || m.People? || m.Ratings?
    || m.Releases? || m.Stats? || m.Translations?
  }

  function PageItems(page: int, limit: int): seq<QueryItem> {
    [Item("page", IntString(page)), Item("limit", IntString(limit))]
  }

  const MoviesRoot: Url := AppendingPathComponent(BaseUrl, "movies")

  /** The cases that address one movie: their component starts with its id. */
  predicate HasMovieId(m: Movies) {
    m.Aliases? || m.Comments? || m.CurrentlyWatching? || m.Details? || m.Lists? || m.People?
    || m.Ratings? || m.Related? || m.Releases? || m.Stats? || m.Translations?
  }

  /** What a per-movie case appends after the movie id. */
  function MovieSuffix(m: Movies): (r: string)
    requires HasMovieId(m)
    ensures r == "" <==> m.Details?
    ensures r != "" ==> r[0] == '/'
  {
    match m
    case Aliases(_) => "/aliases"
    case Comments(_, sort, _, _) => "/comments/" + sort
    case CurrentlyWatching(_) => "/watching"
    case Details(_, _) => ""
    case Lists(_, listType, sort, _, _) => "/lists/" + listType + "/" + sort
    case People(_) => "/people"
    case Ratings(_) => "/ratings"
    case Related(_, _, _) => "/related"
    case Releases(_, country) => "/releases/" + country
    case Stats(_) => "/stats"
    case Translations(_, language) => "/translations/" + language
  }

  /** What a chart case (one not about a single movie) appends. */
  function ChartComponent(m: Movies): (r: string)
    requires !HasMovieId(m)
    ensures 0 < |r| && IsLetter(r[0])
  {
    match m
    case BoxOffice => "boxoffice"
    case MostAnticipated(_, _) => "anticipated"
    case MostCollected(_, period, _) => "collected/" + period
    case MostPlayed(_, period, _) => "played/" + period
    case MostWatched(_, period, _) => "watched/" + period
    case Popular(_, _) => "popular"
    case RecentlyUpdated(_, startDate, _) => "updates/" + startDate
    case Trending(_, _, _) => "trending"
  }

  /** What each case appends under `movies`. */
  function Component(m: Movies): (r: string)
    ensures HasMovieId(m) ==> && IntString(m.movieId) <= r
                              && (|r| == |IntString(m.movieId)| || r[|IntString(m.movieId)|] == '/')
    ensures !HasMovieId(m) ==> 0 < |r| && IsLetter(r[0])
  {
    if HasMovieId(m) then IntString(m.movieId) + MovieSuffix(m) else ChartComponent(m)
  }

  /** The query each case appends: pagination, the info level, or nothing. */
  function WithQuery(m: Movies, u: Url): (r: Url)
    ensures r.path == u.path
    ensures IsPagedList(m) ==> r.query == u.query + PageItems(m.pageNumber, m.resultsPerPage)
    ensures HasNoQuery(m) ==> r.query == u.query
    ensures m.Details? ==> r.query == u.query + [Item("extended", m.infoLevel.Raw())]
    ensures m.Trending? ==> r.query == u.query + PageItems(m.pageNumber, m.resultsPerPage) + [Item("extended", m.infoLevel.Raw())]
  {
    if m.Details? then AppendingQueryItem(u, Item("extended", m.infoLevel.Raw()))
    else if m.Trending? then
      AppendingInfo(AppendingPagination(u, Pagination(m.pageNumber, m.resultsPerPage)), Some(m.infoLevel))
    else if IsPagedList(m) then AppendingPagination(u, Pagination(m.pageNumber, m.resultsPerPage))
    else u
  }

  /** `url`. */
  function MoviesUrl(m: Movies): (r: Url)
    ensures r.path == "/movies/" + Component(m)
    ensures IsPagedList(m) ==> r.query == PageItems(m.pageNumber, m.resultsPerPage)
    ensures HasNoQuery(m) ==> r.query == []
    ensures m.Details? ==> r.query == [Item("extended", m.infoLevel.Raw())]
    ensures m.Trending? ==> r.query == PageItems(m.pageNumber, m.resultsPerPage) + [Item("extended", m.infoLevel.Raw())]
  {
    var c := Component(m);
    var u := AppendingPathComponent(MoviesRoot, c);
    assert MoviesRoot == Url("/movies", []);
    assert u.path == "/movies" + "/" + c && u.query == [];
    assert "/movies" + "/" == "/movies/";
    WithQuery(m, u)
  }

  /** Splitting at the first `/`: an id-like prefix with no `/` followed by
      nothing or by a `/`-led suffix determines the prefix. */
  lemma PrefixBeforeSlash(x: string, s: string, y: string, t: string)
    requires '/' !in x && '/' !in y
    requires s == "" || s[0] == '/'
    requires t == "" || t[0] == '/'
    requires x + s == y + t
    ensures x == y && s == t
  {
    assert x == (x + s)[..|x|];
    assert y == (y + t)[..|y|];
  }

  lemma IntStringHasNoSlash(v: int)
    ensures '/' !in IntString(v)
  {
    var r := IntString(v);
    forall i | 0 <= i < |r|
      ensures r[i] != '/'
    {
      if i > 0 { assert r[i] == r[1..][i - 1]; }
    }
  }

  /** Two per-movie requests with the same path are about the same movie and
      the same resource; a per-movie path and a chart path never coincide. */
  lemma PathNamesTheMovie(a: Movies, b: Movies)
    requires HasMovieId(a)
    requires MoviesUrl(a).path == MoviesUrl(b).path
    ensures HasMovieId(b)
    ensures a.movieId == b.movieId && MovieSuffix(a) == MovieSuffix(b)
  {
    var ca, cb := Component(a), Component(b);
    assert ca == MoviesUrl(a).path[|"/movies/"|..];
    assert cb == MoviesUrl(b).path[|"/movies/"|..];
    assert ca == cb;
    var ia := IntString(a.movieId);
    IntStringHasNoSlash(a.movieId);
    assert !IsLetter(ia[0]);
    assert HasMovieId(b);
    IntStringHasNoSlash(b.movieId);
    PrefixBeforeSlash(ia, MovieSuffix(a), IntString(b.movieId), MovieSuffix(b));
    IntStringInjective(a.movieId, b.movieId);
  }

  /** The descriptor: `httpMethod`, `url`, `httpBody`, `requestHeaders`. */
  function MoviesEndpoint(m: Movies): (e: Endpoint<NoBody>)
    ensures e.httpMethod == GET && e.body.None? && e.headers == map[]
    ensures e.url == MoviesUrl(m)
  {
    Endpoint(GET, MoviesUrl(m), None, map[])
  }

  /** The movie id and the info level are both recoverable from a details URL. */
  lemma DetailsUrlInjective(a: Movies, b: Movies)
    requires a.Details? && b.Details?
    requires MoviesUrl(a) == MoviesUrl(b)
    ensures a == b
  {
    var ua, ub := MoviesUrl(a), MoviesUrl(b);
    assert ua.path == "/movies/" + IntString(a.movieId);
    assert IntString(a.movieId) == ua.path[|"/movies/"|..];
    assert IntString(b.movieId) == ub.path[|"/movies/"|..];
    IntStringInjective(a.movieId, b.movieId);
    assert ua.query[0].value.value == a.infoLevel.Raw();
    RawValuesInjective();
  }

  /** Every listed case puts its page number in the query, so two requests
      for different pages never share a URL. */
  lemma PageIsInUrl(a: Movies, b: Movies)
    requires IsPagedList(a) || a.Trending?
    requires IsPagedList(b) || b.Trending?
    requires MoviesUrl(a) == MoviesUrl(b)
    ensures a.pageNumber == b.pageNumber
  {
    var q := MoviesUrl(a).query;
    assert q[0].value.value == IntString(a.pageNumber) == IntString(b.pageNumber);
    IntStringInjective(a.pageNumber, b.pageNumber);
  }
}

=== FILE: moviescache.dfy ===
/** The cache table of the movie endpoints
    (TraktKit/Networking/API/Movies/CacheConfig+Movies.swift): for every case
    of that tree's `Movies` enum, the cache name, the key a response is
    stored under, and the disk and memory limits.

    A movie id (`TraktId`) is an integer and is interpolated as its decimal
    form. The cases that bind their whole associated-value tuple with one
    pattern interpolate that tuple, which prints as `(label: value, ...)`. */
module MoviesCache {
  import opened Strings
  import opened Types
  import opened CacheKeys

  datatype Movies =
    | Aliases(movieId: int)
    | BoxOffice
    | Comments(movieId: int, sort: string, pageNumber: int, resultsPerPage: int)
    | CurrentlyWatching(movieId: int)
    | Details(movieId: int, infoLevel: InfoLevel)
    | Lists(movieId: int, listType: string, sort: string, pageNumber: int, resultsPerPage: int)
    | MostAnticipated(pageNumber: int, resultsPerPage: int)
    | MostCollected(pageNumber: int, timePeriod: string, resultsPerPage: int)
    | MostPlayed(pageNumber: int, timePeriod: string, resultsPerPage: int)
    | MostWatched(pageNumber: int, timePeriod: string, resultsPerPage: int)
    | People(movieId: int)
    | Popular(pageNumber: int, resultsPerPage: int)
    | Ratings(movieId: int)
    | RecentlyUpdated(pageNumber: int, startDate: string, resultsPerPage: int)
    | Related(movieId: int, pageNumber: int, resultsPerPage: int)
    | Releases(movieId: int, country: string)
    | Stats(movieId: int)
    | Translations(movieId: int, language: string)
    | Trending(pageNumber: int, resultsPerPage: int, infoLevel: InfoLevel)

  /** The position of a case in the declaration of the enum. */
  function CaseIndex(m: Movies): nat {
    match m
    case Aliases(_) => 0
    case BoxOffice => 1
    case Comments(_, _, _, _) => 2
    case CurrentlyWatching(_) => 3
    case Details(_, _) => 4
    case Lists(_, _, _, _, _) => 5
    case MostAnticipated(_, _) => 6
    case MostCollected(_, _, _) => 7
    case MostPlayed(_, _, _) => 8
    case MostWatched(_, _, _) => 9
    case People(_) => 10
    case Popular(_, _) => 11
    case Ratings(_) => 12
    case RecentlyUpdated(_, _, _) => 13
    case Related(_, _, _) => 14
    case Releases(_, _) => 15
    case Stats(_) => 16
    case Translations(_, _) => 17
    case Trending(_, _, _) => 18
  }

  /** The charts: lists of movies, paged, not about one movie. */
  predicate IsChart(m: Movies) {
    m.MostAnticipated? || m.MostCollected? || m.MostPlayed? || m.MostWatched? ||
    m.Popular? || m.RecentlyUpdated? || m.Trending?
  }

  /** The cases about one movie. */
  predicate IsPerMovie(m: Movies) {
    !m.BoxOffice? && !IsChart(m)
  }

  /** The cases with a page number. */
  predicate IsPaginated(m: Movies) {
    m.Comments? || m.Lists? || IsChart(m) || m.Related?
  }

  /** `name`: some names carry a leading `.`, none carries a `_`. */
  function Name(m: Movies): (r: string)
    ensures r != "" && '_' !in r
  {
    match m
    case Aliases(_) => "aliases"
    case BoxOffice => "boxOffice"
    case Comments(_, _, _, _) => "comments"
    case CurrentlyWatching(_) => "currentlyWatching"
    case Details(_, _) => ".details"
    case Lists(_, _, _, _, _) => "lists"
    case MostAnticipated(_, _) => "mostAnticipated"
    case MostCollected(_, _, _) => "mostCollected"
    case MostPlayed(_, _, _) => "mostPlayed"
    case MostWatched(_, _, _) => "mostWatched"
    case People(_) => ".people"
    case Popular(_, _) => ".popular"
    case Ratings(_) => ".ratings"
    case RecentlyUpdated(_, _, _) => "recentlyUpdated"
    case Related(_, _, _) => ".related"
    case Releases(_, _) => ".releases"
    case Stats(_) => ".stats"
    case Translations(_, _) => ".translations"
    case Trending(_, _, _) => ".trending"
  }

  /** Two cases share a name exactly when they are the same case. */
  lemma NamesDistinct(a: Movies, b: Movies)
    ensures Name(a) == Name(b) <==> CaseIndex(a) == CaseIndex(b)
  {
  }

  /** A bound tuple of two associated values, as interpolation prints it. */
  function Tuple2(l1: string, v1: string, l2: string, v2: string): string {
    "(" + l1 + ": " + v1 + ", " + l2 + ": " + v2 + ")"
  }

  /** A bound tuple of three associated values, as interpolation prints it. */
  function Tuple3(l1: string, v1: string, l2: string, v2: string, l3: string, v3: string): string {
    "(" + l1 + ": " + v1 + ", " + l2 + ": " + v2 + ", " + l3 + ": " + v3 + ")"
  }

  /** An info level inside a printed tuple: the case qualified by the
      enum's declared name, `InfoLevel` (`MovieInfo` names the same type). */
  function InfoText(l: InfoLevel): (r: string)
    ensures ',' !in r
    ensures |l.Raw()| < |r| && r[|r| - |l.Raw()|..] == l.Raw()
  {
    "TraktKit.InfoLevel." + l.Raw()
  }

  /** What a key holds after `<name>_`, for every case but `boxOffice`. */
  function Fields(m: Movies): (r: string)
    requires !m.BoxOffice?
    ensures r != ""
    ensures m.Details? || m.MostAnticipated? || m.Popular? || m.Trending? ==> r[0] == '('
    ensures (|| m.Aliases? || m.Comments? || m.CurrentlyWatching? || m.Lists? || m.People?
             || m.Ratings? || m.Related? || m.Releases? || m.Stats? || m.Translations?)
            ==> IntString(m.movieId) <= r
  {
    match m
    case Aliases(id) => IntString(id)
    case Comments(id, sort, page, _) => IntString(id) + "_" + sort + "_" + IntString(page)
    case CurrentlyWatching(id) => IntString(id)
    case Details(id, info) => Tuple2("movieId", IntString(id), "infoLevel", InfoText(info))
    case Lists(id, listType, sort, page, _) => IntString(id) + "_" + listType + ")_" + sort + "_" + IntString(page)
    case MostAnticipated(page, limit) => Tuple2("pageNumber", IntString(page), "resultsPerPage", IntString(limit))
    case MostCollected(page, period, _) => IntString(page) + "_" + period
    case MostPlayed(page, period, _) => IntString(page) + "_" + period
    case MostWatched(page, period, _) => IntString(page) + "_" + period
    case People(id) => IntString(id)
    case Popular(page, limit) => Tuple2("pageNumber", IntString(page), "resultsPerPage", IntString(limit))
    case Ratings(id) => IntString(id)
    case RecentlyUpdated(page, startDate, _) => startDate + "_" + IntString(page)
    case Related(id, page, _) => IntString(id) + "_" + IntString(page)
    case Releases(id, country) => IntString(id) + "_" + country
    case Stats(id) => IntString(id)
    case Translations(id, language) => IntString(id) + "_" + language
    case Trending(page, limit, info) =>
      Tuple3("pageNumber", IntString(page), "resultsPerPage", IntString(limit), "infoLevel", InfoText(info))
  }

  /** `key`: the name, then `_` and the interpolated values; `boxOffice`
      has no values and its key is its name. */
  function Key(m: Movies): (r: string)
    ensures Name(m) <= r
    ensures r == Name(m) <==> m.BoxOffice?
    ensures !m.BoxOffice? ==> r[|Name(m)|] == '_'
  {
    if m.BoxOffice? then Name(m) else Name(m) + "_" + Fields(m)
  }

  /** Keys of different cases never coincide: the part before the first
      `_` is the name, and the names differ. */
  lemma {:induction false} KeyNamesTheCase(a: Movies, b: Movies)
    requires Key(a) == Key(b)
    ensures CaseIndex(a) == CaseIndex(b)
  {
    KeyFirstField(a);
    KeyFirstField(b);
    NamesDistinct(a, b);
  }

  lemma KeyFirstField(m: Movies)
    ensures FirstField(Key(m)) == Name(m)
  {
    FirstFieldOf(Name(m), if m.BoxOffice? then "" else Fields(m));
  }

  /** The page size is not part of the key of these cases. */
  predicate OmitsPageSize(m: Movies) {
    m.Comments? || m.Lists? || m.MostCollected? || m.MostPlayed? || m.MostWatched? ||
    m.RecentlyUpdated? || m.Related?
  }

  /** The same request asking for another page size. */
  function WithPageSize(m: Movies, n: int): (r: Movies)
    ensures CaseIndex(r) == CaseIndex(m)
  {
    match m
    case Comments(id, sort, page, _) => Comments(id, sort, page, n)
    case Lists(id, listType, sort, page, _) => Lists(id, listType, sort, page, n)
    case MostAnticipated(page, _) => MostAnticipated(page, n)
    case MostCollected(page, period, _) => MostCollected(page, period, n)
    case MostPlayed(page, period, _) => MostPlayed(page, period, n)
    case MostWatched(page, period, _) => MostWatched(page, period, n)
    case Popular(page, _) => Popular(page, n)
    case RecentlyUpdated(page, startDate, _) => RecentlyUpdated(page, startDate, n)
    case Related(id, page, _) => Related(id, page, n)
    case Trending(page, _, info) => Trending(page, n, info)
    case _ => m
  }

  /** Requests that differ only in their page size share a key. */
  lemma PageSizeNotInKey(m: Movies, n: int)
    requires OmitsPageSize(m)
    ensures Key(WithPageSize(m, n)) == Key(m)
  {
  }

  /** For the cases that print their whole tuple, a different page size
      gives a different key. */
  lemma PageSizeInTupleKey(m: Movies, n: int)
    requires m.MostAnticipated? || m.Popular? || m.Trending?
    requires n != m.resultsPerPage
    ensures Key(WithPageSize(m, n)) != Key(m)
  {
    if Key(WithPageSize(m, n)) == Key(m) {
      WholeTupleInKey(m, WithPageSize(m, n));
    }
  }

  /** The cases that interpolate their whole tuple of associated values. */
  predicate BindsWholeTuple(m: Movies) {
    m.Details? || m.MostAnticipated? || m.Popular? || m.Trending?
  }

  /** A printed tuple of two values gives both values back when the first
      has no comma. */
  lemma Tuple2Injective(l1: string, v1: string, l2: string, v2: string, w1: string, w2: string)
    requires ',' !in v1 && ',' !in w1
    requires Tuple2(l1, v1, l2, v2) == Tuple2(l1, w1, l2, w2)
    ensures v1 == w1 && v2 == w2
  {
    var p, q := "(" + l1 + ": ", " " + l2 + ": ";
    assert Tuple2(l1, v1, l2, v2) == p + (v1 + [','] + (q + v2 + ")"));
    assert Tuple2(l1, w1, l2, w2) == p + (w1 + [','] + (q + w2 + ")"));
    DropPrefix(p, v1 + [','] + (q + v2 + ")"), w1 + [','] + (q + w2 + ")"));
    SplitAtFirst(',', v1, q + v2 + ")", w1, q + w2 + ")");
    assert q + v2 + ")" == q + (v2 + ")");
    assert q + w2 + ")" == q + (w2 + ")");
    DropPrefix(q, v2 + ")", w2 + ")");
    assert v2 == (v2 + ")")[..|v2|];
    assert w2 == (w2 + ")")[..|w2|];
  }

  /** A printed tuple of three values is a tuple of two whose second value
      holds the rest. */
  lemma Tuple3AsTuple2(l1: string, v1: string, l2: string, v2: string, l3: string, v3: string)
    ensures Tuple3(l1, v1, l2, v2, l3, v3) == Tuple2(l1, v1, l2, v2 + ", " + l3 + ": " + v3)
  {
  }

  lemma Tuple3Injective(l1: string, v1: string, l2: string, v2: string, l3: string, v3: string,
                        w1: string, w2: string, w3: string)
    requires ',' !in v1 && ',' !in w1 && ',' !in v2 && ',' !in w2
    requires Tuple3(l1, v1, l2, v2, l3, v3) == Tuple3(l1, w1, l2, w2, l3, w3)
    ensures v1 == w1 && v2 == w2 && v3 == w3
  {
    Tuple3AsTuple2(l1, v1, l2, v2, l3, v3);
    Tuple3AsTuple2(l1, w1, l2, w2, l3, w3);
    Tuple2Injective(l1, v1, l2, v2 + ", " + l3 + ": " + v3, w1, w2 + ", " + l3 + ": " + w3);
    var q := " " + l3 + ": ";
    assert v2 + ", " + l3 + ": " + v3 == v2 + [','] + (q + v3);
    assert w2 + ", " + l3 + ": " + w3 == w2 + [','] + (q + w3);
    SplitAtFirst(',', v2, q + v3, w2, q + w3);
    DropPrefix(q, v3, w3);
  }

  lemma InfoTextInjective(a: InfoLevel, b: InfoLevel)
    requires InfoText(a) == InfoText(b)
    ensures a == b
  {
    DropPrefix("TraktKit.InfoLevel.", a.Raw(), b.Raw());
    RawValuesInjective();
  }

  /** Equal keys of the same case have equal fields. */
  lemma SameKeySameFields(a: Movies, b: Movies)
    requires !a.BoxOffice? && CaseIndex(a) == CaseIndex(b)
    requires Key(a) == Key(b)
    ensures Fields(a) == Fields(b)
  {
    DropPrefix(Name(a) + "_", Fields(a), Fields(b));
  }

  /** `details`, `mostAnticipated`, `popular` and `trending` put every
      associated value, the info level and the page size included, into the
      key: two such requests with the same key are the same request. */
  lemma {:induction false} WholeTupleInKey(a: Movies, b: Movies)
    requires BindsWholeTuple(a) && CaseIndex(a) == CaseIndex(b)
    requires Key(a) == Key(b)
    ensures a == b
  {
    SameKeySameFields(a, b);
    match a
    case Details(id, info) =>
      IntStringHasNo(id, ',');
      IntStringHasNo(b.movieId, ',');
      Tuple2Injective("movieId", IntString(id), "infoLevel", InfoText(info), IntString(b.movieId), InfoText(b.infoLevel));
      IntStringInjective(id, b.movieId);
      InfoTextInjective(info, b.infoLevel);
    case MostAnticipated(page, limit) =>
      TwoIntTuple(page, limit, b.pageNumber, b.resultsPerPage);
    case Popular(page, limit) =>
      TwoIntTuple(page, limit, b.pageNumber, b.resultsPerPage);
    case Trending(page, limit, info) =>
      IntStringHasNo(page, ',');
      IntStringHasNo(b.pageNumber, ',');
      IntStringHasNo(limit, ',');
      IntStringHasNo(b.resultsPerPage, ',');
      Tuple3Injective("pageNumber", IntString(page), "resultsPerPage", IntString(limit), "infoLevel", InfoText(info),
                      IntString(b.pageNumber), IntString(b.resultsPerPage), InfoText(b.infoLevel));
      IntStringInjective(page, b.pageNumber);
      IntStringInjective(limit, b.resultsPerPage);
      InfoTextInjective(info, b.infoLevel);
  }

  lemma TwoIntTuple(page: int, limit: int, page': int, limit': int)
    requires Tuple2("pageNumber", IntString(page), "resultsPerPage", IntString(limit))
          == Tuple2("pageNumber", IntString(page'), "resultsPerPage", IntString(limit'))
    ensures page == page' && limit == limit'
  {
    IntStringHasNo(page, ',');
    IntStringHasNo(page', ',');
    Tuple2Injective("pageNumber", IntString(page), "resultsPerPage", IntString(limit), IntString(page'), IntString(limit'));
    IntStringInjective(page, page');
    IntStringInjective(limit, limit');
  }

  /** Different pages of the same paginated request never share a key. */
  lemma {:induction false} PageInKey(a: Movies, b: Movies)
    requires IsPaginated(a) && CaseIndex(a) == CaseIndex(b)
    requires a.pageNumber != b.pageNumber
    ensures Key(a) != Key(b)
  {
    if Key(a) == Key(b) {
      SameKeySameFields(a, b);
      IntStringHasNo(a.pageNumber, '_');
      IntStringHasNo(b.pageNumber, '_');
      match a
      case Comments(id, sort, page, _) =>
        SplitAtLast('_', IntString(id) + "_" + sort, IntString(page), IntString(b.movieId) + "_" + b.sort, IntString(b.pageNumber));
        IntStringInjective(page, b.pageNumber);
      case Lists(id, listType, sort, page, _) =>
        SplitAtLast('_', IntString(id) + "_" + listType + ")_" + sort, IntString(page),
                    IntString(b.movieId) + "_" + b.listType + ")_" + b.sort, IntString(b.pageNumber));
        IntStringInjective(page, b.pageNumber);
      case MostAnticipated(page, limit) =>
        TwoIntTuple(page, limit, b.pageNumber, b.resultsPerPage);
      case Popular(page, limit) =>
        TwoIntTuple(page, limit, b.pageNumber, b.resultsPerPage);
      case Trending(_, _, _) =>
        WholeTupleInKey(a, b);
      case MostCollected(page, period, _) =>
        SplitAtFirst('_', IntString(page), period, IntString(b.pageNumber), b.timePeriod);
        IntStringInjective(page, b.pageNumber);
      case MostPlayed(page, period, _) =>
        SplitAtFirst('_', IntString(page), period, IntString(b.pageNumber), b.timePeriod);
        IntStringInjective(page, b.pageNumber);
      case MostWatched(page, period, _) =>
        SplitAtFirst('_', IntString(page), period, IntString(b.pageNumber), b.timePeriod);
        IntStringInjective(page, b.pageNumber);
      case RecentlyUpdated(page, startDate, _) =>
        SplitAtLast('_', startDate, IntString(page), b.startDate, IntString(b.pageNumber));
        IntStringInjective(page, b.pageNumber);
      case Related(id, page, _) =>
        SplitAtLast('_', IntString(id), IntString(page), IntString(b.movieId), IntString(b.pageNumber));
        IntStringInjective(page, b.pageNumber);
    }
  }

  /** The `lists` key closes the list type with a stray `)`. */
  lemma ListsKeyForm(id: int, listType: string, sort: string, page: int, limit: int)
    ensures Key(Lists(id, listType, sort, page, limit))
         == "lists_" + (IntString(id) + "_" + listType + ")_" + sort + "_" + IntString(page))
  {
    var m := Lists(id, listType, sort, page, limit);
    assert Key(m) == Name(m) + "_" + Fields(m);
    assert Name(m) + "_" == "lists_";
  }

  /** The `lists` key holds the list type and the sort only joined by
      `)_`: both are free text, so two requests whose type and sort join to
      the same text (`a)_b` and `c`, or `a` and `b)_c`) share a key. */
  lemma ListsKeyJoinsTypeAndSort(id: int, type1: string, sort1: string, type2: string, sort2: string,
                                 page: int, limit: int)
    requires type1 + ")_" + sort1 == type2 + ")_" + sort2
    ensures Key(Lists(id, type1, sort1, page, limit)) == Key(Lists(id, type2, sort2, page, limit))
  {
    ListsFields(id, type1, sort1, page, limit);
    ListsFields(id, type2, sort2, page, limit);
  }

  lemma ListsFields(id: int, listType: string, sort: string, page: int, limit: int)
    ensures Fields(Lists(id, listType, sort, page, limit))
         == IntString(id) + "_" + (listType + ")_" + sort) + "_" + IntString(page)
  {
  }

  /** `diskMaxSize`: 1 MB for the box office, 5 MB for a chart, 50 MB for a
      per-movie case. */
  function DiskMaxSize(m: Movies): (r: nat)
    ensures m.BoxOffice? ==> r == MB
    ensures IsChart(m) ==> r == 5 * MB
    ensures IsPerMovie(m) ==> r == 50 * MB
  {
    match m
    case Aliases(_) => MB * 50
    case Comments(_, _, _, _) => MB * 50
    case CurrentlyWatching(_) => MB * 50
    case Details(_, _) => MB * 50
    case Lists(_, _, _, _, _) => MB * 50
    case People(_) => MB * 50
    case Translations(_, _) => MB * 50
    case Ratings(_) => MB * 50
    case Related(_, _, _) => MB * 50
    case Releases(_, _) => MB * 50
    case Stats(_) => MB * 50
    case BoxOffice => MB
    case MostAnticipated(_, _) => MB * 5
    case MostCollected(_, _, _) => MB * 5
    case MostPlayed(_, _, _) => MB * 5
    case MostWatched(_, _, _) => MB * 5
    case Popular(_, _) => MB * 5
    case RecentlyUpdated(_, _, _) => MB * 5
    case Trending(_, _, _) => MB * 5
  }

  /** `memoryMaxItemCount`: 1 for the box office, 50 for a chart, 500 for a
      per-movie case. */
  function MemoryMaxItemCount(m: Movies): (r: nat)
    ensures m.BoxOffice? ==> r == 1
    ensures IsChart(m) ==> r == 50
    ensures IsPerMovie(m) ==> r == 500
  {
    match m
    case Aliases(_) => 500
    case Comments(_, _, _, _) => 500
    case CurrentlyWatching(_) => 500
    case Details(_, _) => 500
    case Lists(_, _, _, _, _) => 500
    case People(_) => 500
    case Translations(_, _) => 500
    case Ratings(_) => 500
    case Related(_, _, _) => 500
    case Releases(_, _) => 500
    case Stats(_) => 500
    case BoxOffice => 1
    case MostAnticipated(_, _) => 50
    case MostCollected(_, _, _) => 50
    case MostPlayed(_, _, _) => 50
    case MostWatched(_, _, _) => 50
    case Popular(_, _) => 50
    case RecentlyUpdated(_, _, _) => 50
    case Trending(_, _, _) => 50
  }

  /** `allCases`: built by falling through the whole switch from the first
      case, so one representative of every case, in declaration order. */
  function AllCases(): (r: seq<Movies>)
    ensures |r| == 19
    ensures forall i :: 0 <= i < |r| ==> CaseIndex(r[i]) == i
  {
    [ Aliases(0), BoxOffice, Comments(0, "", 0, 0), CurrentlyWatching(0), Details(0, InfoLevel.Min),
      Lists(0, "", "", 0, 0), MostAnticipated(0, 0), MostCollected(0, "", 0), MostPlayed(0, "", 0),
      MostWatched(0, "", 0), People(0), Popular(0, 0), Ratings(0), RecentlyUpdated(0, "", 0),
      Related(0, 0, 0), Releases(0, ""), Stats(0), Translations(0, ""), Trending(0, 0, InfoLevel.Min) ]
  }

  /** Every case has its representative in `allCases`, and no two
      representatives share a key. */
  lemma AllCasesCoverEveryCase(m: Movies)
    ensures exists i :: 0 <= i < |AllCases()| && CaseIndex(AllCases()[i]) == CaseIndex(m)
    ensures forall i, j :: 0 <= i < j < |AllCases()| ==> Key(AllCases()[i]) != Key(AllCases()[j])
  {
    var cases := AllCases();
    assert CaseIndex(cases[CaseIndex(m)]) == CaseIndex(m);
    forall i, j | 0 <= i < j < |cases|
      ensures Key(cases[i]) != Key(cases[j])
    {
      if Key(cases[i]) == Key(cases[j]) {
        KeyNamesTheCase(cases[i], cases[j]);
      }
    }
  }
}

=== FILE: networkclient.dfy ===
/** `NetworkClient` (Networking/NetworkClient.swift): building a request from
    an endpoint, classifying what the URL loading system answers, and the
    response store consulted before every request.

    The store is a map from request to stored HTTP response. A request
    found in it is answered from it without going to the network; a request
    not found is answered by `Transport`, a value standing for what the
    network returns, and a `2xx` answer is stored. The session, the logger
    and the main-queue dispatch are left out: each call returns its one
    result. */
module NetworkClient {
  import opened Wrappers
  import opened Urls
  import opened Endpoints
  import opened ResponseHeaders
  import opened Errors

  type Data = seq<bv8>

  /** A `URLRequest`: URL, method, header fields and body. */
  datatype Request<B> = Request(url: Url, httpMethod: HttpMethod, headers: map<string, string>, body: Option<B>)

  /** `addValue(_:forHTTPHeaderField:)` for every extra header: a field not
      yet set takes the value, a field already set gets it appended after a
      comma. */
  function AddValues(headers: map<string, string>, extra: map<string, string>): (r: map<string, string>)
    ensures r.Keys == headers.Keys + extra.Keys
    ensures forall k :: k in headers && k !in extra ==> r[k] == headers[k]
    ensures forall k :: k in extra && k !in headers ==> r[k] == extra[k]
    ensures forall k :: k in extra && k in headers ==> r[k] == headers[k] + "," + extra[k]
  {
    map k | k in headers.Keys + extra.Keys ::
      if k in headers && k in extra then headers[k] + "," + extra[k]
      else if k in extra then extra[k]
      else headers[k]
  }

  /** No extra headers: the fields are left as they are. */
  lemma AddNoValues(headers: map<string, string>)
    ensures AddValues(headers, map[]) == headers
  {
  }

  /** Extra headers on a request without fields become its fields. */
  lemma AddValuesToNone(extra: map<string, string>)
    ensures AddValues(map[], extra) == extra
  {
  }

  /** `authenticatedRequest(_:additionalHeaders:)`: the endpoint's method,
      URL and body, its headers with the additional ones added. */
  function BuildRequest<B>(e: Endpoint<B>, additional: map<string, string>): (r: Request<B>)
    ensures r.url == e.url && r.httpMethod == e.httpMethod && r.body == e.body
    ensures r.headers.Keys == e.headers.Keys + additional.Keys
    ensures e.headers == map[] ==> r.headers == additional
    ensures r.headers == AddValues(e.headers, additional)
  {
    AddValuesToNone(additional);
    Request(e.url, e.httpMethod, AddValues(e.headers, additional), e.body)
  }

  /** The request names its endpoint: two endpoints with the same headers
      that give the same request are the same endpoint. */
  lemma BuildRequestInjective<B>(a: Endpoint<B>, b: Endpoint<B>, additional: map<string, string>)
    requires a.headers == b.headers
    requires BuildRequest(a, additional) == BuildRequest(b, additional)
    ensures a == b
  {
  }

  /** What the URL loading system hands the completion handler: a
      transport error (its code), the data, and the response, which may
      or may not be an HTTP response. */
  datatype UrlResponse = HttpResponse(statusCode: int, headerFields: HeaderFields) | OtherResponse
  datatype Transport = Transport(error: Option<int>, data: Option<Data>, response: Option<UrlResponse>)

  /** A stored HTTP response. */
  datatype Stored = Stored(data: Data, statusCode: int, headerFields: HeaderFields)
  type Store<B(==)> = map<Request<B>, Stored>

  /** `NetworkResult.SuccessValue`. */
  datatype SuccessValue = SuccessValue(value: Data, headers: HttpResponseHeaders, statusCode: int)
  type NetworkResult = Result<SuccessValue, TraktError>

  /** `200 ..< 300 ~= statusCode`. */
  predicate IsSuccessStatus(status: int) {
    200 <= status < 300
  }

  /** Whether a transport answer is a successful HTTP response with data. */
  predicate Succeeded(t: Transport) {
    && t.error.None? && t.data.Some? && t.response.Some? && t.response.value.HttpResponse?
    && IsSuccessStatus(t.response.value.statusCode)
  }

  /** The success value a response carries: its data, its parsed headers
      and its status code. */
  function Answer(data: Data, statusCode: int, headerFields: HeaderFields): (v: SuccessValue)
    ensures v.value == data && v.statusCode == statusCode
    ensures v.headers == ParseHeaders(headerFields)
  {
    SuccessValue(data, ParseHeaders(headerFields), statusCode)
  }

  /** The completion handler of the data task: a transport error first,
      then missing data, then a response that is not HTTP, then a status
      outside `200 ..< 300`. */
  function Classify(t: Transport): (r: NetworkResult)
    ensures r.Success? <==> Succeeded(t)
    ensures r.Success? ==> r.value == Answer(t.data.value, t.response.value.statusCode, t.response.value.headerFields)
    ensures t.error.Some? ==> r == Failure(NetworkError(UrlError(t.error.value)))
    ensures r == Failure(EmptyDataReceivedError) <==> t.error.None? && t.data.None?
    ensures r == Failure(NonHttpResponseError) <==>
              t.error.None? && t.data.Some? && (t.response.None? || t.response.value.OtherResponse?)
    ensures r.Failure? && r.error.HttpError? <==>
              && t.error.None? && t.data.Some? && t.response.Some? && t.response.value.HttpResponse?
              && !IsSuccessStatus(t.response.value.statusCode)
    ensures r.Failure? && r.error.HttpError? ==> r.error.status == t.response.value.statusCode
  {
    if t.error.Some? then Failure(NetworkError(UrlError(t.error.value)))
    else if t.data.None? then Failure(EmptyDataReceivedError)
    else if t.response.None? || t.response.value.OtherResponse? then Failure(NonHttpResponseError)
    else if !IsSuccessStatus(t.response.value.statusCode) then Failure(HttpError(t.response.value.statusCode))
    else Success(Answer(t.data.value, t.response.value.statusCode, t.response.value.headerFields))
  }

  /** `startRequest`: the stored response when there is one, otherwise the
      classified network answer, stored under the request when it
      succeeded. */
  function StartRequest<B(==)>(store: Store<B>, req: Request<B>, t: Transport): (r: (NetworkResult, Store<B>))
    ensures req in store ==> r.1 == store
    ensures req in store ==> r.0 == Success(Answer(store[req].data, store[req].statusCode, store[req].headerFields))
    ensures req !in store ==> r.0 == Classify(t)
    ensures req !in store && Succeeded(t) ==>
              r.1 == store[req := Stored(t.data.value, t.response.value.statusCode, t.response.value.headerFields)]
    ensures !Succeeded(t) ==> r.1 == store
  {
    if req in store then
      var s := store[req];
      (Success(Answer(s.data, s.statusCode, s.headerFields)), store)
    else
      var result := Classify(t);
      if result.Success? then
        (result, store[req := Stored(t.data.value, t.response.value.statusCode, t.response.value.headerFields)])
      else
        (result, store)
  }

  /** A stored request never reaches the network: whatever the network
      would have answered, the outcome is the same. */
  lemma StoredRequestIgnoresNetwork<B>(store: Store<B>, req: Request<B>, t: Transport, t': Transport)
    requires req in store
    ensures StartRequest(store, req, t) == StartRequest(store, req, t')
  {
  }

  /** Repeating a request that succeeded gives the same answer again,
      from the store, whatever the network would answer the second time. */
  lemma RepeatIsServedFromStore<B>(store: Store<B>, req: Request<B>, t: Transport, t': Transport)
    requires StartRequest(store, req, t).0.Success?
    ensures var (first, after) := StartRequest(store, req, t);
      StartRequest(after, req, t') == (first, after)
  {
    var (first, after) := StartRequest(store, req, t);
    assert req in after;
    if req !in store {
      assert first == Classify(t);
      assert after[req] == Stored(t.data.value, t.response.value.statusCode, t.response.value.headerFields);
    }
  }

  /** A request changes the store under its own key only. */
  lemma OtherRequestsUntouched<B>(store: Store<B>, req: Request<B>, t: Transport, other: Request<B>)
    requires other != req
    ensures other in StartRequest(store, req, t).1 <==> other in store
    ensures other in store ==> StartRequest(store, req, t).1[other] == store[other]
  {
  }

  /** `clearCaches`: nothing is stored afterwards. */
  function ClearCaches<B(==)>(store: Store<B>): (r: Store<B>)
    ensures forall req :: req !in r
  {
    map[]
  }

  /** After clearing, every request goes to the network again. */
  lemma ClearedStoreMisses<B>(store: Store<B>, req: Request<B>, t: Transport)
    ensures StartRequest(ClearCaches(store), req, t).0 == Classify(t)
  {
  }
}

=== FILE: responseheaders.dfy ===
/** `HTTPResponseHeaders` (Networking/HTTPResponseHeaders.swift): the entity
    tag, the `max-age` directive of `Cache-Control` and the four
    `x-pagination-*` headers of a response.

    The parser departs from section 5.2.2.1 of RFC 9111 and section 8.8.3 of
    RFC 9110 on purpose, and the model keeps those departures: header names
    are matched case-sensitively, a negative `max-age` is accepted, and only
    the first directive that starts with `max-age` is looked at. */
module ResponseHeaders {
  import opened Wrappers
  import opened Strings
  import opened Types
  import opened Text

  /** `allHeaderFields` is `[AnyHashable: Any]`: keys and values need not
      be strings. */
  datatype HeaderKey = StringKey(name: string) | OtherKey(tag: int)
  datatype HeaderValue = StringValue(text: string) | OtherValue(tag: int)
  type HeaderFields = map<HeaderKey, HeaderValue>

  /** Whether `headers as? [String: String]` succeeds. */
  predicate AllStrings(h: HeaderFields) {
    forall k :: k in h ==> k.StringKey? && h[k].StringValue?
  }

  /** `stringHeaders?[name]`: nothing unless every key and value is a
      string; then the value under exactly this name. */
  function Header(h: HeaderFields, name: string): (r: Option<string>)
    ensures r.Some? <==> AllStrings(h) && StringKey(name) in h
    ensures r.Some? ==> h[StringKey(name)] == StringValue(r.value)
  {
    if AllStrings(h) && StringKey(name) in h then Some(h[StringKey(name)].text) else None
  }

  /** `TimeInterval(_:)` on the integer spellings: an optional sign and
      decimal digits. */
  function ParseSeconds(s: string): (r: Option<int>)
    ensures r.Some? <==> IsIntegerLiteral(s)
    ensures r.Some? ==> r.value == LiteralValue(s)
  {
    if IsIntegerLiteral(s) then Some(LiteralValue(s)) else None
  }

  /** Every directive, trimmed. */
  function TrimAll(ps: seq<string>): (r: seq<string>)
    ensures |r| == |ps|
    ensures forall i :: 0 <= i < |ps| ==> r[i] == Trim(ps[i], WhitespacesAndNewlines)
    decreases |ps|
  {
    if |ps| == 0 then [] else [Trim(ps[0], WhitespacesAndNewlines)] + TrimAll(ps[1..])
  }

  /** The directives of a `Cache-Control` value: lower-cased, split on `,`
      (empty pieces dropped), each piece trimmed. */
  function Directives(cacheControl: string): seq<string> {
    TrimAll(Split(Lowercased(cacheControl), ','))
  }

  /** One directive per comma-separated piece of the lower-cased header,
      each already trimmed and free of commas. */
  lemma DirectivesAreTrimmedPieces(cacheControl: string)
    ensures var ds := Directives(cacheControl);
      && |ds| == |Split(Lowercased(cacheControl), ',')|
      && forall i :: 0 <= i < |ds| ==> Trim(ds[i], WhitespacesAndNewlines) == ds[i] && ',' !in ds[i]
  {
  }

  /** `filter { $0.starts(with: prefix) }.first`. */
  function FirstWithPrefix(ds: seq<string>, prefix: string): (r: Option<string>)
    ensures r.None? <==> forall i :: 0 <= i < |ds| ==> !(prefix <= ds[i])
    ensures r.Some? ==> exists i :: 0 <= i < |ds| && ds[i] == r.value && prefix <= ds[i]
                          && forall j :: 0 <= j < i ==> !(prefix <= ds[j])
    decreases |ds|
  {
    if |ds| == 0 then None
    else if prefix <= ds[0] then Some(ds[0])
    else
      var r := FirstWithPrefix(ds[1..], prefix);
      assert forall i :: 1 <= i < |ds| ==> ds[i] == ds[1..][i - 1];
      r
  }

  /** The value of a `max-age` directive: split on `=` (empty pieces
      dropped), exactly two pieces, and the second one a number. The first
      piece is not compared with `max-age`. */
  function MaxAgeOf(directive: string): (r: Option<int>)
    ensures r.Some? ==> |Split(directive, '=')| == 2
    ensures r.Some? ==> ParseSeconds(Split(directive, '=')[1]) == r
  {
    var kv := Split(directive, '=');
    if |kv| == 2 then ParseSeconds(kv[1]) else None
  }

  /** The max-age of a list of directives: that of the first one starting
      with `max-age`. */
  function FirstMaxAge(ds: seq<string>): (r: Option<int>)
    ensures (forall i :: 0 <= i < |ds| ==> !IsMaxAge(ds[i])) ==> r.None?
    ensures forall k :: 0 <= k < |ds| && IsMaxAge(ds[k]) && NoMaxAgeBefore(ds, k) ==> r == MaxAgeOf(ds[k])
  {
    match FirstWithPrefix(ds, "max-age")
    case None => None
    case Some(d) =>
      forall k | 0 <= k < |ds| && IsMaxAge(ds[k]) && NoMaxAgeBefore(ds, k)
        ensures d == ds[k]
      {
        var i :| 0 <= i < |ds| && ds[i] == d && "max-age" <= ds[i] && forall j :: 0 <= j < i ==> !("max-age" <= ds[j]);
        assert !(i < k) && !(k < i);
      }
      MaxAgeOf(d)
  }

  /** A directive that starts with `max-age`. */
  predicate IsMaxAge(d: string) {
    "max-age" <= d
  }

  /** No directive before position `k` starts with `max-age`. */
  predicate NoMaxAgeBefore(ds: seq<string>, k: int)
    requires k <= |ds|
  {
    forall i :: 0 <= i < k ==> !IsMaxAge(ds[i])
  }

  /** `parseMaxAge(from:)`. */
  function ParseMaxAge(cacheControl: Option<string>): (r: Option<int>)
    ensures cacheControl.None? ==> r.None?
    ensures cacheControl.Some? ==> var ds := Directives(cacheControl.value);
      && ((forall i :: 0 <= i < |ds| ==> !IsMaxAge(ds[i])) ==> r.None?)
      && (forall k :: 0 <= k < |ds| && IsMaxAge(ds[k]) && NoMaxAgeBefore(ds, k) ==> r == MaxAgeOf(ds[k]))
  {
    match cacheControl
    case None => None
    case Some(cc) => FirstMaxAge(Directives(cc))
  }

  const ItemCountHeader: string := "x-pagination-item-count"
  const LimitHeader: string := "x-pagination-limit"
  const PageHeader: string := "x-pagination-page"
  const PageCountHeader: string := "x-pagination-page-count"

  /** A header parsed with `asInt`. */
  function IntHeader(h: HeaderFields, name: string): (r: Option<Int64>)
    ensures r.Some? <==> Header(h, name).Some? && AsInt(Header(h, name).value).Some?
    ensures r.Some? ==> r == AsInt(Header(h, name).value)
  {
    match Header(h, name)
    case None => None
    case Some(v) => AsInt(v)
  }

  /** The `guard let` over the four pagination headers. */
  function ParsePagination(h: HeaderFields): (r: Option<PaginationData>)
    ensures r.Some? <==> IntHeader(h, ItemCountHeader).Some? && IntHeader(h, LimitHeader).Some?
                         && IntHeader(h, PageHeader).Some? && IntHeader(h, PageCountHeader).Some?
    ensures r.Some? ==> && Some(r.value.itemCount) == IntHeader(h, ItemCountHeader)
                        && Some(r.value.limit) == IntHeader(h, LimitHeader)
                        && Some(r.value.currentPage) == IntHeader(h, PageHeader)
                        && Some(r.value.totalPages) == IntHeader(h, PageCountHeader)
  {
    var itemCount := IntHeader(h, ItemCountHeader);
    var limit := IntHeader(h, LimitHeader);
    var page := IntHeader(h, PageHeader);
    var pageCount := IntHeader(h, PageCountHeader);
    if itemCount.Some? && limit.Some? && page.Some? && pageCount.Some? then
      Some(PaginationData(itemCount.value, limit.value, page.value, pageCount.value))
    else
      None
  }

  datatype HttpResponseHeaders = HttpResponseHeaders(etag: Option<string>, maxAge: Option<int>,
                                                     pagination: Option<PaginationData>)

  /** `HTTPResponseHeaders.init`. */
  function ParseHeaders(h: HeaderFields): (r: HttpResponseHeaders)
    ensures !AllStrings(h) ==> r == HttpResponseHeaders(None, None, None)
    ensures AllStrings(h) ==> (r.etag.Some? <==> StringKey("Etag") in h)
    ensures r.etag.Some? ==> h[StringKey("Etag")] == StringValue(r.etag.value)
    ensures StringKey("Cache-Control") !in h ==> r.maxAge.None?
    ensures AllStrings(h) && StringKey("Cache-Control") in h ==>
              r.maxAge == FirstMaxAge(Directives(h[StringKey("Cache-Control")].text))
    ensures r.maxAge.Some? ==> FirstMaxAge(Directives(h[StringKey("Cache-Control")].text)) == r.maxAge
    ensures r.pagination == ParsePagination(h)
  {
    HttpResponseHeaders(Header(h, "Etag"), ParseMaxAge(Header(h, "Cache-Control")), ParsePagination(h))
  }

  // How the directives are found.

  /** A `Cache-Control` value written as pieces separated by `,`, none of
      them empty and none with an upper-case letter, has the trimmed
      pieces as its directives. */
  lemma DirectivesOfJoin(ps: seq<string>)
    requires |ps| > 0
    requires forall i :: 0 <= i < |ps| ==> ps[i] != "" && ',' !in ps[i] && NoUpper(ps[i])
    ensures Directives(Join(ps, ',')) == TrimAll(ps)
  {
    JoinNoUpper(ps);
    LowercasedIdentity(Join(ps, ','));
    SplitJoin(ps, ',');
  }

  lemma {:induction false} JoinNoUpper(ps: seq<string>)
    requires |ps| > 0
    requires forall i :: 0 <= i < |ps| ==> NoUpper(ps[i])
    ensures NoUpper(Join(ps, ','))
    decreases |ps|
  {
    if |ps| > 1 {
      JoinNoUpper(ps[1..]);
      var s := Join(ps, ',');
      assert s == ps[0] + [','] + Join(ps[1..], ',');
      forall i | 0 <= i < |s|
        ensures !IsUpper(s[i])
      {
        if i < |ps[0]| {
          assert s[i] == ps[0][i];
        } else if i > |ps[0]| {
          assert s[i] == Join(ps[1..], ',')[i - |ps[0]| - 1];
        }
      }
    }
  }

  /** When exactly one directive starts with `max-age`, it decides, wherever
      it stands in the list. */
  lemma OnlyMaxAgeDirective(ds: seq<string>, k: nat)
    requires k < |ds| && "max-age" <= ds[k]
    requires forall i :: 0 <= i < |ds| && i != k ==> !("max-age" <= ds[i])
    ensures FirstMaxAge(ds) == MaxAgeOf(ds[k])
  {
  }

  /** Moving the `max-age` directive elsewhere in the list does not change
      the result, as long as no other directive starts with `max-age`. */
  lemma MaxAgePositionIrrelevant(ds: seq<string>, es: seq<string>, k: nat, m: nat)
    requires k < |ds| && m < |es| && ds[k] == es[m] && "max-age" <= ds[k]
    requires forall i :: 0 <= i < |ds| && i != k ==> !("max-age" <= ds[i])
    requires forall i :: 0 <= i < |es| && i != m ==> !("max-age" <= es[i])
    ensures FirstMaxAge(ds) == FirstMaxAge(es)
  {
    OnlyMaxAgeDirective(ds, k);
    OnlyMaxAgeDirective(es, m);
  }

  /** Two directives starting with `max-age`: the earlier one decides, even
      when it has no valid value and the later one has. */
  lemma FirstMaxAgeDecides(ds: seq<string>, k: nat)
    requires k < |ds| && "max-age" <= ds[k]
    requires forall i :: 0 <= i < k ==> !("max-age" <= ds[i])
    ensures FirstMaxAge(ds) == MaxAgeOf(ds[k])
  {
  }

  /** A directive `<key>=<integer>` yields the integer, negative or not. */
  lemma MaxAgeValue(key: string, value: string)
    requires key != "" && '=' !in key
    requires IsIntegerLiteral(value)
    ensures MaxAgeOf(key + "=" + value) == Some(LiteralValue(value))
  {
    assert '=' !in value by {
      assert forall i :: 0 <= i < |value| ==> value[i] == '+' || value[i] == '-' || IsDigit(value[i]);
    }
    assert Join([key, value], '=') == key + "=" + value;
    SplitJoin([key, value], '=');
  }

  // The `Cache-Control` values of the header tests (TraktKitTests.swift),
  // each written as its comma-separated pieces. Each case is assembled from
  // small lemmas about symbolic strings.

  /** A piece between commas of a test header. */
  predicate IsPiece(p: string) {
    p != "" && ',' !in p && NoUpper(p)
  }

  /** A header written as pieces has the trimmed pieces as directives. */
  lemma HeaderOfPieces(ps: seq<string>)
    requires |ps| > 0 && forall i :: 0 <= i < |ps| ==> IsPiece(ps[i])
    ensures ParseMaxAge(Some(Join(ps, ','))) == FirstMaxAge(TrimAll(ps))
  {
    DirectivesOfJoin(ps);
  }

  lemma SinglePiece(d: string)
    requires IsPiece(d) && !IsWhitespace(d[0]) && !IsWhitespace(d[|d| - 1])
    ensures ParseMaxAge(Some(d)) == FirstMaxAge([d])
  {
    HeaderOfPieces([d]);
    TrimIdentity(d, WhitespacesAndNewlines);
  }

  lemma NotMaxAge(d: string)
    requires |d| > 1 && (d[0] != 'm' || d[1] != 'a')
    ensures !("max-age" <= d)
  {
  }

  /** The value of `max-age=<digits>` for one and two digits. */
  lemma OneDigitValue(d: string)
    requires |d| == 1 && IsDigit(d[0])
    ensures ParseSeconds(d) == Some(DigitValue(d[0]))
  {
    assert IsIntegerLiteral(d);
    assert d[..|d| - 1] == [];
    assert LiteralValue(d) == DigitsValue(d) == DigitValue(d[0]);
  }

  lemma TwoDigitValue(d: string)
    requires |d| == 2 && IsDigit(d[0]) && IsDigit(d[1])
    ensures ParseSeconds(d) == Some(10 * DigitValue(d[0]) + DigitValue(d[1]))
  {
    assert IsIntegerLiteral(d);
    var h := d[..|d| - 1];
    assert h == [d[0]] && h[..|h| - 1] == [];
    assert DigitsValue(h) == DigitValue(d[0]);
    assert LiteralValue(d) == DigitsValue(d) == 10 * DigitValue(d[0]) + DigitValue(d[1]);
  }

  lemma MaxAgeSplit(v: string)
    requires v != "" && '=' !in v
    ensures Split("max-age=" + v, '=') == ["max-age", v]
  {
    assert Join(["max-age", v], '=') == "max-age" + "=" + v;
    assert "max-age" + "=" + v == "max-age=" + v;
    SplitJoin(["max-age", v], '=');
  }

  lemma NoMaxAgeInThree(a: string, b: string, c: string)
    requires !("max-age" <= a) && !("max-age" <= b) && !("max-age" <= c)
    ensures FirstMaxAge([a, b, c]) == None
  {
  }

  lemma MaxAgeAt(ds: seq<string>, k: nat, v: string)
    requires k < |ds| && ds[k] == "max-age=" + v && v != "" && '=' !in v
    requires forall i :: 0 <= i < k ==> !("max-age" <= ds[i])
    ensures FirstMaxAge(ds) == ParseSeconds(v)
  {
    assert "max-age" <= ds[k];
    FirstMaxAgeDecides(ds, k);
    MaxAgeSplit(v);
  }

  lemma SixtyIsSixty()
    ensures ParseSeconds("60") == Some(60)
  {
    TwoDigitValue("60");
  }

  lemma NoCacheHasNoMaxAge()
    ensures ParseMaxAge(Some("no-cache")) == None
  {
    SinglePiece("no-cache");
    NotMaxAge("no-cache");
  }

  // Headers with several directives, as the lists `Directives` makes of
  // them (`DirectivesOfJoin` says how a header becomes its list).

  lemma NoCachingNotMaxAge()
    ensures FirstMaxAge(["no-cache", "no-store", "must-revalidate"]) == None
  {
    NotMaxAge("no-cache");
    NotMaxAge("no-store");
    NotMaxAge("must-revalidate");
    NoMaxAgeInThree("no-cache", "no-store", "must-revalidate");
  }

  lemma MaxAgeListedFirst()
    ensures FirstMaxAge(["max-age=60", "no-cache", "no-store", "must-revalidate"]) == Some(60)
  {
    assert "max-age=" + "60" == "max-age=60";
    MaxAgeAt(["max-age=60", "no-cache", "no-store", "must-revalidate"], 0, "60");
    SixtyIsSixty();
  }

  lemma MaxAgeListedSecond()
    ensures FirstMaxAge(["no-cache", "max-age=60", "no-store", "must-revalidate"]) == Some(60)
  {
    assert "max-age=" + "60" == "max-age=60";
    NotMaxAge("no-cache");
    MaxAgeAt(["no-cache", "max-age=60", "no-store", "must-revalidate"], 1, "60");
    SixtyIsSixty();
  }

  lemma MaxAgeListedLast()
    ensures FirstMaxAge(["no-cache", "no-store", "must-revalidate", "max-age=60"]) == Some(60)
  {
    assert "max-age=" + "60" == "max-age=60";
    NotMaxAge("no-cache");
    NotMaxAge("no-store");
    NotMaxAge("must-revalidate");
    MaxAgeAt(["no-cache", "no-store", "must-revalidate", "max-age=60"], 3, "60");
    SixtyIsSixty();
  }

  /** `no-cache, no-store,   max-age=60      , must-revalidate,  `: the
      padded directive is trimmed, and the trailing blank piece becomes an
      empty directive. */
  lemma MaxAgeAmongPadding()
    ensures FirstMaxAge(["no-cache", "no-store", "max-age=60", "must-revalidate", ""]) == Some(60)
  {
    assert "max-age=" + "60" == "max-age=60";
    NotMaxAge("no-cache");
    NotMaxAge("no-store");
    MaxAgeAt(["no-cache", "no-store", "max-age=60", "must-revalidate", ""], 2, "60");
    SixtyIsSixty();
  }

  lemma MaxAgeZero()
    ensures ParseMaxAge(Some("max-age=0")) == Some(0)
  {
    assert "max-age=" + "0" == "max-age=0";
    SinglePiece("max-age=" + "0");
    MaxAgeAt(["max-age=" + "0"], 0, "0");
    OneDigitValue("0");
  }

  lemma MaxAgeSixty()
    ensures ParseMaxAge(Some("max-age=60")) == Some(60)
  {
    assert "max-age=" + "60" == "max-age=60";
    SinglePiece("max-age=" + "60");
    MaxAgeAt(["max-age=" + "60"], 0, "60");
    SixtyIsSixty();
  }

  /** A negative `max-age` is accepted, unlike in RFC 9111. */
  lemma MaxAgeNegative()
    ensures ParseMaxAge(Some("max-age=-1")) == Some(-1)
  {
    assert "max-age=" + "-1" == "max-age=-1";
    SinglePiece("max-age=" + "-1");
    MaxAgeAt(["max-age=" + "-1"], 0, "-1");
    MinusOneIsMinusOne();
  }

  lemma MinusOneIsMinusOne()
    ensures ParseSeconds("-1") == Some(-1)
  {
    assert "-1" == "-" + "1";
    NegatedValue("1");
    OneDigitValue("1");
  }

  lemma NegatedValue(d: string)
    requires |d| > 0 && AllDigits(d)
    ensures ParseSeconds("-" + d) == Some(-(DigitsValue(d) as int))
  {
    assert ("-" + d)[1..] == d;
  }

  // Pagination.

  /** The pagination headers as the server writes them, in decimal. */
  predicate WritesPagination(h: HeaderFields, p: PaginationData) {
    && StringKey(ItemCountHeader) in h && h[StringKey(ItemCountHeader)] == StringValue(IntString(p.itemCount))
    && StringKey(LimitHeader) in h && h[StringKey(LimitHeader)] == StringValue(IntString(p.limit))
    && StringKey(PageHeader) in h && h[StringKey(PageHeader)] == StringValue(IntString(p.currentPage))
    && StringKey(PageCountHeader) in h && h[StringKey(PageCountHeader)] == StringValue(IntString(p.totalPages))
  }

  /** Headers written from pagination data are read back as that data:
      item count, limit, current page and page count, each from its own
      header. */
  lemma PaginationReadsBack(h: HeaderFields, p: PaginationData)
    requires AllStrings(h) && WritesPagination(h, p)
    ensures ParsePagination(h) == Some(p)
  {
    IntStringRoundTrip(p.itemCount);
    IntStringRoundTrip(p.limit);
    IntStringRoundTrip(p.currentPage);
    IntStringRoundTrip(p.totalPages);
  }

  /** One missing pagination header, and there is no pagination. */
  lemma PaginationNeedsEveryHeader(h: HeaderFields, name: string)
    requires name in [ItemCountHeader, LimitHeader, PageHeader, PageCountHeader]
    requires StringKey(name) !in h
    ensures ParsePagination(h) == None
  {
  }

  /** A response carrying the four pagination headers and nothing else. */
  function PaginationHeaders(itemCount: string, limit: string, page: string, pageCount: string): (h: HeaderFields)
    ensures AllStrings(h) && |h.Keys| <= 4
  {
    map[StringKey(ItemCountHeader) := StringValue(itemCount), StringKey(LimitHeader) := StringValue(limit),
        StringKey(PageHeader) := StringValue(page), StringKey(PageCountHeader) := StringValue(pageCount)]
  }

  /** Such a response has pagination, and no entity tag or max-age. */
  lemma OnlyPagination(p: PaginationData)
    ensures ParseHeaders(PaginationHeaders(IntString(p.itemCount), IntString(p.limit), IntString(p.currentPage),
                                           IntString(p.totalPages)))
            == HttpResponseHeaders(None, None, Some(p))
  {
    var h := PaginationHeaders(IntString(p.itemCount), IntString(p.limit), IntString(p.currentPage),
                               IntString(p.totalPages));
    assert StringKey("Etag") !in h && StringKey("Cache-Control") !in h;
    PaginationReadsBack(h, p);
  }

  lemma SmallIntStrings()
    ensures IntString(1) == "1" && IntString(2) == "2" && IntString(3) == "3" && IntString(4) == "4"
  {
  }

  /** The headers of `testReturnsPaginationInfoForPaginatedEndpoint`. */
  lemma PaginationOfTestHeaders()
    ensures ParseHeaders(PaginationHeaders("1", "2", "3", "4"))
            == HttpResponseHeaders(None, None, Some(PaginationData(1, 2, 3, 4)))
  {
    SmallIntStrings();
    OnlyPagination(PaginationData(1, 2, 3, 4));
  }

  /** The entity tag is looked up under `Etag` only: `ETag` is another
      header. */
  lemma EtagIsCaseSensitive(t: string)
    ensures ParseHeaders(map[StringKey("ETag") := StringValue(t)]).etag == None
    ensures ParseHeaders(map[StringKey("Etag") := StringValue(t)]).etag == Some(t)
  {
    assert StringKey("ETag") != StringKey("Etag");
  }
}

=== FILE: strings.dfy ===
/** String helpers of String+TraktKit.swift: rendering an optional Swift `Int`,
    parsing one back (`asInt`) and deleting line breaks.

    Characters are Unicode code points; Swift works on grapheme clusters,
    which only differ for combining sequences none of these helpers look at. */
module Strings {
  import opened Wrappers

  /** Swift's `Int` is 64 bits wide; parsing fails outside this range. */
  const Int64Min: int := -0x8000_0000_0000_0000
  const Int64Max: int := 0x7FFF_FFFF_FFFF_FFFF
  type Int64 = x: int | Int64Min <= x <= Int64Max

  predicate IsDigit(c: char) {
    '0' <= c <= '9'
  }

  predicate IsLetter(c: char) {
    'a' <= c <= 'z'
  }

  predicate AllDigits(s: string) {
    forall i :: 0 <= i < |s| ==> IsDigit(s[i])
  }

  function DigitChar(d: nat): (c: char)
    requires d < 10
    ensures IsDigit(c)
  {
    (48 + d) as char
  }

  function DigitValue(c: char): (d: nat)
    requires IsDigit(c)
    ensures d < 10 && DigitChar(d) == c
  {
    (c as int) - 48
  }

  /** Decimal digits of `n`, most significant first, without leading zeros. */
  function NatString(n: nat): (r: string)
    ensures 0 < |r| && AllDigits(r)
    ensures |r| > 1 ==> r[0] != '0'
    decreases n
  {
    if n < 10 then [DigitChar(n)] else NatString(n / 10) + [DigitChar(n % 10)]
  }

  /** `String(value)` for a Swift `Int`: a leading `-` for negative values,
      then the decimal digits of the magnitude. */
  function IntString(v: int): (r: string)
    ensures 0 < |r|
    ensures r[0] == '-' <==> v < 0
    ensures AllDigits(r[1..])
    ensures v >= 0 ==> AllDigits(r)
  {
    if v < 0 then "-" + NatString(-v) else NatString(v)
  }

  /** `String.init(_ value: Int?)`: the empty string for `nil`. */
  function OptionalIntString(v: Option<int>): (r: string)
    ensures r == "" <==> v.None?
    ensures v.Some? ==> r == IntString(v.value)
  {
    match v
    case None => ""
    case Some(n) => IntString(n)
  }

  /** The value of a run of decimal digits, read left to right. */
  function DigitsValue(s: string): (n: nat)
    requires AllDigits(s)
    decreases |s|
  {
    if |s| == 0 then 0 else DigitsValue(s[..|s| - 1]) * 10 + DigitValue(s[|s| - 1])
  }

  /** The syntax Swift's `Int(String)` accepts: an optional `+` or `-`
      followed by at least one decimal digit, nothing else (no spaces). */
  predicate IsIntegerLiteral(s: string) {
    if 0 < |s| && (s[0] == '+' || s[0] == '-') then 1 < |s| && AllDigits(s[1..])
    else 0 < |s| && AllDigits(s)
  }

  /** The mathematical value of an integer literal, without width limits. */
  function LiteralValue(s: string): int
    requires IsIntegerLiteral(s)
  {
    if s[0] == '-' then -(DigitsValue(s[1..]) as int)
    else if s[0] == '+' then DigitsValue(s[1..])
    else DigitsValue(s)
  }

  /** `asInt`, i.e. Swift's `Int(self)`: the value of a well-formed literal
      that fits in 64 bits, `nil` otherwise. */
  function AsInt(s: string): (r: Option<Int64>)
    ensures r.Some? <==> IsIntegerLiteral(s) && Int64Min <= LiteralValue(s) <= Int64Max
    ensures r.Some? ==> r.value == LiteralValue(s)
  {
    if IsIntegerLiteral(s) && Int64Min <= LiteralValue(s) <= Int64Max then Some(LiteralValue(s)) else None
  }

  lemma {:induction false} DigitsValueOfNatString(n: nat)
    ensures DigitsValue(NatString(n)) == n
    decreases n
  {
    var r := NatString(n);
    if n < 10 {
      assert r[..|r| - 1] == [];
    } else {
      var p := NatString(n / 10);
      assert r == p + [DigitChar(n % 10)];
      assert r[..|r| - 1] == p;
      DigitsValueOfNatString(n / 10);
    }
  }

  /** Round trip: `String(Some(v)).asInt == Some(v)` for every 64-bit `v`. */
  lemma IntStringRoundTrip(v: Int64)
    ensures AsInt(OptionalIntString(Some(v))) == Some(v)
  {
    var s := IntString(v);
    if v < 0 {
      assert s[1..] == NatString(-(v as int));
      DigitsValueOfNatString(-(v as int));
    } else {
      DigitsValueOfNatString(v);
    }
  }

  /** The rendering is injective: distinct integers print differently. */
  lemma IntStringInjective(a: int, b: int)
    ensures IntString(a) == IntString(b) ==> a == b
  {
    if IntString(a) == IntString(b) {
      var s := IntString(a);
      if a < 0 {
        assert s[1..] == NatString(-a) == NatString(-b);
        DigitsValueOfNatString(-a);
        DigitsValueOfNatString(-b);
      } else {
        DigitsValueOfNatString(a);
        DigitsValueOfNatString(b);
      }
    }
  }

  /** `asInt` rejects the empty string. */
  lemma AsIntOfEmpty()
    ensures AsInt("") == None
  {
  }

  /** `asInt` rejects any string with a character that is neither a digit
      nor a sign in the first position. */
  lemma AsIntRejectsNonDigits(s: string, i: nat)
    requires i < |s| && !IsDigit(s[i])
    requires !(i == 0 && (s[0] == '+' || s[0] == '-'))
    ensures AsInt(s) == None
  {
    if 0 < |s| && (s[0] == '+' || s[0] == '-') {
      assert s[1..][i - 1] == s[i];
    }
  }

  /** `withoutLinebreaks`: every `"\n"` deleted, the other characters kept in order. */
  function WithoutLinebreaks(s: string): (r: string)
    ensures '\n' !in r
    decreases |s|
  {
    if |s| == 0 then "" else (if s[0] == '\n' then "" else [s[0]]) + WithoutLinebreaks(s[1..])
  }

  /** Every character but the line break is kept as often as it occurs,
      and the line breaks are all gone. */
  lemma {:induction false} WithoutLinebreaksCounts(s: string)
    ensures multiset(WithoutLinebreaks(s)) == multiset(s)['\n' := 0]
    decreases |s|
  {
    if |s| > 0 {
      assert s == [s[0]] + s[1..];
      WithoutLinebreaksCounts(s[1..]);
    }
  }

  /** Deleting line breaks distributes over concatenation, so relative
      order of the kept characters is that of the input. */
  lemma {:induction false} WithoutLinebreaksConcat(a: string, b: string)
    ensures WithoutLinebreaks(a + b) == WithoutLinebreaks(a) + WithoutLinebreaks(b)
    decreases |a|
  {
    if |a| == 0 {
      assert a + b == b;
    } else {
      var ab := a + b;
      assert ab[0] == a[0];
      assert ab[1..] == a[1..] + b;
      WithoutLinebreaksConcat(a[1..], b);
    }
  }

  /** A string with no line break is left unchanged. */
  lemma {:induction false} WithoutLinebreaksIdentity(s: string)
    requires '\n' !in s
    ensures WithoutLinebreaks(s) == s
    decreases |s|
  {
    if |s| > 0 {
      assert s[0] in s;
      assert forall c :: c in s[1..] ==> c in s;
      WithoutLinebreaksIdentity(s[1..]);
    }
  }

  /** Applying `withoutLinebreaks` twice is the same as once. */
  lemma WithoutLinebreaksIdempotent(s: string)
    ensures WithoutLinebreaks(WithoutLinebreaks(s)) == WithoutLinebreaks(s)
  {
    WithoutLinebreaksIdentity(WithoutLinebreaks(s));
  }
}

=== FILE: sync.dfy ===
/** The `Sync` endpoint enumeration (Networking/API/Sync/Sync.swift), its
    payload records, and `HistoryPayload` with its query items. */
module SyncEndpoint {
  import opened Wrappers
  import opened Strings
  import opened Types
  import opened Urls
  import opened Endpoints

  /** `TraktIdContainer`: `{"ids": {"trakt": id}}`. */
  datatype TraktIdContainer = TraktIdContainer(trakt: int)

  /** `Sync.Payload`: items to add or remove, and history event ids. */
  datatype SyncPayload = SyncPayload(
    movies: seq<TraktIdContainer>,
    shows: seq<TraktIdContainer>,
    episodes: seq<TraktIdContainer>,
    ids: seq<int>)

  /** `Sync.CollectablePayload`: like `Payload`, with seasons and no event ids. */
  datatype CollectablePayload = CollectablePayload(
    movies: seq<TraktIdContainer>,
    shows: seq<TraktIdContainer>,
    episodes: seq<TraktIdContainer>,
    seasons: seq<TraktIdContainer>)

  /** `RateablePayload.Rateable`; a date is an opaque number of seconds. */
  datatype Rateable = Rateable(rating: int, ratedAt: Option<int>, ids: int)

  datatype RateablePayload = RateablePayload(
    movies: seq<Rateable>,
    shows: seq<Rateable>,
    episodes: seq<Rateable>,
    seasons: seq<Rateable>)

  /** `HistoryPayload`: the filters of a history request. */
  datatype HistoryPayload = HistoryPayload(
    contentType: ContentType,
    pageNumber: int,
    resultsPerPage: Option<int>,
    traktId: Option<int>,
    infoLevel: Option<InfoLevel>,
    startDate: Option<string>,
    endDate: Option<string>)

  /** What an encoded body holds: one of the three payload kinds. */
  datatype SyncBody =
    | PayloadBody(payload: SyncPayload)
    | CollectableBody(collectable: CollectablePayload)
    | RateableBody(rateable: RateablePayload)

  datatype Sync =
    | LastActivities
    | GetPlaybackProgress(watchedType: WatchedType, limit: Option<int>)
    | RemovePlayback(playbackId: int)
    | GetCollection(collectableType: CollectableType, infoLevel: InfoLevel)
    | AddToCollection(payload: SyncPayload)
    | RemoveFromCollection(payload: SyncPayload)
    | GetWatched(collectableType: CollectableType, infoLevel: InfoLevel)
    | GetHistory(history: HistoryPayload)
    | AddToHistory(payload: SyncPayload)
    | RemoveFromHistory(payload: SyncPayload)
    | GetRatings(contentType: ContentType, infoLevel: InfoLevel)
    | AddRatings(rateable: RateablePayload)
    | RemoveRatings(collectable: CollectablePayload)
    | GetWatchlist(contentType: ContentType, infoLevel: InfoLevel, pagination: Pagination)
    | AddToWatchlist(collectable: CollectablePayload)
    | RemoveFromWatchlist(collectable: CollectablePayload)

  /** The cases that only read the user's data. */
  predicate IsRead(s: Sync) {
    s.LastActivities? || s.GetPlaybackProgress? || s.GetCollection? || s.GetHistory?
    || s.GetRatings? || s.GetWatchlist? || s.GetWatched?
  }

  /** The cases whose body is a `Sync.Payload`. */
  predicate CarriesSyncPayload(s: Sync) {
    s.AddToCollection? || s.RemoveFromCollection? || s.AddToHistory? || s.RemoveFromHistory?
  }

  /** The cases whose body is a `CollectablePayload`. */
  predicate CarriesCollectable(s: Sync) {
    s.RemoveRatings? || s.AddToWatchlist? || s.RemoveFromWatchlist?
  }

  /** `httpMethod`: reads are GET, removing a playback item is DELETE,
      every other write is POST. */
  function SyncMethod(s: Sync): (r: HttpMethod)
    ensures r == GET <==> IsRead(s)
    ensures r == DELETE <==> s.RemovePlayback?
    ensures r == POST <==> (CarriesSyncPayload(s) || CarriesCollectable(s) || s.AddRatings?)
  {
    if IsRead(s) then GET else if s.RemovePlayback? then DELETE else POST
  }

  /** `httpBody`: the payload of a write, nothing otherwise. */
  function SyncBodyOf(s: Sync): (r: Option<SyncBody>)
    ensures r.None? <==> IsRead(s) || s.RemovePlayback?
    ensures CarriesSyncPayload(s) ==> r == Some(PayloadBody(s.payload))
    ensures CarriesCollectable(s) ==> r == Some(CollectableBody(s.collectable))
    ensures s.AddRatings? ==> r == Some(RateableBody(s.rateable))
  {
    if CarriesSyncPayload(s) then Some(PayloadBody(s.payload))
    else if CarriesCollectable(s) then Some(CollectableBody(s.collectable))
    else if s.AddRatings? then Some(RateableBody(s.rateable))
    else None
  }

  /** `HistoryPayload.asQueryItems`, item by item. */
  function HistoryQueryItems(p: HistoryPayload): (r: seq<QueryItem>)
    ensures 1 <= |r| <= 5
    ensures r[0] == Item("page", IntString(p.pageNumber))
  {
    var page := [Item("page", IntString(p.pageNumber))];
    var limit := if p.resultsPerPage.Some? then [Item("limit", IntString(p.resultsPerPage.value))] else [];
    var extended := if p.infoLevel == Some(Full) then [Item("extended", Full.Raw())] else [];
    var start := if p.startDate.Some? then [Item("start_at", p.startDate.value)] else [];
    var end := if p.endDate.Some? then [Item("end_at", p.endDate.value)] else [];
    page + limit + extended + start + end
  }

  /** The filters of a history request, in the order they are emitted,
      each with the value it sends if any: `extended` is only sent for `full`. */
  function HistoryEntries(p: HistoryPayload): (r: Entries)
    ensures |r| == 5 && DistinctNames(r)
  {
    var r := [("page", Some(IntString(p.pageNumber))),
              ("limit", if p.resultsPerPage.Some? then Some(IntString(p.resultsPerPage.value)) else None),
              ("extended", if p.infoLevel == Some(Full) then Some(Full.Raw()) else None),
              ("start_at", p.startDate),
              ("end_at", p.endDate)];
    assert r[0].0 == "page" && r[1].0 == "limit" && r[2].0 == "extended";
    assert r[3].0 == "start_at" && r[4].0 == "end_at";
    assert forall i, j | 0 <= i < j < 5 :: r[i].0 != r[j].0 by {
      forall i, j | 0 <= i < j < 5 ensures r[i].0 != r[j].0 {
        assert |r[i].0| != |r[j].0| || r[i].0[0] != r[j].0[0];
      }
    }
    r
  }

  /** The history query is exactly the filters that are set, in order. */
  lemma HistoryQueryIsPresentFilters(p: HistoryPayload)
    ensures HistoryQueryItems(p) == PresentItems(HistoryEntries(p))
  {
    var e := HistoryEntries(p);
    PresentItemsOfFive(e[0], e[1], e[2], e[3], e[4]);
    assert e == [e[0], e[1], e[2], e[3], e[4]];
  }

  /** The history query, read back by name, gives each filter that was set
      and nothing for those that were not. */
  lemma HistoryQueryReadsBack(p: HistoryPayload)
    ensures var q := HistoryQueryItems(p);
      && Lookup(q, "page") == Some(Some(IntString(p.pageNumber)))
      && (p.resultsPerPage.Some? ==> Lookup(q, "limit") == Some(Some(IntString(p.resultsPerPage.value))))
      && (p.resultsPerPage.None? ==> Lookup(q, "limit").None?)
      && (Lookup(q, "extended").Some? <==> p.infoLevel == Some(Full))
      && (p.startDate.Some? ==> Lookup(q, "start_at") == Some(p.startDate))
      && (p.startDate.None? ==> Lookup(q, "start_at").None?)
      && (p.endDate.Some? ==> Lookup(q, "end_at") == Some(p.endDate))
      && (p.endDate.None? ==> Lookup(q, "end_at").None?)
  {
    HistoryQueryIsPresentFilters(p);
    var e := HistoryEntries(p);
    PresentItemsLookup(e, "page");
    EntryValueAt(e, 0, "page");
    PresentItemsLookup(e, "limit");
    EntryValueAt(e, 1, "limit");
    PresentItemsLookup(e, "extended");
    EntryValueAt(e, 2, "extended");
    PresentItemsLookup(e, "start_at");
    EntryValueAt(e, 3, "start_at");
    PresentItemsLookup(e, "end_at");
    EntryValueAt(e, 4, "end_at");
  }

  /** `HistoryPayload.init` with its defaults: 10 results per page, info
      level `min`, and no item id or dates. */
  function NewHistoryPayload(contentType: ContentType, pageNumber: int, resultsPerPage: int := 10,
                             traktId: Option<int> := None, infoLevel: InfoLevel := Min,
                             startDate: Option<string> := None, endDate: Option<string> := None): (p: HistoryPayload)
    ensures p.contentType == contentType && p.pageNumber == pageNumber
    ensures p.resultsPerPage == Some(resultsPerPage) && p.infoLevel == Some(infoLevel)
    ensures p.traktId == traktId && p.startDate == startDate && p.endDate == endDate
  {
    HistoryPayload(contentType, pageNumber, Some(resultsPerPage), traktId, Some(infoLevel), startDate, endDate)
  }

  /** With the defaults only the page and a limit of 10 reach the query:
      the `min` level is never sent. */
  lemma DefaultHistoryQuery(t: ContentType, page: int)
    ensures HistoryQueryItems(NewHistoryPayload(t, page)) == [Item("page", IntString(page)), Item("limit", "10")]
  {
    assert IntString(10) == "10" by {
      assert NatString(10) == NatString(1) + [DigitChar(0)];
    }
  }

  /** `CollectablePayload.init(syncPayload:seasons:)`: the three lists are
      copied and the event ids dropped. */
  function CollectableFrom(p: SyncPayload, seasons: seq<TraktIdContainer>): (r: CollectablePayload)
    ensures r.movies == p.movies && r.shows == p.shows && r.episodes == p.episodes
    ensures r.seasons == seasons
  {
    CollectablePayload(p.movies, p.shows, p.episodes, seasons)
  }

  /** What each case appends under `sync`. */
  function Component(s: Sync): (r: string)
    ensures 0 < |r| && IsLetter(r[0])
  {
    match s
    case LastActivities => "last_activities"
    case GetPlaybackProgress(t, _) => "playback/" + t.Raw()
    case RemovePlayback(id) => "playback/" + IntString(id)
    case GetCollection(t, _) => "collection/" + t.Raw()
    case AddToCollection(_) => "collection"
    case RemoveFromCollection(_) => "collection/remove"
    case GetWatched(t, _) => "watched/" + t.Raw()
    case GetHistory(h) => "history/" + h.contentType.Raw() + "/" + OptionalIntString(h.traktId)
    case AddToHistory(_) => "history"
    case RemoveFromHistory(_) => "history/remove"
    case GetRatings(t, _) => "ratings/" + t.Raw()
    case AddRatings(_) => "ratings"
    case RemoveRatings(_) => "ratings/remove"
    case GetWatchlist(t, _, _) => "watchlist/" + t.Raw()
    case AddToWatchlist(_) => "watchlist"
    case RemoveFromWatchlist(_) => "watchlist"
  }

  /** The three removals are the `remove` action under their resource. */
  lemma RemoveComponents(s: Sync)
    requires s.RemoveFromCollection? || s.RemoveFromHistory? || s.RemoveRatings?
    ensures var c := Component(s); |c| > 7 && c[|c| - 7..] == "/remove"
  {
  }

  /** The query each case appends. */
  function WithQuery(s: Sync, u: Url): (r: Url)
    ensures r.path == u.path
    ensures s.GetPlaybackProgress? ==> r.query == u.query + [Item("limit", OptionalIntString(s.limit))]
    ensures s.GetCollection? || s.GetWatched? || s.GetRatings? ==>
              r.query == u.query + [Item("extended", s.infoLevel.Raw())]
    ensures s.GetHistory? ==> r.query == u.query + HistoryQueryItems(s.history)
    ensures s.GetWatchlist? ==> r.query == u.query + [Item("extended", s.infoLevel.Raw()),
              Item("page", IntString(s.pagination.page)), Item("limit", IntString(s.pagination.limit))]
    ensures s.LastActivities? || !IsRead(s) ==> r.query == u.query
  {
    if s.GetPlaybackProgress? then AppendingLimitQuery(u, s.limit)
    else if s.GetCollection? || s.GetWatched? || s.GetRatings? then AppendingInfo(u, Some(s.infoLevel))
    else if s.GetHistory? then AppendingQueryItems(u, HistoryQueryItems(s.history))
    else if s.GetWatchlist? then AppendingPagination(AppendingInfo(u, Some(s.infoLevel)), s.pagination)
    else u
  }

  const SyncRoot: Url := AppendingPathComponent(BaseUrl, "sync")

  /** `url`: `sync/` and the case's component, then its query. */
  function SyncUrl(s: Sync): (r: Url)
    ensures r.path == "/sync/" + Component(s)
    ensures s.GetPlaybackProgress? ==> r.query == [Item("limit", OptionalIntString(s.limit))]
    ensures s.GetCollection? || s.GetWatched? || s.GetRatings? ==> r.query == [Item("extended", s.infoLevel.Raw())]
    ensures s.GetHistory? ==> r.query == HistoryQueryItems(s.history)
    ensures s.GetWatchlist? ==> r.query == [Item("extended", s.infoLevel.Raw()),
              Item("page", IntString(s.pagination.page)), Item("limit", IntString(s.pagination.limit))]
    ensures s.LastActivities? || !IsRead(s) ==> r.query == []
  {
    var c := Component(s);
    var u := AppendingPathComponent(SyncRoot, c);
    assert SyncRoot == Url("/sync", []);
    assert u.path == "/sync" + "/" + c && u.query == [];
    assert "/sync" + "/" == "/sync/";
    WithQuery(s, u)
  }

  /** The descriptor: no case sends request headers. */
  function SyncEndpoint(s: Sync): (e: Endpoint<SyncBody>)
    ensures e.httpMethod == SyncMethod(s) && e.body == SyncBodyOf(s) && e.url == SyncUrl(s)
    ensures e.headers == map[]
  {
    Endpoint(SyncMethod(s), SyncUrl(s), SyncBodyOf(s), map[])
  }

  /** A sync request carries a body exactly when it is a POST. */
  lemma BodyIffPost(s: Sync)
    ensures SyncEndpoint(s).body.Some? <==> SyncEndpoint(s).httpMethod == POST
  {
  }

  // The URLs the endpoint tests expect, as path and query items.

  lemma PlaybackWithoutLimitPath()
    ensures SyncUrl(GetPlaybackProgress(WatchedType.Movies, None)).path == "/sync/playback/movies"
  {
    assert Component(GetPlaybackProgress(WatchedType.Movies, None)) == "playback/movies";
    assert "/sync/" + "playback/movies" == "/sync/playback/movies";
  }

  lemma PlaybackWithoutLimitQuery()
    ensures SyncUrl(GetPlaybackProgress(WatchedType.Movies, None)).query == [Item("limit", "")]
  {
  }

  lemma PlaybackWithLimitPath()
    ensures SyncUrl(GetPlaybackProgress(WatchedType.Episodes, Some(1))).path == "/sync/playback/episodes"
  {
    assert Component(GetPlaybackProgress(WatchedType.Episodes, Some(1))) == "playback/episodes";
    assert "/sync/" + "playback/episodes" == "/sync/playback/episodes";
  }

  lemma PlaybackWithLimitQuery()
    ensures SyncUrl(GetPlaybackProgress(WatchedType.Episodes, Some(1))).query == [Item("limit", "1")]
  {
    assert IntString(1) == "1" by { assert NatString(1) == [DigitChar(1)]; }
  }

  /** The `all` type has an empty raw value, which leaves an empty segment. */
  lemma PlaybackForAllTypesPath()
    ensures SyncUrl(GetPlaybackProgress(WatchedType.All, None)).path == "/sync/playback/"
  {
    assert Component(GetPlaybackProgress(WatchedType.All, None)) == "playback/";
    assert "/sync/" + "playback/" == "/sync/playback/";
  }

  lemma PlaybackForAllTypesQuery()
    ensures SyncUrl(GetPlaybackProgress(WatchedType.All, None)).query == [Item("limit", "")]
  {
  }

  /** `extended` comes before the pagination. */
  lemma WatchlistForMoviesPath()
    ensures SyncUrl(GetWatchlist(ContentType.Movies, Min, Pagination(1, 1))).path == "/sync/watchlist/movies"
  {
    assert Component(GetWatchlist(ContentType.Movies, Min, Pagination(1, 1))) == "watchlist/movies";
    assert "/sync/" + "watchlist/movies" == "/sync/watchlist/movies";
  }

  lemma WatchlistForMoviesQuery()
    ensures SyncUrl(GetWatchlist(ContentType.Movies, Min, Pagination(1, 1))).query == [Item("extended", "min"), Item("page", "1"), Item("limit", "1")]
  {
    assert IntString(1) == "1" by { assert NatString(1) == [DigitChar(1)]; }
  }

  lemma WatchlistForAllTypesPath()
    ensures SyncUrl(GetWatchlist(ContentType.All, Metadata, Pagination(1, 1))).path == "/sync/watchlist/"
  {
    assert Component(GetWatchlist(ContentType.All, Metadata, Pagination(1, 1))) == "watchlist/";
    assert "/sync/" + "watchlist/" == "/sync/watchlist/";
  }

  lemma WatchlistForAllTypesQuery()
    ensures SyncUrl(GetWatchlist(ContentType.All, Metadata, Pagination(1, 1))).query == [Item("extended", "metadata"), Item("page", "1"), Item("limit", "1")]
  {
    assert Metadata.Raw() == "metadata";
    assert IntString(1) == "1" by { assert NatString(1) == [DigitChar(1)]; }
  }

  /** The ratings URLs carry only `extended`. */
  lemma RatingsForAllTypesPath()
    ensures SyncUrl(GetRatings(ContentType.All, Min)).path == "/sync/ratings/"
  {
    assert Component(GetRatings(ContentType.All, Min)) == "ratings/";
    assert "/sync/" + "ratings/" == "/sync/ratings/";
  }

  lemma RatingsForAllTypesQuery()
    ensures SyncUrl(GetRatings(ContentType.All, Min)).query == [Item("extended", "min")]
  {
  }

  lemma RatingsForMoviesPath()
    ensures SyncUrl(GetRatings(ContentType.Movies, Full)).path == "/sync/ratings/movies"
  {
    assert Component(GetRatings(ContentType.Movies, Full)) == "ratings/movies";
    assert "/sync/" + "ratings/movies" == "/sync/ratings/movies";
  }

  lemma RatingsForMoviesQuery()
    ensures SyncUrl(GetRatings(ContentType.Movies, Full)).query == [Item("extended", "full")]
  {
    assert Full.Raw() == "full";
  }

  /** The history example: the item id becomes the last path segment ... */
  lemma HistoryPathWithItemId()
    ensures SyncUrl(GetHistory(NewHistoryPayload(ContentType.Movies, 1, 2, Some(3), Full, Some("123"), Some("456")))).path
            == "/sync/history/movies/3"
  {
    var p := NewHistoryPayload(ContentType.Movies, 1, 2, Some(3), Full, Some("123"), Some("456"));
    assert Component(GetHistory(p)) == "history/movies/3" by {
      assert IntString(3) == "3" by { assert NatString(3) == [DigitChar(3)]; }
      assert OptionalIntString(p.traktId) == "3";
      assert "history/" + "movies" + "/" + "3" == "history/movies/3";
    }
    assert "/sync/" + "history/movies/3" == "/sync/history/movies/3";
  }

  /** ... and every filter is in the query, in the documented order. */
  lemma HistoryQueryWithAllFilters()
    ensures SyncUrl(GetHistory(NewHistoryPayload(ContentType.Movies, 1, 2, Some(3), Full, Some("123"), Some("456")))).query
            == [Item("page", "1"), Item("limit", "2"), Item("extended", "full"), Item("start_at", "123"), Item("end_at", "456")]
  {
    var p := NewHistoryPayload(ContentType.Movies, 1, 2, Some(3), Full, Some("123"), Some("456"));
    assert HistoryQueryItems(p) == [Item("page", "1"), Item("limit", "2"), Item("extended", "full"),
                                    Item("start_at", "123"), Item("end_at", "456")] by {
      assert IntString(1) == "1" by { assert NatString(1) == [DigitChar(1)]; }
      assert IntString(2) == "2" by { assert NatString(2) == [DigitChar(2)]; }
    }
  }
}

=== FILE: syncapi.dfy ===
/** The sync calls of the client (Networking/API/Sync/Trakt+Sync.swift):
    how the payloads are built from lists of Trakt ids, which list a
    rating goes into, and how removing a playback item reports back. */
module SyncCalls {
  import opened Wrappers
  import opened Strings
  import opened Types
  import opened Urls
  import opened Endpoints
  import opened Errors
  import opened NetworkClient
  import opened SyncEndpoint
  import opened TraktApi

  /** `containers(from:)`: one container per id, in order. */
  function Containers(ids: seq<int>): (r: seq<TraktIdContainer>)
    ensures |r| == |ids|
    ensures forall i :: 0 <= i < |ids| ==> r[i].trakt == ids[i]
    decreases |ids|
  {
    if |ids| == 0 then [] else [TraktIdContainer(ids[0])] + Containers(ids[1..])
  }

  /** The ids the containers carry. */
  function TraktIds(cs: seq<TraktIdContainer>): (r: seq<int>)
    ensures |r| == |cs|
    decreases |cs|
  {
    if |cs| == 0 then [] else [cs[0].trakt] + TraktIds(cs[1..])
  }

  /** The containers give back the ids they were built from. */
  lemma {:induction false} ContainersRoundTrip(ids: seq<int>)
    ensures TraktIds(Containers(ids)) == ids
    decreases |ids|
  {
    if |ids| > 0 {
      ContainersRoundTrip(ids[1..]);
      assert Containers(ids)[1..] == Containers(ids[1..]);
    }
  }

  /** `syncPayload(movies:shows:episodes:items:)`. */
  function MakeSyncPayload(movies: seq<int>, shows: seq<int>, episodes: seq<int>, items: seq<int>): (p: SyncPayload)
    ensures p.ids == items
    ensures |p.movies| == |movies| && |p.shows| == |shows| && |p.episodes| == |episodes|
  {
    SyncPayload(Containers(movies), Containers(shows), Containers(episodes), items)
  }

  /** Each list of the payload carries exactly the ids it was given. */
  lemma SyncPayloadReadsBack(movies: seq<int>, shows: seq<int>, episodes: seq<int>, items: seq<int>)
    ensures var p := MakeSyncPayload(movies, shows, episodes, items);
      TraktIds(p.movies) == movies && TraktIds(p.shows) == shows && TraktIds(p.episodes) == episodes && p.ids == items
  {
    ContainersRoundTrip(movies);
    ContainersRoundTrip(shows);
    ContainersRoundTrip(episodes);
  }

  /** `collectablePayload(syncPayload:seasons:)`: the three lists of the
      sync payload, and the seasons as containers. */
  function MakeCollectablePayload(p: SyncPayload, seasons: seq<int>): (r: CollectablePayload)
    ensures r.movies == p.movies && r.shows == p.shows && r.episodes == p.episodes
    ensures TraktIds(r.seasons) == seasons
  {
    ContainersRoundTrip(seasons);
    CollectableFrom(p, Containers(seasons))
  }

  /** `addToHistory`: the event-id list is always empty. */
  function HistoryAddition(movies: seq<int>, shows: seq<int>, episodes: seq<int>): (s: Sync)
    ensures s.AddToHistory? && s.payload.ids == []
    ensures TraktIds(s.payload.movies) == movies && TraktIds(s.payload.shows) == shows
    ensures TraktIds(s.payload.episodes) == episodes
  {
    SyncPayloadReadsBack(movies, shows, episodes, []);
    AddToHistory(MakeSyncPayload(movies, shows, episodes, []))
  }

  /** `removeFromHistory`: the event ids are passed on. */
  function HistoryRemoval(movies: seq<int>, shows: seq<int>, episodes: seq<int>, items: seq<int>): (s: Sync)
    ensures s.RemoveFromHistory? && s.payload.ids == items
    ensures TraktIds(s.payload.movies) == movies && TraktIds(s.payload.shows) == shows
    ensures TraktIds(s.payload.episodes) == episodes
  {
    SyncPayloadReadsBack(movies, shows, episodes, items);
    RemoveFromHistory(MakeSyncPayload(movies, shows, episodes, items))
  }

  /** The collectable payload of `removeRatingsFrom`, `addToWatchlist` and
      `removeFromWatchlist`. */
  function CollectableOf(movies: seq<int>, shows: seq<int>, episodes: seq<int>, seasons: seq<int>): (c: CollectablePayload)
    ensures TraktIds(c.movies) == movies && TraktIds(c.shows) == shows
    ensures TraktIds(c.episodes) == episodes && TraktIds(c.seasons) == seasons
  {
    SyncPayloadReadsBack(movies, shows, episodes, []);
    MakeCollectablePayload(MakeSyncPayload(movies, shows, episodes, []), seasons)
  }

  /** The list of a rating payload that holds one kind of content. */
  function ListFor(p: RateablePayload, c: RateableContent): seq<Rateable> {
    match c
    case Movie => p.movies
    case Show => p.shows
    case Season => p.seasons
    case Episode => p.episodes
  }

  /** A rating accepted by `addRating`. */
  predicate ValidRating(rating: int) {
    1 <= rating <= 10
  }

  /** The payload of `addRating`: the one rated item, in the list for its
      kind of content. */
  function RatingPayload(rating: int, content: RateableContent, id: int, ratedAt: Option<int>): (p: RateablePayload)
    requires ValidRating(rating)
    ensures ListFor(p, content) == [Rateable(rating, ratedAt, id)]
    ensures |p.movies| + |p.shows| + |p.episodes| + |p.seasons| == 1
  {
    var r := Rateable(rating, ratedAt, id);
    match content
    case Movie => RateablePayload([r], [], [], [])
    case Show => RateablePayload([], [r], [], [])
    case Season => RateablePayload([], [], [], [r])
    case Episode => RateablePayload([], [], [r], [])
  }

  /** The lists for the other kinds of content stay empty. */
  lemma RatingOnlyInItsList(rating: int, content: RateableContent, id: int, ratedAt: Option<int>, other: RateableContent)
    requires ValidRating(rating) && other != content
    ensures ListFor(RatingPayload(rating, content, id, ratedAt), other) == []
  {
  }

  /** `addRating(_:to:withId:ratedAt:completion:)`: only for a logged-in
      user and a rating from 1 to 10; the payload is posted to
      `sync/ratings` and the answer parsed. */
  function AddRating<T>(t: Trakt, rating: int, content: RateableContent, id: int, ratedAt: Option<int>,
                        decode: Decoder<T>, transport: Transport): (r: (Result<T, TraktError>, Trakt))
    requires LoggedIn(t) && ValidRating(rating)
    ensures var req := RequestFor(t, SyncDataEndpoint(SyncEndpoint.SyncEndpoint(AddRatings(RatingPayload(rating, content, id, ratedAt)))), map[]);
      && req.httpMethod == POST && req.url == Url("/sync/ratings", [])
      && req.body == Some(SyncData(RateableBody(RatingPayload(rating, content, id, ratedAt))))
      && (r.0, r.1.store) == (ParseResponse(decode, StartRequest(t.store, req, transport).0), StartRequest(t.store, req, transport).1)
  {
    var s := AddRatings(RatingPayload(rating, content, id, ratedAt));
    assert SyncUrl(s).path == "/sync/" + "ratings" == "/sync/ratings";
    AuthenticatedRequestAndParse(t, SyncDataEndpoint(SyncEndpoint.SyncEndpoint(s)), map[], decode, transport)
  }

  /** The `switch` of `removePlaybackItemWith`: any success becomes `()`,
      a failure is passed on unchanged. */
  function PlaybackRemoved(n: Result<SuccessValue, TraktError>): (r: Result<(), TraktError>)
    ensures r.Success? <==> n.Success?
    ensures n.Failure? ==> r.error == n.error
  {
    match n
    case Success(_) => Success(())
    case Failure(e) => Failure(e)
  }

  /** `removePlaybackItemWith(_:completion:)`: a DELETE of
      `sync/playback/<id>`, for a logged-in user only. */
  function RemovePlaybackItem(t: Trakt, id: int, transport: Transport): (r: (Result<(), TraktError>, Trakt))
    requires LoggedIn(t)
    ensures var req := RequestFor(t, SyncDataEndpoint(SyncEndpoint.SyncEndpoint(RemovePlayback(id))), map[]);
      && req.httpMethod == DELETE && req.body.None? && req.url.path == "/sync/playback/" + IntString(id)
      && r.1 == AuthenticatedRequest(t, SyncDataEndpoint(SyncEndpoint.SyncEndpoint(RemovePlayback(id))), map[], transport).1
      && (r.0.Success? <==> StartRequest(t.store, req, transport).0.Success?)
    ensures r.0.Failure? ==>
              r.0.error == AuthenticatedRequest(t, SyncDataEndpoint(SyncEndpoint.SyncEndpoint(RemovePlayback(id))), map[], transport).0.error
  {
    var (n, t') := AuthenticatedRequest(t, SyncDataEndpoint(SyncEndpoint.SyncEndpoint(RemovePlayback(id))), map[], transport);
    (PlaybackRemoved(n), t')
  }
}

=== FILE: synccache.dfy ===
/** The cache table of the sync endpoints
    (TraktKit/Caching/CacheConfig+Sync.swift). Only the six read cases that
    table lists have a name, a key and limits. The write cases stop the
    program, and `getWatched` has no entry in the table (the legacy enum it
    switches over has no such case), so the functions here require a
    cacheable case. */
module SyncCache {
  import opened Wrappers
  import opened Strings
  import opened Types
  import opened SyncEndpoint
  import opened CacheKeys

  /** The cases the table covers. */
  predicate Cacheable(s: Sync) {
    s.LastActivities? || s.GetPlaybackProgress? || s.GetCollection? ||
    s.GetHistory? || s.GetRatings? || s.GetWatchlist?
  }

  /** The position of a cacheable case in the table. */
  function CaseIndex(s: Sync): nat
    requires Cacheable(s)
  {
    match s
    case LastActivities => 0
    case GetPlaybackProgress(_, _) => 1
    case GetCollection(_, _) => 2
    case GetHistory(_) => 3
    case GetRatings(_, _) => 4
    case GetWatchlist(_, _, _) => 5
  }

  /** `name`; none carries a `_`. */
  function Name(s: Sync): (r: string)
    requires Cacheable(s)
    ensures r != "" && '_' !in r
  {
    match s
    case LastActivities => "lastActivities"
    case GetPlaybackProgress(_, _) => "playbackProgress"
    case GetCollection(_, _) => "getCollection"
    case GetHistory(_) => "getHistory"
    case GetRatings(_, _) => "getRatings"
    case GetWatchlist(_, _, _) => "getWatchlist"
  }

  /** Two cacheable cases share a name exactly when they are the same case. */
  lemma NamesDistinct(a: Sync, b: Sync)
    requires Cacheable(a) && Cacheable(b)
    ensures Name(a) == Name(b) <==> CaseIndex(a) == CaseIndex(b)
  {
  }

  /** What a key holds after `<name>_`, for every case but
      `lastActivities`: the raw values and the page the case interpolates. */
  function Fields(s: Sync): (r: string)
    requires Cacheable(s) && !s.LastActivities?
    ensures s.GetPlaybackProgress? ==> FirstField(r) == s.watchedType.Raw()
    ensures s.GetCollection? ==> FirstField(r) == s.collectableType.Raw()
    ensures s.GetHistory? ==> FirstField(r) == s.history.contentType.Raw()
    ensures s.GetRatings? || s.GetWatchlist? ==> FirstField(r) == s.contentType.Raw()
  {
    match s
    case GetPlaybackProgress(t, _) =>
      FirstFieldOf(t.Raw(), "");
      t.Raw()
    case GetCollection(t, info) =>
      FirstFieldOf(t.Raw(), info.Raw());
      t.Raw() + "_" + info.Raw()
    case GetHistory(h) =>
      FirstFieldOf(h.contentType.Raw(), IntString(h.pageNumber));
      h.contentType.Raw() + "_" + IntString(h.pageNumber)
    case GetRatings(t, info) =>
      FirstFieldOf(t.Raw(), info.Raw());
      t.Raw() + "_" + info.Raw()
    case GetWatchlist(t, info, p) =>
      FirstFieldOf(t.Raw(), info.Raw() + "_" + IntString(p.page));
      assert t.Raw() + "_" + info.Raw() + "_" + IntString(p.page)
          == t.Raw() + "_" + (info.Raw() + "_" + IntString(p.page));
      t.Raw() + "_" + info.Raw() + "_" + IntString(p.page)
  }

  /** `key`: the name, then `_` and the interpolated values;
      `lastActivities` interpolates nothing and its key is its name. */
  function Key(s: Sync): (r: string)
    requires Cacheable(s)
    ensures Name(s) <= r
    ensures r == Name(s) <==> s.LastActivities?
  {
    if s.LastActivities? then Name(s) else Name(s) + "_" + Fields(s)
  }

  /** What the key of a case records: the case, and for each case the
      values it interpolates. The playback limit, the watchlist page size,
      and every history filter but the content type and the page are not
      among them. */
  predicate SameKeyedValues(a: Sync, b: Sync)
    requires Cacheable(a) && Cacheable(b)
  {
    && CaseIndex(a) == CaseIndex(b)
    && (a.GetPlaybackProgress? ==> a.watchedType == b.watchedType)
    && (a.GetCollection? ==> a.collectableType == b.collectableType && a.infoLevel == b.infoLevel)
    && (a.GetHistory? ==> a.history.contentType == b.history.contentType && a.history.pageNumber == b.history.pageNumber)
    && (a.GetRatings? ==> a.contentType == b.contentType && a.infoLevel == b.infoLevel)
    && (a.GetWatchlist? ==> a.contentType == b.contentType && a.infoLevel == b.infoLevel && a.pagination.page == b.pagination.page)
  }

  /** Raw values hold no `_`, so they split cleanly out of a key. */
  lemma RawValuesHaveNoSeparator(w: WatchedType, c: CollectableType, t: ContentType, i: InfoLevel)
    ensures '_' !in w.Raw() && '_' !in c.Raw() && '_' !in t.Raw() && '_' !in i.Raw()
  {
  }

  lemma KeyFirstField(s: Sync)
    requires Cacheable(s)
    ensures FirstField(Key(s)) == Name(s)
  {
    FirstFieldOf(Name(s), if s.LastActivities? then "" else Fields(s));
  }

  /** Two raw values joined by `_` give both back. */
  lemma RawPairInjective(x: string, y: string, x': string, y': string)
    requires '_' !in x && '_' !in x'
    requires x + "_" + y == x' + "_" + y'
    ensures x == x' && y == y'
  {
    SplitAtFirst('_', x, y, x', y');
  }

  /** Equal keys of the same case have equal fields. */
  lemma SameKeySameFields(a: Sync, b: Sync)
    requires Cacheable(a) && Cacheable(b) && !a.LastActivities? && CaseIndex(a) == CaseIndex(b)
    requires Key(a) == Key(b)
    ensures Fields(a) == Fields(b)
  {
    DropPrefix(Name(a) + "_", Fields(a), Fields(b));
  }

  /** A raw value and an info level joined by `_` give both back. */
  lemma RawAndInfoInjective(x: string, info: InfoLevel, x': string, info': InfoLevel, rest: string, rest': string)
    requires '_' !in x && '_' !in x'
    requires x + "_" + (info.Raw() + rest) == x' + "_" + (info'.Raw() + rest')
    ensures x == x' && info == info' && rest == rest'
  {
    RawPairInjective(x, info.Raw() + rest, x', info'.Raw() + rest');
    RawValuesHaveNoSeparator(WatchedType.All, CollectableType.Movies, ContentType.All, info);
    RawValuesHaveNoSeparator(WatchedType.All, CollectableType.Movies, ContentType.All, info');
    InfoPrefixDecides(info, info', rest, rest');
    DropPrefix(info.Raw(), rest, rest');
  }

  /** The first two letters of a raw info level tell the levels apart. */
  lemma InfoPrefixDecides(info: InfoLevel, info': InfoLevel, rest: string, rest': string)
    requires info.Raw() + rest == info'.Raw() + rest'
    ensures info == info'
  {
    var s := info.Raw() + rest;
    assert s[0] == info.Raw()[0] == info'.Raw()[0];
    assert s[1] == info.Raw()[1] == info'.Raw()[1];
  }

  /** Equal fields record equal values. */
  lemma {:induction false} FieldsIdentify(a: Sync, b: Sync)
    requires Cacheable(a) && Cacheable(b) && !a.LastActivities? && CaseIndex(a) == CaseIndex(b)
    requires Fields(a) == Fields(b)
    ensures SameKeyedValues(a, b)
  {
    match a
    case GetPlaybackProgress(t, _) =>
      RawValuesInjective();
    case GetCollection(t, info) =>
      CollectionFieldsIdentify(t, info, b.collectableType, b.infoLevel);
    case GetHistory(h) =>
      HistoryFieldsIdentify(h, b.history);
    case GetRatings(t, info) =>
      RatingsFieldsIdentify(t, info, b.contentType, b.infoLevel);
    case GetWatchlist(t, info, p) =>
      WatchlistFieldsIdentify(t, info, p, b.contentType, b.infoLevel, b.pagination);
  }

  lemma CollectionFieldsIdentify(t: CollectableType, info: InfoLevel, t': CollectableType, info': InfoLevel)
    requires Fields(GetCollection(t, info)) == Fields(GetCollection(t', info'))
    ensures t == t' && info == info'
  {
    RawValuesHaveNoSeparator(WatchedType.All, t, ContentType.All, info);
    RawValuesHaveNoSeparator(WatchedType.All, t', ContentType.All, info');
    assert t.Raw() + "_" + info.Raw() == t.Raw() + "_" + (info.Raw() + "");
    assert t'.Raw() + "_" + info'.Raw() == t'.Raw() + "_" + (info'.Raw() + "");
    RawAndInfoInjective(t.Raw(), info, t'.Raw(), info', "", "");
    RawValuesInjective();
  }

  lemma RatingsFieldsIdentify(t: ContentType, info: InfoLevel, t': ContentType, info': InfoLevel)
    requires Fields(GetRatings(t, info)) == Fields(GetRatings(t', info'))
    ensures t == t' && info == info'
  {
    RawValuesHaveNoSeparator(WatchedType.All, CollectableType.Movies, t, info);
    RawValuesHaveNoSeparator(WatchedType.All, CollectableType.Movies, t', info');
    assert t.Raw() + "_" + info.Raw() == t.Raw() + "_" + (info.Raw() + "");
    assert t'.Raw() + "_" + info'.Raw() == t'.Raw() + "_" + (info'.Raw() + "");
    RawAndInfoInjective(t.Raw(), info, t'.Raw(), info', "", "");
    RawValuesInjective();
  }

  lemma WatchlistFieldsIdentify(t: ContentType, info: InfoLevel, p: Pagination,
                                t': ContentType, info': InfoLevel, p': Pagination)
    requires Fields(GetWatchlist(t, info, p)) == Fields(GetWatchlist(t', info', p'))
    ensures t == t' && info == info' && p.page == p'.page
  {
    WatchlistFieldsForm(t, info, p);
    WatchlistFieldsForm(t', info', p');
    WatchlistPartsIdentify(t, info, p.page, t', info', p'.page);
  }

  lemma WatchlistFieldsForm(t: ContentType, info: InfoLevel, p: Pagination)
    ensures Fields(GetWatchlist(t, info, p)) == t.Raw() + "_" + (info.Raw() + ("_" + IntString(p.page)))
  {
  }

  lemma WatchlistPartsIdentify(t: ContentType, info: InfoLevel, n: int, t': ContentType, info': InfoLevel, n': int)
    requires t.Raw() + "_" + (info.Raw() + ("_" + IntString(n))) == t'.Raw() + "_" + (info'.Raw() + ("_" + IntString(n')))
    ensures t == t' && info == info' && n == n'
  {
    RawValuesHaveNoSeparator(WatchedType.All, CollectableType.Movies, t, info);
    RawValuesHaveNoSeparator(WatchedType.All, CollectableType.Movies, t', info');
    RawAndInfoInjective(t.Raw(), info, t'.Raw(), info', "_" + IntString(n), "_" + IntString(n'));
    RawValuesInjective();
    DropPrefix("_", IntString(n), IntString(n'));
    IntStringInjective(n, n');
  }

  lemma HistoryFieldsIdentify(h: HistoryPayload, h': HistoryPayload)
    requires Fields(GetHistory(h)) == Fields(GetHistory(h'))
    ensures h.contentType == h'.contentType && h.pageNumber == h'.pageNumber
  {
    RawValuesHaveNoSeparator(WatchedType.All, CollectableType.Movies, h.contentType, InfoLevel.Min);
    RawValuesHaveNoSeparator(WatchedType.All, CollectableType.Movies, h'.contentType, InfoLevel.Min);
    RawPairInjective(h.contentType.Raw(), IntString(h.pageNumber), h'.contentType.Raw(), IntString(h'.pageNumber));
    RawValuesInjective();
    IntStringInjective(h.pageNumber, h'.pageNumber);
  }

  /** Two cacheable requests share a key exactly when they agree on the
      values their case interpolates; whatever else they differ in, they
      are stored under the same key. */
  lemma {:induction false} KeyIdentifies(a: Sync, b: Sync)
    requires Cacheable(a) && Cacheable(b)
    ensures Key(a) == Key(b) <==> SameKeyedValues(a, b)
  {
    if Key(a) == Key(b) {
      KeyFirstField(a);
      KeyFirstField(b);
      NamesDistinct(a, b);
      if !a.LastActivities? {
        SameKeySameFields(a, b);
        FieldsIdentify(a, b);
      }
    }
  }

  /** `getPlaybackProgress` requests differing only in their limit share a
      key. */
  lemma PlaybackLimitNotInKey(t: WatchedType, limit: Option<int>, limit': Option<int>)
    ensures Key(GetPlaybackProgress(t, limit)) == Key(GetPlaybackProgress(t, limit'))
  {
  }

  /** `getHistory` requests for the same content type and page share a key,
      whatever their item id, page size, info level and dates. */
  lemma HistoryFiltersNotInKey(h: HistoryPayload, h': HistoryPayload)
    requires h.contentType == h'.contentType && h.pageNumber == h'.pageNumber
    ensures Key(GetHistory(h)) == Key(GetHistory(h'))
  {
  }

  /** `getWatchlist` requests differing only in their page size share a
      key. */
  lemma WatchlistLimitNotInKey(t: ContentType, info: InfoLevel, page: int, limit: int, limit': int)
    ensures Key(GetWatchlist(t, info, Pagination(page, limit))) == Key(GetWatchlist(t, info, Pagination(page, limit')))
  {
  }

  /** `diskMaxSize`: 1 MB for the last activities and the playback
      progress, 50 MB for the others. */
  function DiskMaxSize(s: Sync): (r: nat)
    requires Cacheable(s)
    ensures s.LastActivities? || s.GetPlaybackProgress? ==> r == MB
    ensures s.GetCollection? || s.GetHistory? || s.GetRatings? || s.GetWatchlist? ==> r == 50 * MB
  {
    match s
    case LastActivities => MB
    case GetPlaybackProgress(_, _) => MB
    case GetCollection(_, _) => MB * 50
    case GetHistory(_) => MB * 50
    case GetRatings(_, _) => MB * 50
    case GetWatchlist(_, _, _) => MB * 50
  }

  /** `memoryMaxItemCount`: one item for the last activities, 500 for the
      others. */
  function MemoryMaxItemCount(s: Sync): (r: nat)
    requires Cacheable(s)
    ensures s.LastActivities? <==> r == 1
    ensures !s.LastActivities? ==> r == 500
  {
    match s
    case LastActivities => 1
    case GetCollection(_, _) => 500
    case GetHistory(_) => 500
    case GetRatings(_, _) => 500
    case GetWatchlist(_, _, _) => 500
    case GetPlaybackProgress(_, _) => 500
  }

  /** `allCases`: one representative of each cacheable case. */
  function AllCases(): (r: seq<Sync>)
    ensures |r| == 6
    ensures forall i :: 0 <= i < |r| ==> Cacheable(r[i])
  {
    [ LastActivities,
      GetPlaybackProgress(WatchedType.Movies, Some(0)),
      GetCollection(CollectableType.Movies, InfoLevel.Min),
      GetHistory(NewHistoryPayload(ContentType.Movies, 1)),
      GetWatchlist(ContentType.Movies, InfoLevel.Min, Pagination(1, 1)),
      GetRatings(ContentType.All, InfoLevel.Min) ]
  }

  /** The representatives cover the six cases, each once. */
  lemma AllCasesCoverEveryCase(s: Sync)
    requires Cacheable(s)
    ensures exists i :: 0 <= i < |AllCases()| && CaseIndex(AllCases()[i]) == CaseIndex(s)
    ensures forall i, j :: 0 <= i < j < |AllCases()| ==> CaseIndex(AllCases()[i]) != CaseIndex(AllCases()[j])
  {
    var cases := AllCases();
    var k := match s
      case LastActivities => 0
      case GetPlaybackProgress(_, _) => 1
      case GetCollection(_, _) => 2
      case GetHistory(_) => 3
      case GetWatchlist(_, _, _) => 4
      case GetRatings(_, _) => 5;
    assert CaseIndex(cases[k]) == CaseIndex(s);
  }
}

=== FILE: text.dfy ===
/** The Foundation string operations the response-header parser relies on:
    `lowercased()`, `split(separator:)` and
    `trimmingCharacters(in: .whitespacesAndNewlines)`. */
module Text {
  import opened Wrappers

  predicate IsUpper(c: char) {
    'A' <= c <= 'Z'
  }

  function Lower(c: char): (r: char)
    ensures !IsUpper(r)
    ensures !IsUpper(c) ==> r == c
  {
    if IsUpper(c) then (c as int + 32) as char else c
  }

  predicate NoUpper(s: string) {
    forall i :: 0 <= i < |s| ==> !IsUpper(s[i])
  }

  /** `lowercased()` on the ASCII letters; other characters are kept. */
  function Lowercased(s: string): (r: string)
    ensures |r| == |s| && NoUpper(r)
    ensures forall i :: 0 <= i < |s| ==> r[i] == Lower(s[i])
    decreases |s|
  {
    if |s| == 0 then "" else [Lower(s[0])] + Lowercased(s[1..])
  }

  /** Lowercasing a string without upper-case letters changes nothing. */
  lemma LowercasedIdentity(s: string)
    requires NoUpper(s)
    ensures Lowercased(s) == s
  {
  }

  // Splitting and joining.

  /** Every piece between separators, empty ones included: one more piece
      than there are separators. */
  function Pieces(s: string, sep: char): (r: seq<string>)
    ensures |r| > 0
    ensures forall i :: 0 <= i < |r| ==> sep !in r[i]
    decreases |s|
  {
    if |s| == 0 then [""]
    else
      var rest := Pieces(s[1..], sep);
      if s[0] == sep then [""] + rest
      else
        var r := [[s[0]] + rest[0]] + rest[1..];
        assert forall i :: 1 <= i < |r| ==> r[i] == rest[i];
        r
  }

  /** The pieces with the separator put back between them. */
  function Join(ps: seq<string>, sep: char): string
    requires |ps| > 0
    decreases |ps|
  {
    if |ps| == 1 then ps[0] else ps[0] + [sep] + Join(ps[1..], sep)
  }

  /** Joining the pieces gives back the string. */
  lemma {:induction false} JoinPieces(s: string, sep: char)
    ensures Join(Pieces(s, sep), sep) == s
    decreases |s|
  {
    if |s| > 0 {
      var rest := Pieces(s[1..], sep);
      JoinPieces(s[1..], sep);
      if s[0] == sep {
        assert ([""] + rest)[1..] == rest;
      } else {
        var r := [[s[0]] + rest[0]] + rest[1..];
        if |rest| > 1 {
          assert r[1..] == rest[1..];
          assert Join(rest, sep) == rest[0] + [sep] + Join(rest[1..], sep);
        }
      }
    }
  }

  /** Splitting a joined list gives back the list, when no piece holds
      the separator. */
  lemma {:induction false} PiecesOfJoin(ps: seq<string>, sep: char)
    requires |ps| > 0
    requires forall i :: 0 <= i < |ps| ==> sep !in ps[i]
    ensures Pieces(Join(ps, sep), sep) == ps
    decreases |ps|, |ps[0]|
  {
    var s := Join(ps, sep);
    if |ps[0]| > 0 {
      var ps' := [ps[0][1..]] + ps[1..];
      assert forall i :: 1 <= i < |ps'| ==> ps'[i] == ps[i];
      assert sep !in ps'[0] by {
        assert forall c :: c in ps[0][1..] ==> c in ps[0];
      }
      PiecesOfJoin(ps', sep);
      if |ps| == 1 {
        assert s[1..] == ps'[0];
      } else {
        assert Join(ps', sep) == ps'[0] + [sep] + Join(ps[1..], sep);
        assert s[1..] == Join(ps', sep);
      }
      assert s[0] == ps[0][0] != sep by { assert ps[0][0] in ps[0]; }
      assert [ps[0][0]] + ps[0][1..] == ps[0];
      assert ps'[1..] == ps[1..];
    } else if |ps| > 1 {
      assert s == [sep] + Join(ps[1..], sep);
      assert s[1..] == Join(ps[1..], sep);
      PiecesOfJoin(ps[1..], sep);
    }
  }

  /** The non-empty strings of a list, in order. */
  function NonEmpty(ps: seq<string>): (r: seq<string>)
    ensures |r| <= |ps|
    ensures forall i :: 0 <= i < |r| ==> r[i] != ""
    decreases |ps|
  {
    if |ps| == 0 then []
    else if ps[0] == "" then NonEmpty(ps[1..])
    else [ps[0]] + NonEmpty(ps[1..])
  }

  /** A list without empty strings is kept whole. */
  lemma {:induction false} NonEmptyIdentity(ps: seq<string>)
    requires forall i :: 0 <= i < |ps| ==> ps[i] != ""
    ensures NonEmpty(ps) == ps
    decreases |ps|
  {
    if |ps| > 0 {
      NonEmptyIdentity(ps[1..]);
    }
  }

  /** `split(separator:)` with its default of dropping empty pieces. */
  function Split(s: string, sep: char): (r: seq<string>)
    ensures forall i :: 0 <= i < |r| ==> r[i] != "" && sep !in r[i]
  {
    var r := NonEmpty(Pieces(s, sep));
    NonEmptyIsSublist(Pieces(s, sep));
    assert forall i :: 0 <= i < |r| ==> r[i] in r;
    r
  }

  lemma {:induction false} NonEmptyIsSublist(ps: seq<string>)
    ensures forall x :: x in NonEmpty(ps) ==> x in ps
    decreases |ps|
  {
    if |ps| > 0 {
      NonEmptyIsSublist(ps[1..]);
    }
  }

  /** Splitting the join of non-empty pieces without the separator gives
      back the pieces. */
  lemma SplitJoin(ps: seq<string>, sep: char)
    requires |ps| > 0
    requires forall i :: 0 <= i < |ps| ==> ps[i] != "" && sep !in ps[i]
    ensures Split(Join(ps, sep), sep) == ps
  {
    PiecesOfJoin(ps, sep);
    NonEmptyIdentity(ps);
  }

  // Trimming.

  /** The space separators (Unicode general category Zs). */
  predicate IsSpaceSeparator(c: char) {
    || c == ' ' || c == '\U{A0}' || c == '\U{1680}' || ('\U{2000}' <= c <= '\U{200A}')
    || c == '\U{202F}' || c == '\U{205F}' || c == '\U{3000}'
  }

  /** `CharacterSet.whitespacesAndNewlines`: the Unicode separators (general
      category Z), the controls U+0009 to U+000D, and U+0085. */
  predicate IsWhitespace(c: char) {
    || IsSpaceSeparator(c) || ('\U{9}' <= c <= '\U{D}') || c == '\U{85}'
    || c == '\U{2028}' || c == '\U{2029}'
  }

  /** The two character sets the library trims with: `.whitespaces` (the
      space separators and the tab) and `.whitespacesAndNewlines`. */
  datatype CharacterSet = Whitespaces | WhitespacesAndNewlines {
    predicate Contains(c: char) {
      match this
      case Whitespaces => c == '\t' || IsSpaceSeparator(c)
      case WhitespacesAndNewlines => IsWhitespace(c)
    }
  }

  /** The string without its leading characters from `cs`. */
  function TrimStart(s: string, cs: CharacterSet): (r: string)
    ensures |r| <= |s| && r == s[|s| - |r|..]
    ensures forall i :: 0 <= i < |s| - |r| ==> cs.Contains(s[i])
    ensures |r| > 0 ==> !cs.Contains(r[0])
    decreases |s|
  {
    if |s| > 0 && cs.Contains(s[0]) then TrimStart(s[1..], cs) else s
  }

  /** The string without its trailing characters from `cs`. */
  function TrimEnd(s: string, cs: CharacterSet): (r: string)
    ensures |r| <= |s| && r == s[..|r|]
    ensures forall i :: |r| <= i < |s| ==> cs.Contains(s[i])
    ensures |r| > 0 ==> !cs.Contains(r[|r| - 1])
    decreases |s|
  {
    if |s| > 0 && cs.Contains(s[|s| - 1]) then TrimEnd(s[..|s| - 1], cs) else s
  }

  /** `trimmingCharacters(in:)`. */
  function Trim(s: string, cs: CharacterSet): (r: string)
    ensures |r| > 0 ==> !cs.Contains(r[0]) && !cs.Contains(r[|r| - 1])
  {
    TrimEnd(TrimStart(s, cs), cs)
  }

  /** A string whose ends are not in the set is its own trim. */
  lemma TrimIdentity(s: string, cs: CharacterSet)
    requires |s| > 0 ==> !cs.Contains(s[0]) && !cs.Contains(s[|s| - 1])
    ensures Trim(s, cs) == s
  {
  }

  /** Trimming twice is trimming once. */
  lemma TrimIdempotent(s: string, cs: CharacterSet)
    ensures Trim(Trim(s, cs), cs) == Trim(s, cs)
  {
    TrimIdentity(Trim(s, cs), cs);
  }

  /** Leading characters from the set are dropped whatever follows them. */
  lemma {:induction false} TrimStartSkips(pre: string, t: string, cs: CharacterSet)
    requires forall k :: 0 <= k < |pre| ==> cs.Contains(pre[k])
    ensures TrimStart(pre + t, cs) == TrimStart(t, cs)
    decreases |pre|
  {
    if |pre| > 0 {
      var whole := pre + t;
      assert cs.Contains(whole[0]) by { assert whole[0] == pre[0]; }
      assert TrimStart(whole, cs) == TrimStart(whole[1..], cs);
      assert whole[1..] == pre[1..] + t;
      TrimStartSkips(pre[1..], t, cs);
    } else {
      assert pre + t == t;
    }
  }

  /** Trailing characters from the set are dropped whatever precedes them. */
  lemma {:induction false} TrimEndSkips(t: string, post: string, cs: CharacterSet)
    requires forall k :: 0 <= k < |post| ==> cs.Contains(post[k])
    ensures TrimEnd(t + post, cs) == TrimEnd(t, cs)
    decreases |post|
  {
    if |post| > 0 {
      var whole, cut := t + post, post[..|post| - 1];
      assert cs.Contains(whole[|whole| - 1]) by { assert whole[|whole| - 1] == post[|post| - 1]; }
      assert TrimEnd(whole, cs) == TrimEnd(whole[..|whole| - 1], cs);
      assert whole[..|whole| - 1] == t + cut;
      TrimEndSkips(t, cut, cs);
    } else {
      assert t + post == t;
    }
  }

  /** The trim of characters from the set, a string, and more characters
      from the set is the string, when its ends are not in the set. */
  lemma TrimPadded(pre: string, s: string, post: string, cs: CharacterSet)
    requires forall k :: 0 <= k < |pre| ==> cs.Contains(pre[k])
    requires forall k :: 0 <= k < |post| ==> cs.Contains(post[k])
    requires |s| > 0 && !cs.Contains(s[0]) && !cs.Contains(s[|s| - 1])
    ensures Trim(pre + s + post, cs) == s
  {
    assert pre + s + post == pre + (s + post);
    TrimStartSkips(pre, s + post, cs);
    assert TrimStart(s + post, cs) == s + post;
    TrimEndSkips(s, post, cs);
    assert TrimEnd(s, cs) == s;
  }
}

=== FILE: trakt.dfy ===
/** The `Trakt` client of TraktKit/Networking/API/Trakt.swift on top of the
    network client: the `Authorization` header, the mapping of network
    results to `TraktError`, decoding, pagination, the logged-in check and
    the OAuth helpers.

    The decoder is a parameter: a total function from the response data to
    a value or one of the four decoding failures. */
module TraktApi {
  import opened Wrappers
  import opened Types
  import opened Urls
  import opened Endpoints
  import opened Json
  import opened ResponseHeaders
  import opened Errors
  import opened NetworkClient
  import opened AuthenticationEndpoint
  import opened SyncEndpoint

  /** What an encoded request body holds: a JSON value, or one of the sync
      payloads. */
  datatype Body = JsonBody(json: Json) | SyncData(sync: SyncBody)

  /** The descriptors as the network client sees them, their bodies
      encoded. */
  function JsonEndpoint(e: Endpoint<Json>): (r: Endpoint<Body>)
    ensures r.httpMethod == e.httpMethod && r.url == e.url && r.headers == e.headers
    ensures r.body.Some? <==> e.body.Some?
    ensures e.body.Some? ==> r.body.value.JsonBody? && r.body.value.json == e.body.value
  {
    Endpoint(e.httpMethod, e.url, if e.body.Some? then Some(JsonBody(e.body.value)) else None, e.headers)
  }

  function SyncDataEndpoint(e: Endpoint<SyncBody>): (r: Endpoint<Body>)
    ensures r.httpMethod == e.httpMethod && r.url == e.url && r.headers == e.headers
    ensures r.body.Some? <==> e.body.Some?
    ensures e.body.Some? ==> r.body.value.SyncData? && r.body.value.sync == e.body.value
  {
    Endpoint(e.httpMethod, e.url, if e.body.Some? then Some(SyncData(e.body.value)) else None, e.headers)
  }

  function PlainEndpoint(e: Endpoint<NoBody>): (r: Endpoint<Body>)
    ensures r.httpMethod == e.httpMethod && r.url == e.url && r.headers == e.headers && r.body.None?
  {
    Endpoint(e.httpMethod, e.url, None, e.headers)
  }

  /** `ClientProvider` and `Authenticator`. */
  datatype ClientProvider = ClientProvider(clientId: string, secret: Option<string>)
  datatype Authenticator = Authenticator(accessToken: string)

  /** A client: its provider, the user's token once logged in, and the
      response store of its network client. */
  datatype Trakt = Trakt(client: ClientProvider, auth: Option<Authenticator>, store: Store<Body>)

  /** `authenticate(_:)`. */
  function Authenticate(t: Trakt, a: Authenticator): (r: Trakt)
    ensures r.auth == Some(a) && r.client == t.client && r.store == t.store
  {
    t.(auth := Some(a))
  }

  /** `assertLoggedInUser()`: the calls that need a user demand this. */
  predicate LoggedIn(t: Trakt) {
    t.auth.Some?
  }

  const AuthorizationField: string := "Authorization"

  /** `addAuthHeaderTo(_:)`: with a user, `Authorization` is set to the
      bearer token, replacing whatever the caller put there; every other
      header is kept. */
  function AddAuthHeaderTo(headers: map<string, string>, auth: Option<Authenticator>): (r: map<string, string>)
    ensures auth.None? ==> r == headers
    ensures auth.Some? ==> r.Keys == headers.Keys + {AuthorizationField}
    ensures auth.Some? ==> r[AuthorizationField] == "Bearer " + auth.value.accessToken
    ensures forall k :: k in headers && k != AuthorizationField ==> k in r && r[k] == headers[k]
  {
    if auth.Some? then headers[AuthorizationField := "Bearer " + auth.value.accessToken] else headers
  }

  /** The request `executeAuthenticatedRequest` sends for an endpoint. */
  function RequestFor(t: Trakt, e: Endpoint<Body>, additional: map<string, string>): (r: Request<Body>)
    ensures r.url == e.url && r.httpMethod == e.httpMethod && r.body == e.body
    ensures e.headers == map[] ==> r.headers == AddAuthHeaderTo(additional, t.auth)
  {
    BuildRequest(e, AddAuthHeaderTo(additional, t.auth))
  }

  /** A logged-in user's request for an endpoint without headers carries
      the bearer token, and the caller's other headers unchanged. */
  lemma RequestCarriesToken(t: Trakt, e: Endpoint<Body>, additional: map<string, string>)
    requires LoggedIn(t) && e.headers == map[]
    ensures var h := RequestFor(t, e, additional).headers;
      && AuthorizationField in h && h[AuthorizationField] == "Bearer " + t.auth.value.accessToken
      && forall k :: k in additional && k != AuthorizationField ==> k in h && h[k] == additional[k]
  {
  }

  /** Sending a request through the client's network client. */
  function Execute(t: Trakt, e: Endpoint<Body>, additional: map<string, string>, transport: Transport): (r: (NetworkResult, Trakt))
    ensures r.1.client == t.client && r.1.auth == t.auth
    ensures (r.0, r.1.store) == StartRequest(t.store, RequestFor(t, e, additional), transport)
  {
    var (result, store) := StartRequest(t.store, RequestFor(t, e, additional), transport);
    (result, t.(store := store))
  }

  /** The `switch` of `authenticatedRequest`: a failure is wrapped in
      `networkError`, a success passed on. */
  function WrapFailure(n: NetworkResult): (r: Result<SuccessValue, TraktError>)
    ensures n.Success? ==> r == n
    ensures n.Failure? ==> r == Failure(NetworkError(Wrapped(n.error)))
  {
    match n
    case Success(v) => Success(v)
    case Failure(e) => Failure(NetworkError(Wrapped(e)))
  }

  /** `authenticatedRequest(for:additionalHeaders:)`. */
  function AuthenticatedRequest(t: Trakt, e: Endpoint<Body>, additional: map<string, string>, transport: Transport)
    : (r: (Result<SuccessValue, TraktError>, Trakt))
    ensures r.1 == Execute(t, e, additional, transport).1
    ensures r.0.Success? <==> Execute(t, e, additional, transport).0.Success?
    ensures r.0.Failure? ==> r.0.error.NetworkError? && r.0.error.cause.Wrapped?
    ensures Execute(t, e, additional, transport).0.Success? ==> r.0 == Execute(t, e, additional, transport).0
    ensures Execute(t, e, additional, transport).0.Failure? ==>
              r.0 == Failure(NetworkError(Wrapped(Execute(t, e, additional, transport).0.error)))
  {
    var (n, t') := Execute(t, e, additional, transport);
    (WrapFailure(n), t')
  }

  /** An HTTP failure status reaches the caller as `networkError(httpError)`
      and a transport error as `networkError(networkError)`. */
  lemma FailuresAreWrapped(t: Trakt, e: Endpoint<Body>, additional: map<string, string>, transport: Transport)
    requires RequestFor(t, e, additional) !in t.store
    ensures transport.error.Some? ==>
              AuthenticatedRequest(t, e, additional, transport).0
              == Failure(NetworkError(Wrapped(NetworkError(UrlError(transport.error.value)))))
    ensures Classify(transport).Failure? && Classify(transport).error.HttpError? ==>
              AuthenticatedRequest(t, e, additional, transport).0
              == Failure(NetworkError(Wrapped(HttpError(transport.response.value.statusCode))))
  {
  }

  /** `JSONDecoder.decode`: a value, or one of the four decoding failures. */
  type Decoder<T> = Data -> Result<T, DecodingErrorKind>

  /** `parseObject(ofType:data:)`: each decoding failure becomes a
      `decodingError` of the same kind. */
  function ParseObject<T>(decode: Decoder<T>, data: Data): (r: Result<T, TraktError>)
    ensures r.Success? <==> decode(data).Success?
    ensures r.Success? ==> r.value == decode(data).value
    ensures r.Failure? ==> r.error == DecodingError(decode(data).error)
  {
    match decode(data)
    case Success(v) => Success(v)
    case Failure(kind) => Failure(DecodingError(kind))
  }

  /** Nothing the decoder says is lost: equal parse results come from
      equal decoder results. */
  lemma ParseObjectInjective<T>(d: Decoder<T>, x: Data, d': Decoder<T>, y: Data)
    requires ParseObject(d, x) == ParseObject(d', y)
    ensures d(x) == d'(y)
  {
  }

  /** The `switch` of `authenticatedRequestAndParse`: failures wrapped, a
      `204` answered with `emptyContent` before any decoding, anything
      else decoded. */
  function ParseResponse<T>(decode: Decoder<T>, n: NetworkResult): (r: Result<T, TraktError>)
    ensures n.Failure? ==> r == Failure(NetworkError(Wrapped(n.error)))
    ensures n.Success? && n.value.statusCode != 204 ==> r == ParseObject(decode, n.value.value)
    ensures r == Failure(EmptyContent) <==> n.Success? && n.value.statusCode == 204
  {
    match n
    case Failure(e) => Failure(NetworkError(Wrapped(e)))
    case Success(v) => if v.statusCode == 204 then Failure(EmptyContent) else ParseObject(decode, v.value)
  }

  /** A `204` answer never reaches the decoder: any two decoders give the
      same result. */
  lemma NoContentSkipsDecoder<T>(d: Decoder<T>, d': Decoder<T>, n: NetworkResult)
    requires n.Success? && n.value.statusCode == 204
    ensures ParseResponse(d, n) == ParseResponse(d', n)
  {
  }

  /** `authenticatedRequestAndParse(_:additionalHeaders:completion:)`. */
  function AuthenticatedRequestAndParse<T>(t: Trakt, e: Endpoint<Body>, additional: map<string, string>,
                                           decode: Decoder<T>, transport: Transport): (r: (Result<T, TraktError>, Trakt))
    ensures r.1 == Execute(t, e, additional, transport).1
    ensures r.0 == ParseResponse(decode, Execute(t, e, additional, transport).0)
  {
    var (n, t') := Execute(t, e, additional, transport);
    (ParseResponse(decode, n), t')
  }

  /** `fetchObject`: the cache configuration is not consulted, and the
      answer is decoded whatever its status, `204` included. */
  function FetchObject<T, C>(t: Trakt, cacheConfig: C, e: Endpoint<Body>, additional: map<string, string>,
                             decode: Decoder<T>, transport: Transport): (r: (Result<T, TraktError>, Trakt))
    ensures r.1 == Execute(t, e, additional, transport).1
    ensures var n := AuthenticatedRequest(t, e, additional, transport).0;
      && (n.Failure? ==> r.0 == Failure(n.error))
      && (n.Success? ==> r.0 == ParseObject(decode, n.value.value))
  {
    var (n, t') := AuthenticatedRequest(t, e, additional, transport);
    match n
    case Failure(err) => (Failure(err), t')
    case Success(v) => (ParseObject(decode, v.value), t')
  }

  /** Two cache configurations give the same fetch. */
  lemma FetchIgnoresCacheConfig<T, C>(t: Trakt, c: C, c': C, e: Endpoint<Body>, additional: map<string, string>,
                                      decode: Decoder<T>, transport: Transport)
    ensures FetchObject(t, c, e, additional, decode, transport) == FetchObject(t, c', e, additional, decode, transport)
  {
  }

  /** `Paginated`: a decoded value with the response's pagination. */
  datatype Paginated<T> = Paginated(value: T, pagination: Option<PaginationData>)

  /** `parseAndCachePaginated`: demands that the response has pagination
      headers, and returns them with the decoded value. */
  function ParsePaginated<T>(decode: Decoder<T>, v: SuccessValue): (r: Result<Paginated<T>, TraktError>)
    requires v.headers.pagination.Some?
    ensures r.Success? <==> decode(v.value).Success?
    ensures r.Success? ==> r.value == Paginated(decode(v.value).value, v.headers.pagination)
    ensures r.Failure? ==> r.error == DecodingError(decode(v.value).error)
  {
    match ParseObject(decode, v.value)
    case Success(x) => Success(Paginated(x, v.headers.pagination))
    case Failure(err) => Failure(err)
  }

  /** The precondition of a paginated fetch: a successful answer carries
      pagination headers. */
  predicate PaginationPromised(t: Trakt, e: Endpoint<Body>, additional: map<string, string>, transport: Transport) {
    var n := Execute(t, e, additional, transport).0;
    n.Success? ==> n.value.headers.pagination.Some?
  }

  /** `fetchPaginatedObject`. */
  function FetchPaginatedObject<T, C>(t: Trakt, cacheConfig: C, e: Endpoint<Body>, additional: map<string, string>,
                                      decode: Decoder<T>, transport: Transport): (r: (Result<Paginated<T>, TraktError>, Trakt))
    requires PaginationPromised(t, e, additional, transport)
    ensures r.1 == Execute(t, e, additional, transport).1
    ensures r.0.Success? ==> r.0.value.pagination.Some?
    ensures r.0.Success? ==> && Execute(t, e, additional, transport).0.Success?
                             && r.0.value.pagination == Execute(t, e, additional, transport).0.value.headers.pagination
    ensures r.0.Failure? && !Execute(t, e, additional, transport).0.Success? ==>
              r.0.error == NetworkError(Wrapped(Execute(t, e, additional, transport).0.error))
    ensures Execute(t, e, additional, transport).0.Success? ==>
              r.0 == ParsePaginated(decode, Execute(t, e, additional, transport).0.value)
  {
    var (n, t') := AuthenticatedRequest(t, e, additional, transport);
    match n
    case Failure(err) => (Failure(err), t')
    case Success(v) => (ParsePaginated(decode, v), t')
  }

  /** `oAuthURL(redirectURI:)`: the authorize URL for the client's id. */
  function OAuthUrl(client: ClientProvider, redirectURI: string): (r: Url)
    ensures r.path == "/oauth/authorize"
    ensures Lookup(r.query, "client_id") == Some(Some(client.clientId))
    ensures Lookup(r.query, "redirect_uri") == Some(Some(redirectURI))
    ensures Lookup(r.query, "response_type") == Some(Some("code"))
  {
    AuthorizeQueryReadsBack(client.clientId, redirectURI);
    AuthenticationUrl(Authorize(client.clientId, redirectURI))
  }

  /** The authorization code of a callback URL: the value of its first
      `code` query item, if that item has one. */
  function CallbackCode(callback: Url): (r: Option<string>)
    ensures r.None? <==> Lookup(callback.query, "code").None? || Lookup(callback.query, "code").value.None?
    ensures r.Some? ==> Lookup(callback.query, "code") == Some(Some(r.value))
  {
    match Lookup(callback.query, "code")
    case Some(Some(code)) => Some(code)
    case _ => None
  }

  /** Only the first `code` item counts: one without a value hides the
      codes after it. */
  lemma FirstCodeItemDecides(path: string, rest: seq<QueryItem>, code: string)
    ensures CallbackCode(Url(path, [QueryItem("code", Some(code))] + rest)) == Some(code)
    ensures CallbackCode(Url(path, [QueryItem("code", None)] + rest)) == None
  {
  }

  const AuthorizationCodeGrant: string := "authorization_code"

  /** The guards of `getToken(from:redirectURI:completion:)`: the client
      secret first, then the code; then the token request data. */
  function TokenRequestData(client: ClientProvider, callback: Url, redirectURI: string): (r: Result<TokenData, TraktError>)
    ensures client.secret.None? ==> r == Failure(ClientSecretMissing)
    ensures client.secret.Some? && CallbackCode(callback).None? ==> r == Failure(OAuthCallbackCodeMissing)
    ensures r.Success? <==> client.secret.Some? && CallbackCode(callback).Some?
    ensures r.Success? ==> r.value == TokenData(CallbackCode(callback).value, client.clientId, client.secret.value,
                                                redirectURI, AuthorizationCodeGrant)
  {
    if client.secret.None? then Failure(ClientSecretMissing)
    else
      match CallbackCode(callback)
      case None => Failure(OAuthCallbackCodeMissing)
      case Some(code) => Success(TokenData(code, client.clientId, client.secret.value, redirectURI, AuthorizationCodeGrant))
  }

  /** `getToken(from:redirectURI:completion:)`: a failed guard answers
      without a request; otherwise the token request is sent and parsed. */
  function GetTokenFrom<T>(t: Trakt, callback: Url, redirectURI: string, decode: Decoder<T>, transport: Transport)
    : (r: (Result<T, TraktError>, Trakt))
    ensures TokenRequestData(t.client, callback, redirectURI).Failure? ==>
              r == (Failure(TokenRequestData(t.client, callback, redirectURI).error), t)
    ensures TokenRequestData(t.client, callback, redirectURI).Success? ==>
              r == AuthenticatedRequestAndParse(
                     t, JsonEndpoint(AuthenticationEndpoint.AuthenticationEndpoint(Authentication.GetToken(TokenRequestData(t.client, callback, redirectURI).value))),
                     map[], decode, transport)
  {
    match TokenRequestData(t.client, callback, redirectURI)
    case Failure(err) => (Failure(err), t)
    case Success(data) =>
      AuthenticatedRequestAndParse(t, JsonEndpoint(AuthenticationEndpoint.AuthenticationEndpoint(Authentication.GetToken(data))), map[], decode, transport)
  }

  /** The token request posts the code, the client's id and secret, the
      redirect URI and the authorization-code grant to `oauth/token`. */
  lemma TokenRequestSent(t: Trakt, callback: Url, redirectURI: string)
    requires TokenRequestData(t.client, callback, redirectURI).Success?
    ensures var data := TokenRequestData(t.client, callback, redirectURI).value;
      var req := RequestFor(t, JsonEndpoint(AuthenticationEndpoint.AuthenticationEndpoint(Authentication.GetToken(data))), map[]);
      && req.httpMethod == POST && req.url == Url("/oauth/token", [])
      && req.body == Some(JsonBody(EncodeToken(data)))
      && DecodeToken(req.body.value.json) == Some(TokenData(CallbackCode(callback).value, t.client.clientId,
                                                            t.client.secret.value, redirectURI, AuthorizationCodeGrant))
  {
    var data := TokenRequestData(t.client, callback, redirectURI).value;
    TokenRoundTrip(data);
  }

  /** `clearCaches()`. */
  function ClearClientCaches(t: Trakt): (r: Trakt)
    ensures r.client == t.client && r.auth == t.auth
    ensures forall req :: req !in r.store
  {
    t.(store := ClearCaches(t.store))
  }
}

=== FILE: types.dfy ===
/** The small enumerations with string raw values that the endpoints put
    into URLs and cache keys, and the two pagination records. */
module Types {
  import opened Strings

  /** `InfoLevel`, the `extended` query parameter. */
  datatype InfoLevel = Min | Full | Metadata {
    function Raw(): (r: string)
      ensures r != ""
      ensures forall i :: 0 <= i < |r| ==> 'a' <= r[i] <= 'z'
    {
      match this
      case Min => "min"
      case Full => "full"
      case Metadata => "metadata"
    }
  }

  /** `TimePeriod` of the chart endpoints. */
  datatype TimePeriod = Daily | Weekly | Monthly | Yearly | All {
    function Raw(): (r: string)
      ensures r != ""
      ensures forall i :: 0 <= i < |r| ==> 'a' <= r[i] <= 'z'
    {
      match this
      case Daily => "daily"
      case Weekly => "weekly"
      case Monthly => "monthly"
      case Yearly => "yearly"
      case All => "all"
    }
  }

  /** `WatchedType`: `all` has the empty raw value. */
  datatype WatchedType = Movies | Episodes | All {
    function Raw(): (r: string)
      ensures r == "" <==> this == WatchedType.All
      ensures forall i :: 0 <= i < |r| ==> 'a' <= r[i] <= 'z'
    {
      match this
      case Movies => "movies"
      case Episodes => "episodes"
      case All => ""
    }
  }

  /** `CollectableType`. */
  datatype CollectableType = Movies | Shows {
    function Raw(): (r: string)
      ensures r != ""
      ensures forall i :: 0 <= i < |r| ==> 'a' <= r[i] <= 'z'
    {
      match this
      case Movies => "movies"
      case Shows => "shows"
    }
  }

  /** `ContentType`: `all` has the empty raw value. */
  datatype ContentType = Movies | Shows | Seasons | Episodes | All {
    function Raw(): (r: string)
      ensures r == "" <==> this == ContentType.All
      ensures forall i :: 0 <= i < |r| ==> 'a' <= r[i] <= 'z'
    {
      match this
      case Movies => "movies"
      case Shows => "shows"
      case Seasons => "seasons"
      case Episodes => "episodes"
      case All => ""
    }
  }

  /** `RateableContent`: which list of a ratings payload an item goes to. */
  datatype RateableContent = Movie | Show | Season | Episode

  /** `Pagination`: the page to fetch and the number of results per page. */
  datatype Pagination = Pagination(page: int, limit: int)

  /** `PaginationData`, read from the `x-pagination-*` response headers. */
  datatype PaginationData = PaginationData(itemCount: Int64, limit: Int64, currentPage: Int64, totalPages: Int64)

  /** Distinct cases have distinct raw values, so a raw value in a URL or
      cache key identifies the case. */
  lemma RawValuesInjective()
    ensures forall a: InfoLevel, b: InfoLevel :: a.Raw() == b.Raw() ==> a == b
    ensures forall a: WatchedType, b: WatchedType :: a.Raw() == b.Raw() ==> a == b
    ensures forall a: CollectableType, b: CollectableType :: a.Raw() == b.Raw() ==> a == b
    ensures forall a: ContentType, b: ContentType :: a.Raw() == b.Raw() ==> a == b
  {
  }
}

=== FILE: urls.dfy ===
/** URLs as the endpoints build them (URL+QueryItem.swift): a path under the
    service's base address plus an ordered list of query items. */
module Urls {
  import opened Wrappers
  import opened Strings
  import opened Types

  /** `URLQueryItem`: a name and an optional value. */
  datatype QueryItem = QueryItem(name: string, value: Option<string>)

  /** A query item that carries a value, the only kind the endpoints build. */
  function Item(name: string, value: string): QueryItem {
    QueryItem(name, Some(value))
  }

  /** A URL under the base address: its path (starting with `/`, or empty
      for the base itself) and its query items in order. */
  datatype Url = Url(path: string, query: seq<QueryItem>)

  /** `baseURL`. */
  const BaseAddress: string := "https://api.trakt.tv"
  const BaseUrl: Url := Url("", [])

  predicate EndsWithSlash(path: string) {
    0 < |path| && path[|path| - 1] == '/'
  }

  /** Foundation's `appendingPathComponent(_:)`: joins with a `/` unless the
      path already ends in one; the query is kept. */
  function AppendingPathComponent(u: Url, component: string): (r: Url)
    ensures r.query == u.query
  {
    Url(u.path + (if EndsWithSlash(u.path) then "" else "/") + component, u.query)
  }

  /** The old path is a prefix of the new one, the component its suffix, and
      exactly one `/` separates them. */
  lemma AppendingPathComponentShape(u: Url, component: string)
    ensures var r := AppendingPathComponent(u, component);
      && |r.path| == |u.path| + |component| + (if EndsWithSlash(u.path) then 0 else 1)
      && u.path <= r.path && r.path[|r.path| - |component|..] == component
      && EndsWithSlash(r.path[..|r.path| - |component|])
  {
    var sep := if EndsWithSlash(u.path) then "" else "/";
    var r := AppendingPathComponent(u, component);
    assert r.path == u.path + (sep + component);
    assert r.path[..|r.path| - |component|] == u.path + sep;
  }

  /** `appendingPathComponent(_: String?)`: `nil` leaves the URL unchanged. */
  function AppendingOptionalPathComponent(u: Url, component: Option<string>): (r: Url)
    ensures component.None? ==> r == u
    ensures component.Some? ==> r == AppendingPathComponent(u, component.value)
  {
    match component
    case None => u
    case Some(c) => AppendingPathComponent(u, c)
  }

  /** `appendingQueryItem`: the path and the existing items stay, in order,
      and the new item comes last. */
  function AppendingQueryItem(u: Url, item: QueryItem): (r: Url)
    ensures r.path == u.path
    ensures |r.query| == |u.query| + 1
    ensures r.query[..|u.query|] == u.query && r.query[|u.query|] == item
  {
    Url(u.path, u.query + [item])
  }

  /** `appendingQueryItems`: `appendingQueryItem` applied to each item left to right. */
  function AppendingQueryItems(u: Url, items: seq<QueryItem>): (r: Url)
    ensures r.path == u.path
    ensures r.query == u.query + items
    decreases |items|
  {
    if |items| == 0 then u
    else
      var r := AppendingQueryItems(AppendingQueryItem(u, items[0]), items[1..]);
      assert u.query + [items[0]] + items[1..] == u.query + items;
      r
  }

  /** `appendingLimitQuery`: a `limit` item whose value is `String(limit)`. */
  function AppendingLimitQuery(u: Url, limit: Option<int>): (r: Url)
    ensures r.path == u.path
    ensures r.query == u.query + [Item("limit", OptionalIntString(limit))]
  {
    AppendingQueryItem(u, Item("limit", OptionalIntString(limit)))
  }

  /** `appendingPagination`: `page`, then `limit`. */
  function AppendingPagination(u: Url, p: Pagination): (r: Url)
    ensures r.path == u.path
    ensures r.query == u.query + [Item("page", IntString(p.page)), Item("limit", IntString(p.limit))]
  {
    AppendingLimitQuery(AppendingQueryItem(u, Item("page", IntString(p.page))), Some(p.limit))
  }

  /** `appendingInfo`: `extended=<raw value>`, or nothing for `nil`. */
  function AppendingInfo(u: Url, info: Option<InfoLevel>): (r: Url)
    ensures r.path == u.path
    ensures info.None? ==> r == u
    ensures info.Some? ==> r.query == u.query + [Item("extended", info.value.Raw())]
  {
    match info
    case None => u
    case Some(i) => AppendingQueryItem(u, Item("extended", i.Raw()))
  }

  /** `appendingTimePeriod`: the raw value as a path component, or nothing for `nil`. */
  function AppendingTimePeriod(u: Url, period: Option<TimePeriod>): (r: Url)
    ensures r.query == u.query
    ensures period.None? ==> r == u
    ensures period.Some? ==> r == AppendingPathComponent(u, period.value.Raw())
  {
    match period
    case None => u
    case Some(t) => AppendingPathComponent(u, t.Raw())
  }

  /** Reading a query back: the value of the first item with the given
      name, or `None` when no item has that name. */
  function Lookup(qs: seq<QueryItem>, name: string): (r: Option<Option<string>>)
    ensures r.None? <==> forall i :: 0 <= i < |qs| ==> qs[i].name != name
    ensures r.Some? ==> exists i :: 0 <= i < |qs| && qs[i].name == name && qs[i].value == r.value
                                    && forall k :: 0 <= k < i ==> qs[k].name != name
    decreases |qs|
  {
    if |qs| == 0 then None
    else if qs[0].name == name then Some(qs[0].value)
    else
      var r := Lookup(qs[1..], name);
      assert forall i :: 1 <= i < |qs| ==> qs[i] == qs[1..][i - 1];
      if r.Some? then
        var i :| 0 <= i < |qs[1..]| && qs[1..][i].name == name && qs[1..][i].value == r.value
                 && forall k :: 0 <= k < i ==> qs[1..][k].name != name;
        assert qs[i + 1].name == name && forall k :: 0 <= k < i + 1 ==> qs[k].name != name;
        r
      else r
  }

  /** Looking up in a concatenation looks in the first part, then the second. */
  lemma {:induction false} LookupConcat(a: seq<QueryItem>, b: seq<QueryItem>, name: string)
    ensures Lookup(a + b, name) == if Lookup(a, name).Some? then Lookup(a, name) else Lookup(b, name)
    decreases |a|
  {
    if |a| > 0 {
      assert (a + b)[1..] == a[1..] + b;
      LookupConcat(a[1..], b, name);
    } else {
      assert a + b == b;
    }
  }

  /** A list of names with optional values; only the named values become
      query items. */
  type Entries = seq<(string, Option<string>)>

  /** The item for one entry: none when it has no value. */
  function EntryItem(entry: (string, Option<string>)): seq<QueryItem> {
    if entry.1.Some? then [Item(entry.0, entry.1.value)] else []
  }

  /** One item for each entry that has a value, in order. */
  function PresentItems(entries: Entries): (r: seq<QueryItem>)
    ensures |r| <= |entries|
    decreases |entries|
  {
    if |entries| == 0 then [] else EntryItem(entries[0]) + PresentItems(entries[1..])
  }

  /** Five entries, unrolled. */
  lemma PresentItemsOfFive(a: (string, Option<string>), b: (string, Option<string>), c: (string, Option<string>),
                           d: (string, Option<string>), e: (string, Option<string>))
    ensures PresentItems([a, b, c, d, e])
            == EntryItem(a) + (EntryItem(b) + (EntryItem(c) + (EntryItem(d) + EntryItem(e))))
  {
    assert PresentItems([e]) == EntryItem(e) by { assert [e][1..] == []; }
    assert PresentItems([d, e]) == EntryItem(d) + EntryItem(e) by { assert [d, e][1..] == [e]; }
    assert PresentItems([c, d, e]) == EntryItem(c) + (EntryItem(d) + EntryItem(e)) by {
      assert [c, d, e][1..] == [d, e];
    }
    assert PresentItems([b, c, d, e]) == EntryItem(b) + (EntryItem(c) + (EntryItem(d) + EntryItem(e))) by {
      assert [b, c, d, e][1..] == [c, d, e];
    }
    assert [a, b, c, d, e][1..] == [b, c, d, e];
  }

  predicate DistinctNames(entries: Entries) {
    forall i, j :: 0 <= i < j < |entries| ==> entries[i].0 != entries[j].0
  }

  /** The value listed for a name: nothing when the name is missing or
      listed without a value. */
  function EntryValue(entries: Entries, n: string): Option<string>
    decreases |entries|
  {
    if |entries| == 0 then None
    else if entries[0].0 == n then entries[0].1
    else EntryValue(entries[1..], n)
  }

  lemma {:induction false} EntryValueAbsent(entries: Entries, n: string)
    requires forall i :: 0 <= i < |entries| ==> entries[i].0 != n
    ensures EntryValue(entries, n).None?
    decreases |entries|
  {
    if |entries| > 0 {
      assert forall i :: 0 <= i < |entries[1..]| ==> entries[1..][i] == entries[i + 1];
      EntryValueAbsent(entries[1..], n);
    }
  }

  /** With distinct names, the value listed for a name is the one at its position. */
  lemma {:induction false} EntryValueAt(entries: Entries, k: nat, n: string)
    requires DistinctNames(entries)
    requires k < |entries| && entries[k].0 == n
    ensures EntryValue(entries, n) == entries[k].1
    decreases k
  {
    if k > 0 {
      assert entries[0].0 != n;
      EntryValueAt(entries[1..], k - 1, n);
    }
  }

  /** Reading the items back by name gives the listed value, when the
      names are distinct. */
  lemma {:induction false} PresentItemsLookup(entries: Entries, n: string)
    requires DistinctNames(entries)
    ensures Lookup(PresentItems(entries), n)
            == if EntryValue(entries, n).Some? then Some(EntryValue(entries, n)) else None
    decreases |entries|
  {
    if |entries| > 0 {
      var rest := entries[1..];
      assert forall i :: 0 <= i < |rest| ==> rest[i] == entries[i + 1];
      LookupConcat(EntryItem(entries[0]), PresentItems(rest), n);
      PresentItemsLookup(rest, n);
      if entries[0].0 == n {
        EntryValueAbsent(rest, n);
      }
    }
  }

  // Rendering as `absoluteString`. Percent-encoding is not modelled: every
  // value the endpoints put in a URL is taken to be URL-safe.

  function RenderItem(q: QueryItem): string {
    match q.value
    case None => q.name
    case Some(v) => q.name + "=" + v
  }

  /** The items joined with `&`. */
  function RenderQuery(qs: seq<QueryItem>): (r: string)
    ensures |qs| == 0 ==> r == ""
    ensures |qs| > 0 ==> var last := RenderItem(qs[|qs| - 1]); |last| <= |r| && r[|r| - |last|..] == last
    decreases |qs|
  {
    if |qs| == 0 then ""
    else if |qs| == 1 then RenderItem(qs[0])
    else RenderQuery(qs[..|qs| - 1]) + "&" + RenderItem(qs[|qs| - 1])
  }

  /** `absoluteString`. */
  function AbsoluteString(u: Url): (r: string)
    ensures BaseAddress + u.path <= r
    ensures |u.query| == 0 <==> r == BaseAddress + u.path
    ensures |u.query| > 0 ==> r[|BaseAddress + u.path|..] == "?" + RenderQuery(u.query)
  {
    BaseAddress + u.path + (if |u.query| == 0 then "" else "?" + RenderQuery(u.query))
  }

  /** A URL with one query item renders as `base path ? item`. */
  lemma RenderSingle(u: Url)
    requires |u.query| == 1
    ensures AbsoluteString(u) == BaseAddress + u.path + "?" + RenderItem(u.query[0])
  {
  }

  /** Appending a query item adds `?item` or `&item` at the end of the
      rendered URL and changes nothing before it. */
  lemma AppendingQueryItemRendering(u: Url, item: QueryItem)
    ensures AbsoluteString(AppendingQueryItem(u, item))
         == AbsoluteString(u) + (if |u.query| == 0 then "?" else "&") + RenderItem(item)
  {
    var qs := u.query + [item];
    assert qs[..|qs| - 1] == u.query;
  }

  /** On a URL without a query, appending a path component adds `/component`
      (or just `component` after a trailing `/`) at the end of the rendering. */
  lemma AppendingPathComponentRendering(u: Url, component: string)
    requires |u.query| == 0
    ensures AbsoluteString(AppendingPathComponent(u, component))
         == AbsoluteString(u) + (if EndsWithSlash(u.path) then "" else "/") + component
  {
  }

  /** Appending a list of items in two parts is appending the whole list. */
  lemma {:induction false} AppendingQueryItemsSplit(u: Url, a: seq<QueryItem>, b: seq<QueryItem>)
    ensures AppendingQueryItems(AppendingQueryItems(u, a), b) == AppendingQueryItems(u, a + b)
  {
    assert u.query + a + b == u.query + (a + b);
  }

  /** The `limit` value reads back as the limit: the empty string for `nil`,
      and a string `asInt` parses to the limit otherwise. */
  lemma LimitQueryReadsBack(u: Url, limit: Option<Int64>)
    ensures var r := AppendingLimitQuery(u, if limit.Some? then Some(limit.value as int) else None);
            var v := r.query[|r.query| - 1].value;
            && r.query[|r.query| - 1].name == "limit"
            && v.Some?
            && (limit.None? <==> v.value == "")
            && (limit.Some? ==> AsInt(v.value) == limit)
  {
    if limit.Some? {
      IntStringRoundTrip(limit.value);
    }
  }
}

=== FILE: users.dfy ===
/** The `Users` endpoint enumeration (Networking/API/Users/Users.swift):
    both cases are GETs without body or headers under `users/<userId>`. */
module UsersEndpoint {
  import opened Wrappers
  import opened Types
  import opened Urls
  import opened Endpoints

  datatype Users =
    | GetWatching(userId: string, infoLevel: InfoLevel)
    | GetStats(userId: string)

  /** The resource under the user: the info level plays no part in it. */
  function Resource(u: Users): (r: string)
    ensures |r| > 0 && r[0] == '/'
  {
    match u
    case GetWatching(_, _) => "/watching"
    case GetStats(_) => "/stats"
  }

  const UsersRoot: Url := AppendingPathComponent(BaseUrl, "users")

  /** `url`: the user id and the resource as one component, no query. */
  function UsersUrl(u: Users): (r: Url)
    ensures r.path == "/users/" + u.userId + Resource(u)
    ensures r.query == []
  {
    var c := u.userId + Resource(u);
    var v := AppendingPathComponent(UsersRoot, c);
    assert UsersRoot == Url("/users", []);
    assert v.path == "/users" + "/" + c;
    assert "/users" + "/" + c == "/users/" + u.userId + Resource(u);
    v
  }

  /** The descriptor: `httpMethod`, `url`, `httpBody`, `requestHeaders`. */
  function UsersEndpoint(u: Users): (e: Endpoint<NoBody>)
    ensures e.httpMethod == GET && e.body.None? && e.headers == map[]
    ensures e.url == UsersUrl(u)
  {
    Endpoint(GET, UsersUrl(u), None, map[])
  }

  /** The URL names the user and the resource, and nothing else: two
      requests share a URL exactly when they ask for the same resource of
      the same user, whatever info level `getWatching` carries. */
  lemma UrlNamesUserAndResource(a: Users, b: Users)
    ensures UsersUrl(a) == UsersUrl(b) <==> a.userId == b.userId && a.GetWatching? == b.GetWatching?
  {
    var pa, pb := UsersUrl(a).path, UsersUrl(b).path;
    if pa == pb {
      var ra, rb := Resource(a), Resource(b);
      assert pa[|pa| - 1] == ra[|ra| - 1];
      assert pb[|pb| - 1] == rb[|rb| - 1];
      assert a.GetWatching? == b.GetWatching?;
      assert a.userId == pa[|"/users/"|..|pa| - |ra|];
      assert b.userId == pb[|"/users/"|..|pb| - |rb|];
    }
  }

  /** For the same user, watching and stats are different URLs. */
  lemma WatchingAndStatsDiffer(userId: string, info: InfoLevel)
    ensures UsersUrl(GetWatching(userId, info)) != UsersUrl(GetStats(userId))
  {
    UrlNamesUserAndResource(GetWatching(userId, info), GetStats(userId));
  }

  /** The URLs the endpoint tests use. */
  lemma WatchingForTestUser()
    ensures UsersUrl(GetWatching("test", Full)).path == "/users/test/watching"
  {
  }

  lemma StatsForTestUser()
    ensures UsersUrl(GetStats("test")).path == "/users/test/stats"
  {
  }
}

=== FILE: userscache.dfy ===
/** The cache table of the user endpoints
    (TraktKit/Networking/API/Users/CacheConfig+Users.swift). */
module UsersCache {
  import opened Types
  import opened UsersEndpoint
  import opened CacheKeys

  /** `name`. */
  function Name(u: Users): (r: string)
    ensures r != "" && '_' !in r
    ensures u.GetWatching? <==> r == "getWatching"
  {
    match u
    case GetWatching(_, _) => "getWatching"
    case GetStats(_) => "stats"
  }

  /** What a key holds after `<name>_`: the user id and, for
      `getWatching`, the raw info level, joined by `_`. */
  function Fields(u: Users): (r: string)
    ensures u.userId <= r
    ensures r == u.userId <==> u.GetStats?
  {
    match u
    case GetWatching(userId, info) => userId + "_" + info.Raw()
    case GetStats(userId) => userId
  }

  /** `key`: the name, `_`, and the fields. */
  function Key(u: Users): (r: string)
    ensures Name(u) + "_" + u.userId <= r
  {
    Name(u) + "_" + Fields(u)
  }

  /** Both values of a request are in its key: two requests share a key
      exactly when they are the same request, although a user id may itself
      contain `_`. */
  lemma {:induction false} KeyIdentifies(a: Users, b: Users)
    ensures Key(a) == Key(b) <==> a == b
  {
    if Key(a) == Key(b) {
      FirstFieldOf(Name(a), Fields(a));
      FirstFieldOf(Name(b), Fields(b));
      assert Name(a) == Name(b);
      DropPrefix(Name(a) + "_", Fields(a), Fields(b));
      if a.GetWatching? {
        WatchingFieldsIdentify(a.userId, a.infoLevel, b.userId, b.infoLevel);
      }
    }
  }

  lemma WatchingFieldsIdentify(userId: string, info: InfoLevel, userId': string, info': InfoLevel)
    requires userId + "_" + info.Raw() == userId' + "_" + info'.Raw()
    ensures userId == userId' && info == info'
  {
    assert '_' !in info.Raw() && '_' !in info'.Raw();
    SplitAtLast('_', userId, info.Raw(), userId', info'.Raw());
    RawValuesInjective();
  }

  /** `diskMaxSize`: 1 for both cases. */
  function DiskMaxSize(u: Users): (r: nat)
    ensures r == 1
  {
    match u
    case GetWatching(_, _) => 1
    case GetStats(_) => 1
  }

  /** `memoryMaxItemCount`: 1 for both cases. */
  function MemoryMaxItemCount(u: Users): (r: nat)
    ensures r == 1
  {
    match u
    case GetWatching(_, _) => 1
    case GetStats(_) => 1
  }

  /** `allCases`: one representative of each case. */
  function AllCases(): (r: seq<Users>)
    ensures |r| == 2 && r[0].GetWatching? && r[1].GetStats?
  {
    [GetWatching("", InfoLevel.Min), GetStats("")]
  }
}

=== FILE: wrappers.dfy ===
/** Optional values and success/failure results, the two sum types every
    other module uses in place of Swift's `Optional` and `Result`. */
module Wrappers {

  /** Swift's `Optional`. */
  datatype Option<+T> = None | Some(value: T) {

    /** The wrapped value, or `default` when there is none (Swift's `??`). */
    function GetOr(default: T): T {
      match this
      case Some(v) => v
      case None => default
    }
  }

  /** Swift's `Result<Success, Failure>`. */
  datatype Result<+T, +E> = Success(value: T) | Failure(error: E)
}
